=== FILE: README.md ===
# SEO audit toolkit: a verified model of its rule engines

The toolkit audits web pages for search-engine optimisation. It has five analysers and a command-line front end:

- a technical auditor runs eight page checks and scores the page;
- a structured-data validator extracts JSON-LD and microdata and validates them against schema.org rules;
- a sitemap analyser inspects sitemap indexes and URL sets and finds the sitemaps of a domain;
- a mobile-friendliness checker inspects the viewport, responsive design, touch targets, fonts and resources;
- a Core Web Vitals analyser classifies Lighthouse metrics and compares URLs;
- the command-line tool renders results as CSV.

This project models the decision logic of each analyser as pure Dafny functions over the documents they read, and proves what the rules promise:

- which status each check reports;
- how issues are counted;
- what the scores are, and that they stay in range;
- how duplicates, rankings and recommendations behave;
- the shape of the CSV output.

Everything the analysers get from outside appears here as data or as a function-valued parameter:

- HTTP responses;
- the HTML, XML and JSON parsers;
- `urlparse`, `urljoin` and `fromisoformat`;
- `float()`;
- the rendering of numbers.

## Layout

| file | module | contents |
|---|---|---|
| common.dfy | `Common` | `Option`, `Result`, `Fetch`, Python floats as returned by `float()`, clamping, counting and filtering |
| text.dfy | `Text` | Python `str` operations: `strip`, `lower` on ASCII letters, `split`/`join`, `splitlines`, `startswith`, `in`, `str(n)` and `int(s)` |
| pyjson.dfy | `PyJson` | decoded JSON values and Python's `in` and iteration over them |
| technical_audit.dfy | `TechnicalAudit` | the eight checks, dispatch, issue counting, score |
| schema_validator.dfy | `SchemaValidator` | extraction, per-type validation, page type, recommendations, score |
| sitemap_analyzer.dfy | `SitemapAnalyzer` | index and URL-set analysis, duplicate counting, recommendations, sitemap discovery |
| mobile_checker.dfy | `MobileChecker` | viewport directives, responsive design, touch targets, fonts, resources, score, recommendations |
| core_web_vitals.dfy | `CoreWebVitals` | threshold classifiers, metric extraction, advice, stable ranking and averages |
| csv_report.dfy | `CsvReport` | the bulk CSV table and the full-audit CSV summary |

## Model

| member | source | states |
|---|---|---|
| TechnicalAudit.CheckTitle | python/technical_audit.py:107-145 | An absent title is an error. Otherwise the status is ok exactly when the stripped length is 30 to 60 and the lower-cased text is not a generic title; a generic title is an error, overriding a length warning. |
| TechnicalAudit.GenericTitleOverridesWarning | python/technical_audit.py:124-135 | Every generic title is shorter than 30 characters, yet it reports error rather than warning, with two recommendations. |
| TechnicalAudit.CheckMetaDescription | python/technical_audit.py:147-188 | A missing tag or empty content is an error. A stripped length outside 120 to 160 is a warning. A description equal to the stripped title is an error, overriding the length result. |
| TechnicalAudit.BlankDescriptionIsShort | python/technical_audit.py:160-176 | Whitespace-only content passes the presence test and is then reported as a too-short description of length 0. |
| TechnicalAudit.Summarize | python/technical_audit.py:196-205 | Each heading level reports its full count and the stripped texts of at most its first five headings. |
| TechnicalAudit.CheckHeadings | python/technical_audit.py:190-228 | Reports all six levels. No h1 is an error and several h1 a warning. An h3 without any h2 turns the status into warning, even over the missing-h1 error. |
| TechnicalAudit.TallyImagesCounts | python/technical_audit.py:239-256 | The image counters equal the numbers of images without alt, with empty alt, and lacking width or height. |
| TechnicalAudit.CheckImages | python/technical_audit.py:230-276 | The missing-alt and empty-alt counts together never exceed the total. Error exactly when some image has no alt. Ok exactly when no image lacks alt or dimensions and none has an empty alt. |
| TechnicalAudit.CheckCanonical | python/technical_audit.py:278-302 | No canonical link gives a warning and no URL. Otherwise the href (empty when absent) is reported; an empty href is an error, an href starting with `http://` or `https://` is ok, and any other href is a warning. |
| TechnicalAudit.CheckRobotsMeta | python/technical_audit.py:304-327 | Never an error; an absent tag is ok; otherwise a warning exactly when the lower-cased content holds `noindex` or `nofollow`. |
| TechnicalAudit.CheckSchema | python/technical_audit.py:329-353 | The check raises exactly when some JSON-LD block raises `TypeError`. Otherwise it is an error exactly when a block is malformed, and a warning only when there are no blocks. With blocks present, one type is listed per block carrying a type and one piece of advice per malformed block. |
| TechnicalAudit.ScanBlocksCounts | python/technical_audit.py:340-348 | Over blocks that do not raise, the types found are one per block with a type, and the advice is the invalid-JSON-LD line once per malformed block. |
| TechnicalAudit.TallyLinksCounts | python/technical_audit.py:364-394 | The unguarded-external counter is the number of external links lacking both `nofollow` and `noopener`. Internal plus external is the number of links not skipped. |
| TechnicalAudit.CheckLinks | python/technical_audit.py:355-396 | Never an error. Internal plus external equals total minus the empty and fragment links. Warning exactly when some external link is unguarded, with one recommendation per such link. |
| TechnicalAudit.Dispatch | python/technical_audit.py:76-89 | A check name has no handler exactly when it is not one of the eight known names. Each known name runs its own check on the page: `title` the title check, `meta_description` the description check, and likewise for headings, images, canonical, robots and links. `schema` raises exactly when the schema check raises, and otherwise reports its result. |
| TechnicalAudit.KindOfTable | python/technical_audit.py:76-85 | The handler table: the eight names map to their eight checks and every other name maps to none. |
| TechnicalAudit.DefaultChecksKnown | python/technical_audit.py:46-50 | Every default check name has a handler. |
| TechnicalAudit.RunChecks | python/technical_audit.py:87-98 | The run fails exactly when some requested check raises. Otherwise the checks recorded are exactly the requested names that have a handler, and each records the report its own check produced. |
| TechnicalAudit.TallyCounts | python/technical_audit.py:87-98 | Each check that runs increments exactly one of critical, warnings and passed, according to its status. |
| TechnicalAudit.UnknownNamesSkipped | python/technical_audit.py:87-89 | Dropping the names without a handler from the request changes nothing. |
| TechnicalAudit.Score | python/technical_audit.py:100-103 | The score lies in [0, 100]. It is 0 when no check ran, and otherwise the truncated percentage of passed checks. It is 100 exactly when every check that ran passed. |
| TechnicalAudit.FloorPercent | python/technical_audit.py:102-103 | A truncated percentage of p out of t brackets 100p/t, stays within [0, 100], and is 100 exactly when p = t. |
| TechnicalAudit.AuditWebsite | python/technical_audit.py:34-105 | A failed fetch gives status error with the request's message and score 0. A fetched page is checked with the requested (or default) names, counted and scored, and each recorded check holds the report that name's handler produced on the page. A check that raises makes the whole audit fail. |
| TechnicalAudit.DefaultAuditCountsEight | python/technical_audit.py:46-50 | The default audit, when it completes, counts exactly eight checks. |
| TechnicalAudit.ParseReportFormat | python/technical_audit.py:410-417 | Only `json`, `text` and `html` are accepted; any other format fails with `Unsupported format: ` and the format. |
| SchemaValidator.MissingFieldsIff | python/schema_validator.py:233-247 | A listed field is reported exactly when the object lacks it, and every message names a listed, missing field. |
| SchemaValidator.MissingFieldsCard | python/schema_validator.py:233-247 | For a field list without repeats, the number of messages is the number of distinct missing fields. |
| SchemaValidator.FieldMessageInjective | python/schema_validator.py:233-247 | Different field names give different messages. |
| SchemaValidator.ValidateOrganization | python/schema_validator.py:229-252 | The errors are the earlier ones followed by one message per missing required field, in list order. The warnings are the earlier ones, then one per missing recommended field, then the logo warning exactly when `logo` is a dictionary without `@type`. |
| SchemaValidator.OfferErrors | python/schema_validator.py:262-275 | Raises exactly when some offer is a scalar; otherwise one error per offer lacking price plus one per offer lacking currency. |
| SchemaValidator.ValidateProduct | python/schema_validator.py:254-285 | Raises exactly when iterating the offers raises. Otherwise the earlier findings are kept as a prefix; the missing required fields are errors and the missing recommended fields are the only new warnings. |
| SchemaValidator.ValidateArticle | python/schema_validator.py:287-313 | The errors are the earlier ones, then one per missing required article field, then the image error exactly when `image` is an empty list. The warnings are the earlier ones followed by one per missing recommended field. |
| SchemaValidator.BreadcrumbItems | python/schema_validator.py:322-334 | Raises exactly when some item is a scalar; otherwise one error per item lacking position plus one per item lacking name. |
| SchemaValidator.ValidateBreadcrumb | python/schema_validator.py:315-336 | A missing item list is an error and a non-list item list is an error. For a list, the errors are the earlier ones followed by the per-item messages of `BreadcrumbItems`. Warnings are untouched. |
| SchemaValidator.FaqQuestions | python/schema_validator.py:345-359 | Raises exactly when a question is one whose `@type` test raises; otherwise one error per element that is not a Question. |
| SchemaValidator.ValidateFaq | python/schema_validator.py:338-361 | A missing `mainEntity` is an error. Otherwise the errors are the earlier ones followed by the per-question messages of `FaqQuestions` over the entity as a list. Warnings are untouched. |
| SchemaValidator.ValidateRecipe | python/schema_validator.py:363-381 | The errors are the earlier ones followed by one per missing required recipe field; the warnings likewise with the recommended fields. |
| SchemaValidator.GenericRules | python/schema_validator.py:196-209 | A missing `@type` is one error; a missing `@context` is one warning, but only for records without the microdata marker. |
| SchemaValidator.ValidateWith | python/schema_validator.py:190-227 | Validation fails for non-objects and for a non-string `@type`. The reported type is `@type`, or `unknown` when absent, in which case the missing-type error is present. |
| SchemaValidator.RulesFor | python/schema_validator.py:212-225 | The lower-cased type selects the organization rules exactly when it is in the organization list. Otherwise it selects the product, article (also `newsarticle` and `blogposting`), breadcrumb, FAQ or recipe rules exactly when it equals that name, and no specific rules for any other name. |
| SchemaValidator.ValidateWithDispatch | python/schema_validator.py:205-227 | A dispatchable object gets the generic rules and then exactly the rule set its lower-cased type selects. The product, breadcrumb and FAQ rules may raise, and then the whole validation raises. |
| SchemaValidator.TypeRules | python/schema_validator.py:212-225 | The type-specific rules keep the reported type, and keep every earlier error and warning as a prefix. |
| SchemaValidator.LocalBusinessSkipsOrganizationRules | python/schema_validator.py:212-225 | As written, `{"@type": "LocalBusiness"}` with a context passes with no error and no warning: the organization rules never run. |
| SchemaValidator.LocalBusinessGetsOrganizationRules | python/schema_validator.py:212-225 | With the corrected type list, a local business without `name` and `url` gets both required-field errors. |
| SchemaValidator.UnknownTypeGenericOnly | python/schema_validator.py:212-225 | An object whose lower-cased type has no specific rules gets only the generic ones. |
| SchemaValidator.ApplyPropsKeys | python/schema_validator.py:174-186 | A key is in the record after the properties exactly when it was there before or some property with a non-empty value sets it. |
| SchemaValidator.ApplyPropsLastWriter | python/schema_validator.py:174-186 | A key holds the value of the last property that sets it: later properties overwrite earlier ones. |
| SchemaValidator.ApplyPropsUntouched | python/schema_validator.py:174-186 | A key no property sets keeps its original value, so the item type survives unless a property named `@type` overwrites it. |
| SchemaValidator.ParseMicrodata | python/schema_validator.py:164-188 | No record without a non-empty itemtype. Otherwise the record carries `@type` and the microdata marker, and `@type` is the last path segment of itemtype unless a property overwrites it. |
| SchemaValidator.BlockData | python/schema_validator.py:143-152 | A blank or undecodable block contributes nothing; a decoded list contributes its elements and any other value itself. |
| SchemaValidator.LdData | python/schema_validator.py:141-152 | Extraction raises exactly when some JSON-LD script has no string content. |
| SchemaValidator.LdDataConcat | python/schema_validator.py:141-152 | When no script raises, the JSON-LD values are each block's contribution joined in document order: nothing for a blank or undecodable block, the items of a list, or the decoded value. |
| SchemaValidator.MicroData | python/schema_validator.py:155-160 | One record per microdata item with an itemtype, each carrying the microdata marker. |
| SchemaValidator.ExtractStructuredData | python/schema_validator.py:136-162 | Raises exactly when a JSON-LD script has no string content. Otherwise the values are the JSON-LD values followed by the microdata records, one per item with an `itemtype`. |
| SchemaValidator.UrlPageType | python/schema_validator.py:386-398 | The URL decides a page type exactly when it ends in `/` or holds a known path marker. Each type is chosen exactly when its rule matches and no earlier rule does, in the order homepage, product, article, local, event, faq, recipe. Every decided type has recommended schemas. |
| SchemaValidator.SchemaTypes | python/schema_validator.py:400-409 | The lower-cased types listed are exactly those of the objects among the schemas. |
| SchemaValidator.DetectPageType | python/schema_validator.py:383-411 | A URL-decided type wins. Otherwise the result is product exactly when some schema has type product, article exactly when none does and some has type article, NewsArticle or BlogPosting, and general in every other case. |
| SchemaValidator.GenerateRecommendations | python/schema_validator.py:413-449 | One suggestion per recommended schema whose lower-cased name is not among the found types. Every such schema is suggested. |
| SchemaValidator.AllFoundNoConsiderations | python/schema_validator.py:413-449 | When every recommended schema is found (case-insensitively), no `Consider adding` suggestion is made. What remains are only the fixed advice lines, one each for no schema at all, a homepage without WebSite, a product without Review and an article without BreadcrumbList. |
| SchemaValidator.GeneralPageNoConsiderations | python/schema_validator.py:419-427 | A general page with found schemas gets no suggestion. |
| SchemaValidator.CalculateScore | python/schema_validator.py:451-468 | An error status scores 0. Otherwise the score is 100 minus 10 per error and 5 per warning, plus 10 when any schema was found, clamped to [0, 100]: the raw value when it is in range, 0 below and 100 above. |
| SchemaValidator.ScoreMonotone | python/schema_validator.py:451-468 | More errors or warnings never raise the score. |
| SchemaValidator.ValidateAll | python/schema_validator.py:66-82 | The loop completes exactly when every schema validates, recording each schema's type in order. |
| SchemaValidator.ValidateAllGathers | python/schema_validator.py:74-80 | When no schema raises, every error and warning of every schema is collected, and every collected message comes from some schema. |
| SchemaValidator.ValidateAllConcat | python/schema_validator.py:74-80 | When no schema raises, the collected errors are every schema's errors joined in order, repeats included, and the warnings likewise. |
| SchemaValidator.ValidateUrlWith | python/schema_validator.py:41-99 | A failed fetch is an error with the request's message. A fetched page is an error exactly when extraction raises or some schema's validation raises. A score is present exactly when the status is not error, and it is the score of the reported error and warning counts. A page without structured data has status warning, no errors, only the no-data warning and only the add-markup advice. Otherwise one type per schema is recorded, the page type is detected, and a completed run's advice is the recommendation table's for that page type and those types. |
| SchemaValidator.ValidateUrlGathers | python/schema_validator.py:66-82 | A completed run records the type of each extracted schema at its index and collects every error and warning each schema reports; every collected error comes from some schema. |
| SchemaValidator.ValidateUrlConcat | python/schema_validator.py:74-80 | A completed run's errors are every schema's errors joined in document order, repeats included, and its warnings likewise, so the score counts each one. |
| SchemaValidator.NoDataScore | python/schema_validator.py:84-99 | A page without structured data scores 95: one warning and no bonus. |
| SchemaValidator.ValidateJsonWith | python/schema_validator.py:101-134 | Valid exactly when the text decodes and validates without errors; an invalid result always carries an error. Undecodable text reports the decoder's message and type `unknown`. |
| SchemaValidator.LocalBusinessJsonValid | python/schema_validator.py:101-134 | As written, `validate_json` of a bare LocalBusiness object is valid with no errors. |
| SchemaValidator.LocalBusinessJsonInvalid | python/schema_validator.py:101-134 | With the corrected organization list, the same object is invalid. |
| SitemapAnalyzer.Utf8Length | python/sitemap_analyzer.py:166-169 | The UTF-8 size of a text is between one and four bytes per character. |
| SitemapAnalyzer.SizeLimitBounds | python/sitemap_analyzer.py:28-29 | Text of at most a quarter of the byte limit in characters is never too large, and text longer than the limit in characters always is. |
| SitemapAnalyzer.RoundHalfEven | python/sitemap_analyzer.py:257-267 | The rounded quotient is within half a unit of the exact one and exact when the division is. |
| SitemapAnalyzer.Tenths | python/sitemap_analyzer.py:257-267 | A percentage in tenths lies in [0, 1000]. It is 0 for no matching URLs and 1000 for all of them; 0 and 1000 only arise when the share rounds to them. |
| SitemapAnalyzer.IndexFindings | python/sitemap_analyzer.py:119-142 | One error per index entry without a location. The warnings are each entry's relative-URL and bad-lastmod warnings, joined in entry order. There are no info messages. |
| SitemapAnalyzer.IndexEntryFindings | python/sitemap_analyzer.py:119-140 | An entry without a location gives only the missing-loc error. Otherwise a relative location and a bad lastmod each give a warning. |
| SitemapAnalyzer.AnalyzeIndex | python/sitemap_analyzer.py:105-145 | A parse error gives only that error. Otherwise urls_count and child_sitemaps both equal the number of entries. Zero entries give only `No sitemaps found in index`, and any other index gets the findings of the entry loop. |
| SitemapAnalyzer.LimitErrors | python/sitemap_analyzer.py:161-169 | One error for more than 50,000 URLs and one for more than 52,428,800 UTF-8 bytes. |
| SitemapAnalyzer.AddCode | python/sitemap_analyzer.py:272-288 | Counting a status code adds one to the total, keeps every earlier code and makes the new code present. |
| SitemapAnalyzer.AddCodeDistinct | python/sitemap_analyzer.py:278-280 | Each code keeps a single counter. |
| SitemapAnalyzer.Step | python/sitemap_analyzer.py:186-254 | One entry marks its location seen and counts a duplicate exactly when the location was seen before. It counts as invalid exactly when it has a location that lacks a scheme or a network location. An entry without a location adds `URL entry i missing <loc> tag`, an invalid one adds `Invalid URL: u`, and a valid one adds no error. A status code is counted only for a valid entry among the first ten with checking on and a reachable URL. |
| SitemapAnalyzer.StepFieldCounts | python/sitemap_analyzer.py:219-240 | An entry adds to the lastmod, changefreq and priority tallies only when its location is valid, and then exactly for the fields it carries. |
| SitemapAnalyzer.OptionalFieldWarnings | python/sitemap_analyzer.py:218-248 | A present lastmod gets its warning exactly when the date does not parse. A present changefreq gets one exactly when its lower-cased text is not one of the seven frequencies. A present priority gets the format warning exactly when `float()` fails, and the range warning exactly when the number lies outside [0, 1]. There is one message per failing field. |
| SitemapAnalyzer.FieldWarningsDiffer | python/sitemap_analyzer.py:223-248 | The lastmod, changefreq, priority-format and priority-value warnings differ from one another whatever texts they quote. |
| SitemapAnalyzer.StepWarnings | python/sitemap_analyzer.py:186-254 | An entry keeps the earlier warnings as a prefix. A valid entry adds every warning its optional fields earn. Any other entry adds only the duplicate warning, and only when its location was seen before. |
| SitemapAnalyzer.Probe | python/sitemap_analyzer.py:252-288 | Checking one URL changes only the status codes and the findings. It counts one code exactly when checking is on and the URL answered, keeps each code's single counter, and never adds an error. |
| SitemapAnalyzer.ScanUrls | python/sitemap_analyzer.py:186-254 | After the loop the seen set is the set of locations. Duplicates are the number of locations minus the distinct ones, and the invalid count is the number of invalid entries. The error count is the entries without a location plus the invalid ones. Each of the lastmod, changefreq and priority tallies is the number of valid entries carrying that field. |
| SitemapAnalyzer.ScanUrlsErrors | python/sitemap_analyzer.py:193-210 | The loop's errors are exactly each entry's missing-location or invalid-URL error, joined in entry order. |
| SitemapAnalyzer.DuplicatesBelowTotal | python/sitemap_analyzer.py:199-203 | A URL set with at least one entry has at most one fewer duplicates than entries. |
| SitemapAnalyzer.NoRepeatsNoDuplicates | python/sitemap_analyzer.py:199-203 | A URL set without repeated locations has no duplicates. |
| SitemapAnalyzer.AnalyzeUrls | python/sitemap_analyzer.py:147-270 | A parse error gives only that error. An empty URL set gives only `No URLs found in sitemap`. Otherwise urls_count is the number of entries and the limit errors come first. |
| SitemapAnalyzer.Analyze | python/sitemap_analyzer.py:31-85 | A failed fetch is an error. Otherwise an index marker wins over a URL-set marker, and a document with neither is an invalid format. An index reports what the index analysis reports, a URL set what the URL analysis reports, and the advice follows from the status, kind, count and statistics. |
| SitemapAnalyzer.CodeRecommendations | python/sitemap_analyzer.py:329-335 | One `Fix N URLs returning C status codes` line per status code of 400 or above, and every line is one of these. |
| SitemapAnalyzer.PriorityAdvice | python/sitemap_analyzer.py:337-346 | A 100% share gives only the vary-priority suggestion, a 0% share only the add-priority suggestion, and any other share none. |
| SitemapAnalyzer.OnlyPriorityAdviceVaries | python/sitemap_analyzer.py:298-351 | No line other than the priority rule's can be the vary-priority suggestion. |
| SitemapAnalyzer.Recommendations | python/sitemap_analyzer.py:290-353 | An error status yields only the fix-errors recommendation. Otherwise the count is the sum of the rules. No URLs asks to add URLs and more than 45,000 to split. A lastmod share below 50% gives its percentage line. Duplicates, invalid URLs and each error status code get their lines with their counts. Vary-priority appears exactly when the priority share is 100%, and add-priority at 0%. A URL set of more than 10,000 URLs suggests an index. |
| SitemapAnalyzer.AllPrioritiesVary | python/sitemap_analyzer.py:337-341 | A URL set in which every checked entry has a priority is advised to vary priorities. |
| SitemapAnalyzer.AllPrioritiesCounted | python/sitemap_analyzer.py:236-238 | When every entry is checked and has a priority, the priority counter equals the number of entries. |
| SitemapAnalyzer.SiteRoot | python/sitemap_analyzer.py:365-366 | The domain becomes an absolute URL, unchanged when it already has a scheme. |
| SitemapAnalyzer.SitemapLineColon | python/sitemap_analyzer.py:393-394 | In a `Sitemap:` line the first colon is the eighth character, so the URL is what follows the directive. |
| SitemapAnalyzer.RobotsSitemaps | python/sitemap_analyzer.py:391-397 | One URL per line of robots.txt whose lower-cased form starts with `sitemap:`. |
| SitemapAnalyzer.AppendNew | python/sitemap_analyzer.py:395-396 | Appending only unseen items keeps the earlier list as a prefix, contains exactly the old and new items, and keeps the list free of repeats. |
| SitemapAnalyzer.ProbedSitemaps | python/sitemap_analyzer.py:400-409 | A URL is kept exactly when it is the join of the root with one of the probed paths and it answered 200. |
| SitemapAnalyzer.FindSitemaps | python/sitemap_analyzer.py:355-411 | The result has no repeats and starts with the robots.txt entries in first-seen order. It contains exactly the robots.txt entries and the probed paths that answered. |
| SitemapAnalyzer.RobotsEntriesFirst | python/sitemap_analyzer.py:390-409 | Every robots.txt entry comes before every probed URL not named in robots.txt. |
| MobileChecker.Directive | python/mobile_checker.py:125-129 | A fragment yields a directive exactly when it contains `=`. The stripped fragment is split at its first `=`, and the key and value are the two sides, each stripped. |
| MobileChecker.Directives | python/mobile_checker.py:125-129 | A key is present exactly when some fragment sets it, and it holds the value of the last fragment that does. |
| MobileChecker.DirectiveRules | python/mobile_checker.py:132-157 | `float()` of maximum-scale raises exactly when it is not a number. The issues are the missing width and, unless that raises, disabled user scaling. The warnings are a width other than device-width and an initial scale other than 1. |
| MobileChecker.CheckViewport | python/mobile_checker.py:98-157 | An absent tag gives one issue and marks the viewport absent. Empty content gives one issue. Otherwise the directive rules apply to the parsed content. |
| MobileChecker.FirstMatchLeftmost | python/mobile_checker.py:257-263 | The font-size search finds a match exactly when there is one, and finds the leftmost. |
| MobileChecker.SmallPixelsBelowThirty | python/mobile_checker.py:190-198 | A size the small-size pattern accepts is below 30 pixels. |
| MobileChecker.AnyFlexible | python/mobile_checker.py:168-184 | The image loop finds a flexible image exactly when one exists. |
| MobileChecker.CheckResponsiveDesign | python/mobile_checker.py:159-198 | Flexible images found exactly when one exists. The fixed-width count covers at most the first 50 containers. One warning for no flexible image and one for more than ten fixed containers. |
| MobileChecker.CheckMediaQueries | python/mobile_checker.py:277-303 | Media queries are found exactly when a style block holds `@media` or a CSS framework is named. The framework flag is set only when no style block has a media rule. |
| MobileChecker.CheckTouchElements | python/mobile_checker.py:200-237 | At most 100 elements are checked. Too-small counts small classes and small styles separately, so it is at most twice the checked count. A warning appears exactly when some target is too small. |
| MobileChecker.CheckFontSizes | python/mobile_checker.py:239-275 | Small fonts are counted among the first 100 text elements, with a warning beyond five. A HandheldFriendly meta tag adds one font issue. |
| MobileChecker.CheckMobileResources | python/mobile_checker.py:305-347 | Render-blocking scripts are those with neither async nor defer. One lazy-loading suggestion when some eager image exists. Script advice beyond three blocking scripts. The PWA and iOS flags mirror the page. |
| MobileChecker.CalculateScore | python/mobile_checker.py:365-380 | The score is 100 minus 15 per issue and 5 per warning, plus 5 each for a viewport and for media queries, clamped to [0, 100]: the raw value when it is in range, 0 below and 100 above. |
| MobileChecker.ScoreMonotone | python/mobile_checker.py:365-380 | More issues or warnings never raise the score. |
| MobileChecker.ScoreWithoutProblems | python/mobile_checker.py:365-380 | No issues and no warnings score 100. A single issue scores at most 95, even with both bonuses. |
| MobileChecker.GenerateRecommendations | python/mobile_checker.py:382-419 | Viewport advice goes first and earlier advice is kept in order. Missing media queries, small touch targets and render-blocking scripts each add their own line. The count is the sum of the rules. |
| MobileChecker.CleanPageEndsWithTips | python/mobile_checker.py:411-417 | A page with no issue and fewer than three warnings ends its advice with the three generic tips. |
| MobileChecker.FollowUpAdvice | python/mobile_checker.py:391-409 | The media-query, touch-target and script-delivery lines each appear exactly when their condition holds, in that order. |
| MobileChecker.RunChecks | python/mobile_checker.py:65-84 | A viewport check that raises gives status error with `Analysis failed:`. Otherwise the checks complete in the source's order. |
| MobileChecker.CompletedChecks | python/mobile_checker.py:65-77 | A completed run is mobile friendly exactly when it has no issues. Its warnings are the viewport warnings followed by those of the later checks. Its advice is the recommendation builder's over the later checks' advice and counters, and its score is that of its own counts. |
| MobileChecker.LaterChecks | python/mobile_checker.py:67-71 | The responsive, touch, font and resource checks add one warning for each of: no flexible image, more than ten fixed-width containers, small touch targets, small text, an eagerly loaded image, more than three render-blocking scripts. They add the touch, font and async-defer advice exactly when the touch, font and render-blocking conditions hold, in that order. |
| MobileChecker.CheckMobileFriendlinessAsWritten | python/mobile_checker.py:33-86 | As written, a failed fetch gives status error with the failure as an issue, while mobile_friendly stays true. |
| MobileChecker.FetchFailureStaysFriendly | python/mobile_checker.py:43-84 | An unreachable URL comes out mobile friendly although its issues list is not empty. |
| MobileChecker.CheckMobileFriendliness | python/mobile_checker.py:33-86 | Mobile friendly exactly when there are no issues, so an errored check never is. Everything else agrees with the as-written result. |
| MobileChecker.FriendlyIffViewportSound | python/mobile_checker.py:65-74 | Of all the checks only the viewport check adds to the page issues, so a run in which it does not raise is mobile friendly exactly when the viewport check found no issue. |
| MobileChecker.MissingViewportFirstAdvice | python/mobile_checker.py:108-113 | A page without a viewport tag is not mobile friendly and gets the viewport advice first. |
| CoreWebVitals.LcpStatus | python/core_web_vitals.py:179-186 | At most 2.5 s is good, above that up to 4.0 s needs improvement, above 4.0 s is poor; boundaries inclusive. |
| CoreWebVitals.TbtStatus | python/core_web_vitals.py:188-195 | At most 100 ms is good, up to 300 ms needs improvement, above is poor. |
| CoreWebVitals.ClsStatus | python/core_web_vitals.py:197-204 | At most 0.1 is good, up to 0.25 needs improvement, above is poor. |
| CoreWebVitals.ClassifiersMonotone | python/core_web_vitals.py:179-204 | A larger measurement never lands in a better band, for all three classifiers. |
| CoreWebVitals.ExtractMetric | python/core_web_vitals.py:132-177 | For one metric: without its audit the entry is zero and unknown. With it, the value times the divisor is the audit's number, the score is the audit's, and a status exists exactly for LCP, FID and CLS and is the band of the value. |
| CoreWebVitals.ExtractMetrics | python/core_web_vitals.py:91-177 | A missing audit leaves value 0 and status unknown. Values are the audit's number divided by 1000 for LCP, FCP and TTI, and kept as is otherwise. Exactly LCP, FID and CLS get a status when audited, the band of their value. |
| CoreWebVitals.NoAuditsNoBands | python/core_web_vitals.py:93-130 | Without audits every metric is zero and unknown. |
| CoreWebVitals.GenerateRecommendations | python/core_web_vitals.py:226-269 | Poor adds five lines, needs-improvement one, anything else none, for LCP, FID and CLS in that order. The LCP block comes first and the CLS block last. |
| CoreWebVitals.NoAdviceWhenNothingIsBad | python/core_web_vitals.py:226-269 | Metrics that are all good or unknown earn no advice. |
| CoreWebVitals.Analyze | python/core_web_vitals.py:29-89 | A failed request is an error carrying the request's message. Metrics are present exactly when the response has a Lighthouse result, and advice is derived from them; the score is then the performance score times 100 truncated toward zero. Without a Lighthouse result the score is 0 and there is no advice. |
| CoreWebVitals.ScoreInRange | python/core_web_vitals.py:73 | A performance score in [0, 1] becomes a score in [0, 100]. |
| CoreWebVitals.AnalyzeBulk | python/core_web_vitals.py:271-295 | One analysis per URL, in order. |
| CoreWebVitals.Contributions | python/core_web_vitals.py:328-336 | One entry per completed result that has metrics. |
| CoreWebVitals.ContributionsAreFiltered | python/core_web_vitals.py:328-336 | The entries are those of the contributing results, in result order. |
| CoreWebVitals.RankSorted | python/core_web_vitals.py:348 | The ranking is in ascending order of value. |
| CoreWebVitals.RankByValue | python/core_web_vitals.py:348 | The ranking is a permutation of the collected entries. |
| CoreWebVitals.RankStable | python/core_web_vitals.py:348 | Among entries of equal value the ranking keeps the collection order: the sort is stable. |
| CoreWebVitals.Summarize | python/core_web_vitals.py:339-345 | Min and max are among the values and bound all of them. The mean is the sum divided by the count. The median is the middle of the sorted values, or the average of the two middle ones for an even count. Mean and median lie between min and max. |
| CoreWebVitals.RankEnds | python/core_web_vitals.py:343-348 | The minimum is the value of the first ranked entry and the maximum that of the last. |
| CoreWebVitals.CompareMetric | python/core_web_vitals.py:324-349 | The ranking is a sorted permutation of the contributions, and entries with equal values keep their input order, as a stable sort does. Averages exist exactly when something contributed. Their min and max are the ends of the ranking, the mean is the contributions' sum over their count, and the median is that of the ranked values. |
| CoreWebVitals.CompareResults | python/core_web_vitals.py:322-349 | Over any list of results, rankings exist exactly for the five compared metrics. Each is a stably sorted permutation of that metric's contributions. Averages exist exactly for the non-empty rankings, with min and max at the ends of the ranking and the median of its values. |
| CoreWebVitals.CompareUrls | python/core_web_vitals.py:297-351 | Rankings cover exactly LCP, FID, CLS, FCP and TTFB. Each is a stably sorted permutation of the contributions of the analysed URLs. Averages exist exactly for non-empty rankings. |
| CsvReport.BulkHeader | python/cli.py:525-537 | URL and Timestamp, then the technical (3), CWV (4), schema (3) and mobile (2) columns of the selected checks, then Error. |
| CsvReport.BulkRow | python/cli.py:542-591 | Every row has as many cells as the header. A selected check with no result is padded with blanks in its columns. The technical and CWV cells are that check's values, blank when absent. The schema cells are the score and counts that read back as the numbers of schemas and errors. The mobile cell is `Yes` exactly when the result is mobile friendly and `No` exactly when it is not. |
| CsvReport.BulkRows | python/cli.py:541-592 | The header plus one row per result, all of equal width. |
| CsvReport.BulkLines | python/cli.py:594-598 | When no cell holds a line break, the output splits into exactly one line per result plus the header. |
| CsvReport.QuotingIsAmbiguous | python/cli.py:596 | Quoting without escaping is not injective: a cell holding `","` renders like two cells. |
| CsvReport.SummaryRow | python/cli.py:433-453 | Five cells: the check name, its score or `N/A`, the critical count, the warning count, its status or `unknown`. The critical cell reads back as the issues' critical count plus the number of errors, and the warnings cell likewise. |
| CsvReport.SummaryRows | python/cli.py:431-453 | One five-cell row per dictionary-valued check. |
| CsvReport.SummaryRowsFollowChecks | python/cli.py:431-453 | The rows follow the dictionary-valued checks one for one, in order. |
| CsvReport.FullAuditLines | python/cli.py:455-459 | When no cell holds a line break, the summary splits into the header line plus one line per dictionary-valued check. |

## Left out

- HTTP is not modelled: sessions, GET and HEAD requests, timeouts, `raise_for_status`, the gzip handling of sitemap downloads, and the one-second pause between bulk requests. Each analyser takes the outcome of its requests as a `Fetch` value or a function parameter.
- The parsers are not modelled: BeautifulSoup/lxml, ElementTree, `json.loads`, `urlparse`, `urljoin` and `datetime.fromisoformat`. Their output is input data, or a function parameter (`Decoder`, `hostOf`, `netloc`, `scheme`, `isIsoDate`, `join`).
- `float()` is a parameter returning a `PyFloat` or nothing; the textual forms it accepts are not modelled.
- Timestamps (`datetime.now()`) are not part of any result.
- Report rendering is left out: every `generate_report`, the text and HTML templates, and `print`. The unsupported-format `ValueError` is kept.
- Command-line parsing, dispatch, exit codes and file writes are left out, as are the demo script and packaging files.
- `_extract_field_data` is left out: the field data from the Chrome User Experience Report is not read by any rule.
- `Text.Lower` only folds ASCII letters, and regex `\d` only matches ASCII digits; Python folds and matches all of Unicode.
- `Text.Lines` counts `\r\n` as two breaks, so it yields one extra empty line there; no rule reads line structure beyond a line's prefix.
- TechnicalAudit.Score: computes the floor of 100·passed/total. Python's `int((passed/total)*100)` goes through floats and can come out one lower. The first such input has 50 checks (29 passed gives 57, not 58), which needs repeated check names.
- SitemapAnalyzer.Tenths: rounds the exact share half-to-even. Python's `round(x, 1)` of a float can differ when the binary float lies on the other side of a tie.
- CoreWebVitals.Summarize: mean and median are exact reals. Python rounds them to the nearest float.
- CoreWebVitals.Analyze: models the request-error path only. The `Analysis failed:` path for other exceptions is left out, for example a null `numericValue` or score in the response. Field data is left out too. The performance score uses exact real arithmetic before truncation.
- CoreWebVitals.ExtractMetrics: the FID display text is built from a number-rendering parameter; Python's float formatting is not modelled.
- CsvReport.BulkRow: cell values other than counts arrive already rendered by `str()`. The bulk table takes the check names as a list of strings, exactly as the source tests membership.
- CsvReport.SummaryRow: issue counts are natural numbers. A non-integer `critical` or `warnings` value, which makes Python's `+=` raise or misbehave, is not modelled.
- SchemaValidator.ValidateWith: a raised exception is reported by its class name, `TypeError` or `AttributeError`. Python reports `str(e)`, the exception's message text, which depends on the interpreter; the `Validation error: ` and `Validation failed: ` prefixes around it are kept.
- The sitemap analyser's catch-all handler, which reports `Analysis failed:` and the message of any other exception, is left out. The calls that could raise there (`urlparse`, `fromisoformat`, the HEAD requests) are function parameters that always return here.
- SitemapAnalyzer.Step: its contract states the order-free facts about the warnings (earlier ones kept as a prefix, every optional-field warning of a valid entry present, and the count otherwise). The exact order of the duplicate, foreign-domain and optional-field warnings is stated only by the definition.
- The mobile checker's comparison page fetched with the desktop user agent is parsed but never read by any rule, so it is not modelled.

## Findings

| source | as written | input that shows it | evidently intended | confidence | as-written member | corrected member |
|---|---|---|---|---|---|---|
| python/schema_validator.py:212-225 | The lower-cased `@type` is compared with the list entry `'localBusiness'`, which holds an upper-case letter and so can never match | `{"@type": "LocalBusiness", "@context": "https://schema.org"}` validates with no error and no warning | LocalBusiness objects get the organization rules, so a missing `name` and `url` are errors | high, not executed | SchemaValidator.LocalBusinessSkipsOrganizationRules | SchemaValidator.LocalBusinessGetsOrganizationRules |
| python/mobile_checker.py:43-86 | `mobile_friendly` starts as true and is recomputed only after every check succeeded, so the error paths leave it true while they add an issue | A URL whose request fails: status error, issues `["Failed to fetch URL: …"]`, mobile_friendly true, shown as `Yes` in the bulk CSV | mobile_friendly is true exactly when the issues list is empty, on every path | medium, not executed | MobileChecker.FetchFailureStaysFriendly | MobileChecker.CheckMobileFriendliness |

The schema validator keeps both organization lists. `ValidateSchemaAsWritten`, `ValidateUrl` and `ValidateJson` use the list as written, and `SchemaValidator.LocalBusinessJsonValid` shows the consequence for `validate_json`. `ValidateSchema`, `ValidateUrlCorrected` and `ValidateJsonCorrected` use the corrected list, and `SchemaValidator.LocalBusinessJsonInvalid` shows that the same object is then rejected. Both families share their contracts through `ValidateWith`, `ValidateUrlWith` and `ValidateJsonWith`, which take the list as a parameter.

=== FILE: common.dfy ===
/** Small shared vocabulary: optional values, clamping and counting. */
module Common {

  /** A value that may be absent; stands for Python's `None` versus a value. */
  datatype Option<+T> = None | Some(value: T) {
    function GetOr(default: T): T {
      match this
      case Some(v) => v
      case None => default
    }
  }

  /** Python truthiness of an optional text (`tag.get(name)`, `elem.text`). */
  predicate Present(a: Option<string>) {
    a.Some? && a.value != ""
  }

  /** Outcome of the HTTP fetch that precedes every checker: the parsed
      document, or the text of the request exception. */
  datatype Fetch<+T> = Fetched(doc: T) | FetchFailed(reason: string)

  /** Success or failure; the failure carries the text of the exception. */
  datatype Result<+R> = Success(value: R) | Failure(error: string)

  /** A Python `float` as `float(text)` can return it. */
  datatype PyFloat = Finite(value: real) | PosInf | NegInf | NaN {
    /** `self < c`; comparisons with NaN are false. */
    predicate Below(c: real) {
      match this
      case Finite(v) => v < c
      case NegInf => true
      case _ => false
    }

    /** `lo <= self <= hi`. */
    predicate Within(lo: real, hi: real) {
      this.Finite? && lo <= value <= hi
    }
  }

  /** Python's `max(lo, min(hi, x))`. */
  function Clamp(x: int, lo: int, hi: int): (r: int)
    requires lo <= hi
    ensures lo <= r <= hi
    ensures lo <= x <= hi ==> r == x
    ensures x < lo ==> r == lo
    ensures hi < x ==> r == hi
  {
    if x < lo then lo else if hi < x then hi else x
  }

  /** Multiplying both sides by a natural number keeps their order. */
  lemma MulMono(a: int, b: int, t: nat)
    requires a <= b
    ensures a * t <= b * t
  {
    assert b * t - a * t == (b - a) * t;
  }

  /** `s[:n]`: the first `n` elements, or all of them. */
  function Take<T>(s: seq<T>, n: nat): (r: seq<T>)
    ensures |r| <= n && |r| <= |s|
    ensures |s| <= n ==> r == s
    ensures n <= |s| ==> |r| == n
    ensures r == s[..|r|]
  {
    if |s| <= n then s else s[..n]
  }

  /** `1` for true and `0` for false, as Python adds booleans. */
  function B2N(b: bool): nat {
    if b then 1 else 0
  }

  /** A non-empty sequence is its prefix followed by its last element. */
  lemma SnocParts<T>(s: seq<T>)
    requires |s| > 0
    ensures s == s[..|s| - 1] + [s[|s| - 1]]
  {
  }

  /** A non-empty sequence is its first element followed by the rest. */
  lemma ConsParts<T>(s: seq<T>)
    requires |s| > 0
    ensures s == [s[0]] + s[1..]
  {
  }

  /** Concatenation is associative. */
  lemma AppendAssoc<T>(a: seq<T>, b: seq<T>, c: seq<T>)
    ensures a + (b + c) == (a + b) + c
  {
  }

  /** The lists of `ss` joined in order, as repeated `list.extend` builds them. */
  function Flatten<T>(ss: seq<seq<T>>): (r: seq<T>)
    ensures ss == [] ==> r == []
  {
    if ss == [] then [] else ss[0] + Flatten(ss[1..])
  }

  /** Joining one more list appends it at the end. */
  lemma {:induction false} FlattenSnoc<T>(ss: seq<seq<T>>, s: seq<T>)
    ensures Flatten(ss + [s]) == Flatten(ss) + s
  {
    if ss != [] {
      assert (ss + [s])[1..] == ss[1..] + [s];
      FlattenSnoc(ss[1..], s);
      AppendAssoc(ss[0], Flatten(ss[1..]), s);
    }
  }

  /** The parts of a concatenation are recovered by slicing. */
  lemma AppendParts<T>(a: seq<T>, b: seq<T>)
    ensures a <= a + b
    ensures (a + b)[..|a|] == a && (a + b)[|a|..] == b
  {
  }

  /** A suffix stays a suffix when something is put in front. */
  lemma SuffixExtend<T>(x: seq<T>, s: seq<T>, c: seq<T>)
    requires |c| <= |s| && s[|s| - |c|..] == c
    ensures (x + s)[|x + s| - |c|..] == c
  {
    assert (x + s)[|x + s| - |c|..] == s[|s| - |c|..];
  }

  /** Four pieces one after another, with the first piece, the second as a
      prefix of what follows the first, and the last piece recoverable. */
  function Assemble<T>(head: seq<T>, middle: seq<T>, follow: seq<T>, tail: seq<T>): (r: seq<T>)
    ensures |r| == |head| + |middle| + |follow| + |tail|
    ensures r[..|head|] == head
    ensures middle <= r[|head|..]
    ensures r[|r| - |tail|..] == tail
  {
    var rest := middle + (follow + tail);
    AppendParts(middle, follow + tail);
    AppendParts(head, rest);
    AppendParts(follow, tail);
    SuffixExtend(middle, follow + tail, tail);
    SuffixExtend(head, rest, tail);
    head + rest
  }

  /** Every element of the third part is in the assembled list. */
  lemma AssembleKeeps<T>(head: seq<T>, middle: seq<T>, follow: seq<T>, tail: seq<T>, x: T)
    ensures x in follow ==> x in Assemble(head, middle, follow, tail)
  {
    if x in follow {
      var i :| 0 <= i < |follow| && follow[i] == x;
      assert Assemble(head, middle, follow, tail)[|head| + |middle| + i] == x;
    }
  }

  /** Number of elements of `s` that satisfy `p`. */
  function Count<T>(s: seq<T>, p: T -> bool): (n: nat)
    ensures n <= |s|
  {
    if |s| == 0 then 0 else B2N(p(s[0])) + Count(s[1..], p)
  }

  lemma {:induction false} CountAppend<T>(a: seq<T>, b: seq<T>, p: T -> bool)
    ensures Count(a + b, p) == Count(a, p) + Count(b, p)
  {
    if |a| == 0 {
      assert a + b == b;
    } else {
      assert (a + b)[1..] == a[1..] + b;
      CountAppend(a[1..], b, p);
    }
  }

  /** Counting over a prefix grown by one element. */
  lemma CountSnoc<T>(a: seq<T>, x: T, p: T -> bool)
    ensures Count(a + [x], p) == Count(a, p) + B2N(p(x))
  {
    CountAppend(a, [x], p);
  }

  /** Some element satisfies `p` exactly when the count is positive. */
  lemma {:induction false} CountPositive<T>(s: seq<T>, p: T -> bool)
    ensures Count(s, p) > 0 <==> exists i :: 0 <= i < |s| && p(s[i])
  {
    if |s| > 0 {
      CountPositive(s[1..], p);
      if exists i :: 0 <= i < |s[1..]| && p(s[1..][i]) {
        var i :| 0 <= i < |s[1..]| && p(s[1..][i]);
        assert p(s[i + 1]);
      }
      if exists i :: 0 <= i < |s| && p(s[i]) {
        var i :| 0 <= i < |s| && p(s[i]);
        if i > 0 {
          assert p(s[1..][i - 1]);
        }
      }
    }
  }

  /** Elements of `s` that satisfy `p`, in order. */
  function Filter<T>(s: seq<T>, p: T -> bool): (r: seq<T>)
    ensures |r| == Count(s, p)
    ensures forall x :: x in r ==> x in s && p(x)
  {
    if |s| == 0 then [] else (if p(s[0]) then [s[0]] else []) + Filter(s[1..], p)
  }

  /** Filtering a prefix grown by one element. */
  lemma {:induction false} FilterSnoc<T>(a: seq<T>, x: T, p: T -> bool)
    ensures Filter(a + [x], p) == Filter(a, p) + (if p(x) then [x] else [])
  {
    if |a| == 0 {
      assert a + [x] == [x];
    } else {
      assert (a + [x])[1..] == a[1..] + [x];
      FilterSnoc(a[1..], x, p);
    }
  }

  /** Predicates that agree on every element count alike. */
  lemma {:induction false} CountSame<T>(s: seq<T>, p: T -> bool, q: T -> bool)
    requires forall i :: 0 <= i < |s| ==> p(s[i]) == q(s[i])
    ensures Count(s, p) == Count(s, q)
  {
    if |s| > 0 {
      assert forall i :: 0 <= i < |s[1..]| ==> s[1..][i] == s[i + 1];
      CountSame(s[1..], p, q);
    }
  }

  /** A sequence without repeated elements. */
  predicate Distinct<T(==)>(s: seq<T>) {
    forall i, j :: 0 <= i < j < |s| ==> s[i] != s[j]
  }

  /** The members of `s` that satisfy `p`. */
  function Members<T>(s: seq<T>, p: T -> bool): set<T> {
    set x | x in s && p(x)
  }

  /** For a duplicate-free list, the number of members satisfying `p` is the
      size of the set of such members. */
  lemma {:induction false} CountDistinctIsCard<T>(s: seq<T>, p: T -> bool)
    requires Distinct(s)
    ensures Count(s, p) == |Members(s, p)|
  {
    if |s| == 0 {
      assert Members(s, p) == {};
    } else {
      var rest := Members(s[1..], p);
      assert Distinct(s[1..]) by {
        forall i, j | 0 <= i < j < |s[1..]| ensures s[1..][i] != s[1..][j] {
          assert s[1..][i] == s[i + 1] && s[1..][j] == s[j + 1];
        }
      }
      CountDistinctIsCard(s[1..], p);
      forall k | 0 <= k < |s[1..]| ensures s[1..][k] != s[0] {
        assert s[1..][k] == s[k + 1];
      }
      if p(s[0]) {
        assert Members(s, p) == rest + {s[0]};
      } else {
        assert Members(s, p) == rest;
      }
    }
  }
}

=== FILE: core_web_vitals.dfy ===
/** Core Web Vitals: the three-band classification of Lighthouse lab
    metrics, the advice derived from the bands, and the comparison of
    several URLs by each metric. */
module CoreWebVitals {
  import opened Common

  /** The band a metric falls in; `Unknown` for metrics that were not
      measured or are never classified. */
  datatype Status = Good | NeedsImprovement | Poor | Unknown

  /** How bad a band is: a worse band has a larger severity. */
  function Severity(s: Status): nat {
    match s
    case Good => 0
    case NeedsImprovement => 1
    case Poor => 2
    case Unknown => 0
  }

  /** The shared shape of the three classifiers: at most `good` is good, at
      most `fair` needs improvement, anything larger is poor. */
  function Classify(v: real, good: real, fair: real): Status {
    if v <= good then Good else if v <= fair then NeedsImprovement else Poor
  }

  /** Largest Contentful Paint, in seconds. */
  function LcpStatus(seconds: real): (s: Status)
    ensures s == Good <==> seconds <= 2.5
    ensures s == NeedsImprovement <==> 2.5 < seconds <= 4.0
    ensures s == Poor <==> 4.0 < seconds
  {
    Classify(seconds, 2.5, 4.0)
  }

  /** Total Blocking Time, in milliseconds, standing in for First Input Delay. */
  function TbtStatus(millis: real): (s: Status)
    ensures s == Good <==> millis <= 100.0
    ensures s == NeedsImprovement <==> 100.0 < millis <= 300.0
    ensures s == Poor <==> 300.0 < millis
  {
    Classify(millis, 100.0, 300.0)
  }

  /** Cumulative Layout Shift, a unitless score. */
  function ClsStatus(shift: real): (s: Status)
    ensures s == Good <==> shift <= 0.1
    ensures s == NeedsImprovement <==> 0.1 < shift <= 0.25
    ensures s == Poor <==> 0.25 < shift
  {
    Classify(shift, 0.1, 0.25)
  }

  /** A larger measurement never lands in a better band. */
  lemma ClassifiersMonotone(v: real, w: real)
    requires v <= w
    ensures Severity(LcpStatus(v)) <= Severity(LcpStatus(w))
    ensures Severity(TbtStatus(v)) <= Severity(TbtStatus(w))
    ensures Severity(ClsStatus(v)) <= Severity(ClsStatus(w))
  {
  }

  // ---------------------------------------------------------------------
  // Extraction of the metrics from the Lighthouse audits

  /** The fields of one Lighthouse audit that the extractor reads; `None`
      when the key is absent. */
  datatype Audit = Audit(numericValue: Option<real>, score: Option<real>, displayValue: Option<string>)

  datatype Metric = Metric(value: real, score: real, displayValue: string, status: Status)

  /** The entry of a metric whose audit is missing. */
  const Unmeasured := Metric(0.0, 0.0, "", Unknown)

  datatype MetricKey = Lcp | Fid | Cls | Fcp | Ttfb | Tti

  datatype Metrics = Metrics(lcp: Metric, fid: Metric, cls: Metric, fcp: Metric, ttfb: Metric, tti: Metric) {
    function Get(k: MetricKey): Metric {
      match k
      case Lcp => lcp
      case Fid => fid
      case Cls => cls
      case Fcp => fcp
      case Ttfb => ttfb
      case Tti => tti
    }
  }

  /** The Lighthouse audit each metric is read from. */
  function AuditId(k: MetricKey): string {
    match k
    case Lcp => "largest-contentful-paint"
    case Fid => "total-blocking-time"
    case Cls => "cumulative-layout-shift"
    case Fcp => "first-contentful-paint"
    case Ttfb => "server-response-time"
    case Tti => "interactive"
  }

  /** Paint and interactivity times arrive in milliseconds and are kept in
      seconds; the others are kept as they arrive. */
  function Divisor(k: MetricKey): real {
    if k == Lcp || k == Fcp || k == Tti then 1000.0 else 1.0
  }

  /** The three metrics that receive a band. */
  predicate Classified(k: MetricKey) {
    k == Lcp || k == Fid || k == Cls
  }

  function Band(k: MetricKey, v: real): Status {
    match k
    case Lcp => LcpStatus(v)
    case Fid => TbtStatus(v)
    case Cls => ClsStatus(v)
    case _ => Unknown
  }

  /** Renders a number as Python's `str()` of it would; the formatting of
      floats is not modelled. */
  type NumberText = real -> string

  const TbtSuffix := " ms (TBT)"

  /** The entry of a metric whose audit is present. */
  function Measured(k: MetricKey, a: Audit, show: NumberText): Metric {
    var v := a.numericValue.GetOr(0.0) / Divisor(k);
    Metric(v, a.score.GetOr(0.0),
      if k == Fid then show(v) + TbtSuffix else a.displayValue.GetOr(""),
      Band(k, v))
  }

  function ExtractMetric(audits: map<string, Audit>, k: MetricKey, show: NumberText): (m: Metric)
    ensures AuditId(k) !in audits ==> m == Unmeasured
    ensures AuditId(k) in audits ==> m.value * Divisor(k) == audits[AuditId(k)].numericValue.GetOr(0.0)
    ensures AuditId(k) in audits ==> m.score == audits[AuditId(k)].score.GetOr(0.0)
    ensures m.status != Unknown <==> Classified(k) && AuditId(k) in audits
    ensures m.status != Unknown ==> m.status == Band(k, m.value)
  {
    if AuditId(k) in audits then Measured(k, audits[AuditId(k)], show) else Unmeasured
  }

  /** `_extract_metrics`: each metric starts as zero with status unknown and
      is overwritten from its audit when that audit is present. */
  function ExtractMetrics(audits: map<string, Audit>, show: NumberText): (m: Metrics)
    ensures forall k :: AuditId(k) !in audits ==> m.Get(k) == Unmeasured
    ensures forall k :: AuditId(k) in audits ==>
      m.Get(k).value * Divisor(k) == audits[AuditId(k)].numericValue.GetOr(0.0)
    ensures forall k :: AuditId(k) in audits ==> m.Get(k).score == audits[AuditId(k)].score.GetOr(0.0)
    ensures forall k :: m.Get(k).status != Unknown <==> Classified(k) && AuditId(k) in audits
    ensures forall k :: m.Get(k).status != Unknown ==> m.Get(k).status == Band(k, m.Get(k).value)
  {
    var m := Metrics(ExtractMetric(audits, Lcp, show), ExtractMetric(audits, Fid, show),
      ExtractMetric(audits, Cls, show), ExtractMetric(audits, Fcp, show),
      ExtractMetric(audits, Ttfb, show), ExtractMetric(audits, Tti, show));
    assert forall k :: m.Get(k) == ExtractMetric(audits, k, show);
    m
  }

  /** Without any audit every metric is zero and unknown. */
  lemma NoAuditsNoBands(show: NumberText)
    ensures forall k :: ExtractMetrics(map[], show).Get(k) == Unmeasured
  {
  }

  // ---------------------------------------------------------------------
  // Recommendations

  const LcpPoorAdvice: seq<string> := [
    "Optimize largest content element loading (LCP > 4s)",
    "- Optimize server response times",
    "- Use a CDN for static assets",
    "- Optimize images with next-gen formats",
    "- Preload critical resources"]
  const LcpFairAdvice := "Improve LCP (currently 2.5-4s) by optimizing images and server response"

  const FidPoorAdvice: seq<string> := [
    "Reduce JavaScript execution time (High TBT indicates poor interactivity)",
    "- Break up long tasks",
    "- Minimize main thread work",
    "- Remove unused JavaScript",
    "- Use web workers for heavy computations"]
  const FidFairAdvice := "Optimize JavaScript to improve interactivity (TBT: 100-300ms)"

  const ClsPoorAdvice: seq<string> := [
    "Fix layout shifts (CLS > 0.25)",
    "- Add size attributes to images and videos",
    "- Reserve space for ad slots",
    "- Avoid inserting content above existing content",
    "- Use CSS transform for animations"]
  const ClsFairAdvice := "Reduce layout shifts (CLS: 0.1-0.25) by defining dimensions for media"

  /** Number of advice lines a band earns. */
  function AdviceLines(s: Status): nat {
    match s
    case Poor => 5
    case NeedsImprovement => 1
    case _ => 0
  }

  /** A poor band gets a headline and four steps, a middling band one line,
      anything else nothing. */
  function Advice(s: Status, poor: seq<string>, fair: string): (r: seq<string>)
    requires |poor| == 5
    ensures |r| == AdviceLines(s)
  {
    match s
    case Poor => poor
    case NeedsImprovement => [fair]
    case _ => []
  }

  /** `_generate_recommendations`: LCP advice, then FID, then CLS. */
  function GenerateRecommendations(m: Metrics): (r: seq<string>)
    ensures |r| == AdviceLines(m.lcp.status) + AdviceLines(m.fid.status) + AdviceLines(m.cls.status)
    ensures m.lcp.status == Poor ==> r[..5] == LcpPoorAdvice
    ensures m.lcp.status == NeedsImprovement ==> r[0] == LcpFairAdvice
    ensures m.cls.status == Poor ==> r[|r| - 5..] == ClsPoorAdvice
    ensures m.cls.status == NeedsImprovement ==> r[|r| - 1] == ClsFairAdvice
    ensures m.fid.status == Poor ==>
      r[AdviceLines(m.lcp.status)..AdviceLines(m.lcp.status) + 5] == FidPoorAdvice
  {
    var a := Advice(m.lcp.status, LcpPoorAdvice, LcpFairAdvice);
    var b := Advice(m.fid.status, FidPoorAdvice, FidFairAdvice);
    var c := Advice(m.cls.status, ClsPoorAdvice, ClsFairAdvice);
    assert (a + b + c)[..|a|] == a;
    assert (a + b + c)[|a|..|a| + |b|] == b;
    assert (a + b + c)[|a| + |b|..] == c;
    a + b + c
  }

  /** Metrics that are all good or unknown earn no advice. */
  lemma NoAdviceWhenNothingIsBad(m: Metrics)
    requires Severity(m.lcp.status) == 0 && Severity(m.fid.status) == 0 && Severity(m.cls.status) == 0
    ensures GenerateRecommendations(m) == []
  {
  }

  // ---------------------------------------------------------------------
  // One analysis

  /** The Lighthouse part of a PageSpeed Insights response. */
  datatype Lighthouse = Lighthouse(audits: map<string, Audit>, performanceScore: Option<real>)

  /** A PageSpeed Insights response; `lighthouse` is `None` when the key is
      missing. */
  datatype PsiResponse = PsiResponse(lighthouse: Option<Lighthouse>)

  datatype AnalysisStatus = Completed | Errored

  /** The result of `analyze`; `metrics` is `None` while it is still the
      empty dictionary. */
  datatype Analysis = Analysis(
    url: string, strategy: string, status: AnalysisStatus,
    metrics: Option<Metrics>, score: int, recommendations: seq<string>,
    error: Option<string>)

  /** Python's `int(x)`: truncation toward zero. */
  function Trunc(x: real): (n: int)
    ensures 0.0 <= x ==> 0 <= n && n as real <= x < n as real + 1.0
    ensures x < 0.0 ==> n <= 0 && n as real - 1.0 < x <= n as real
  {
    if 0.0 <= x then x.Floor else -((-x).Floor)
  }

  /** `analyze`: a failed request marks the result as an error; a response
      without a Lighthouse result completes with no metrics and score 0. */
  function Analyze(url: string, strategy: string, response: Fetch<PsiResponse>, show: NumberText): (r: Analysis)
    ensures r.url == url
    ensures r.status == Errored <==> response.FetchFailed?
    ensures r.status == Errored ==> r.error == Some(response.reason)
    ensures r.status == Completed ==> r.error == None
    ensures r.metrics.Some? <==> response.Fetched? && response.doc.lighthouse.Some?
    ensures r.metrics.None? ==> r.score == 0 && r.recommendations == []
    ensures r.metrics.Some? ==>
      r.metrics.value == ExtractMetrics(response.doc.lighthouse.value.audits, show) &&
      r.recommendations == GenerateRecommendations(r.metrics.value)
    ensures r.metrics.Some? ==> r.score == Trunc(response.doc.lighthouse.value.performanceScore.GetOr(0.0) * 100.0)
  {
    match response
    case FetchFailed(reason) => Analysis(url, strategy, Errored, None, 0, [], Some(reason))
    case Fetched(psi) =>
      match psi.lighthouse
      case None => Analysis(url, strategy, Completed, None, 0, [], None)
      case Some(lh) =>
        var m := ExtractMetrics(lh.audits, show);
        Analysis(url, strategy, Completed, Some(m),
          Trunc(lh.performanceScore.GetOr(0.0) * 100.0),
          GenerateRecommendations(m), None)
  }

  /** A Lighthouse performance score in [0, 1] becomes a score in [0, 100]. */
  lemma ScoreInRange(url: string, strategy: string, lh: Lighthouse, show: NumberText)
    requires 0.0 <= lh.performanceScore.GetOr(0.0) <= 1.0
    ensures 0 <= Analyze(url, strategy, Fetched(PsiResponse(Some(lh))), show).score <= 100
  {
  }

  /** `analyze_bulk`: one analysis per URL, in order, given the response
      each request produced. */
  function AnalyzeBulk(urls: seq<string>, responses: seq<Fetch<PsiResponse>>, strategy: string, show: NumberText): (rs: seq<Analysis>)
    requires |responses| == |urls|
    ensures |rs| == |urls|
    ensures forall i :: 0 <= i < |rs| ==> rs[i] == Analyze(urls[i], strategy, responses[i], show)
  {
    seq(|urls|, i requires 0 <= i < |urls| => Analyze(urls[i], strategy, responses[i], show))
  }

  // ---------------------------------------------------------------------
  // Comparison of several URLs

  /** One line of a ranking. */
  datatype Entry = Entry(url: string, value: real, status: Status)

  /** A result contributes to the comparison when it completed with metrics. */
  predicate Contributes(r: Analysis) {
    r.status == Completed && r.metrics.Some?
  }

  function EntryOf(r: Analysis, k: MetricKey): Entry
    requires r.metrics.Some?
  {
    Entry(r.url, r.metrics.value.Get(k).value, r.metrics.value.Get(k).status)
  }

  /** The entries the comparison loop collects for metric `k`, in result
      order. */
  function Contributions(rs: seq<Analysis>, k: MetricKey): (es: seq<Entry>)
    ensures |es| == Count(rs, Contributes)
  {
    if |rs| == 0 then []
    else (if Contributes(rs[0]) then [EntryOf(rs[0], k)] else []) + Contributions(rs[1..], k)
  }

  /** The entries are exactly those of the contributing results, in order. */
  lemma {:induction false} ContributionsAreFiltered(rs: seq<Analysis>, k: MetricKey)
    ensures forall i :: 0 <= i < |Contributions(rs, k)| ==>
      Filter(rs, Contributes)[i].metrics.Some? &&
      Contributions(rs, k)[i] == EntryOf(Filter(rs, Contributes)[i], k)
  {
    if |rs| > 0 {
      ContributionsAreFiltered(rs[1..], k);
      var head := if Contributes(rs[0]) then [rs[0]] else [];
      assert Filter(rs, Contributes) == head + Filter(rs[1..], Contributes);
    }
  }

  predicate SortedByValue(s: seq<Entry>) {
    forall i, j :: 0 <= i < j < |s| ==> s[i].value <= s[j].value
  }

  /** Places `x` after every entry whose value does not exceed its own. */
  function Insert(x: Entry, t: seq<Entry>): (r: seq<Entry>)
    ensures |r| == |t| + 1
    ensures multiset(r) == multiset(t) + multiset{x}
  {
    if |t| == 0 then [x]
    else if x.value < t[0].value then [x] + t
    else
      assert t == [t[0]] + t[1..];
      [t[0]] + Insert(x, t[1..])
  }

  lemma {:induction false} InsertSorted(x: Entry, t: seq<Entry>)
    requires SortedByValue(t)
    ensures SortedByValue(Insert(x, t))
  {
    if |t| > 0 && t[0].value <= x.value {
      InsertSorted(x, t[1..]);
      var r := Insert(x, t[1..]);
      forall j | 0 <= j < |r| ensures t[0].value <= r[j].value {
        assert r[j] in multiset(r);
        if r[j] != x {
          assert r[j] in multiset(t[1..]);
          var k :| 0 <= k < |t[1..]| && t[1..][k] == r[j];
          assert t[k + 1] == r[j];
        }
      }
    }
  }

  /** `list.sort(key=value)`: Python's sort is stable, which insertion sort
      that places each entry after its equals reproduces. */
  function RankByValue(s: seq<Entry>): (r: seq<Entry>)
    ensures |r| == |s|
    ensures multiset(r) == multiset(s)
  {
    if |s| == 0 then []
    else
      assert s == s[..|s| - 1] + [s[|s| - 1]];
      Insert(s[|s| - 1], RankByValue(s[..|s| - 1]))
  }

  lemma {:induction false} RankSorted(s: seq<Entry>)
    ensures SortedByValue(RankByValue(s))
  {
    if |s| > 0 {
      RankSorted(s[..|s| - 1]);
      InsertSorted(s[|s| - 1], RankByValue(s[..|s| - 1]));
    }
  }

  predicate HasValue(v: real, e: Entry) {
    e.value == v
  }

  /** Entries sharing one value. */
  function ValueIs(v: real): Entry -> bool {
    e => HasValue(v, e)
  }


  /** No entry of `t` passes the filter. */
  lemma {:induction false} FilterNone(t: seq<Entry>, p: Entry -> bool)
    requires forall i :: 0 <= i < |t| ==> !p(t[i])
    ensures Filter(t, p) == []
  {
    CountPositive(t, p);
  }

  lemma SortedTail(t: seq<Entry>)
    requires |t| > 0 && SortedByValue(t)
    ensures SortedByValue(t[1..])
    ensures forall i :: 0 <= i < |t| ==> t[0].value <= t[i].value
  {
    forall i, j | 0 <= i < j < |t[1..]| ensures t[1..][i].value <= t[1..][j].value {
      assert t[1..][i] == t[i + 1] && t[1..][j] == t[j + 1];
    }
  }

  /** Filtering a sequence with a known first element. */
  lemma FilterCons(x: Entry, t: seq<Entry>, p: Entry -> bool)
    ensures Filter([x] + t, p) == (if p(x) then [x] else []) + Filter(t, p)
  {
    assert ([x] + t)[0] == x;
    assert ([x] + t)[1..] == t;
  }

  /** Inserting `x` before a larger first entry. */
  lemma InsertFront(x: Entry, t: seq<Entry>, v: real)
    requires SortedByValue(t) && |t| > 0 && x.value < t[0].value
    ensures Filter([x] + t, ValueIs(v)) == Filter(t, ValueIs(v)) + (if x.value == v then [x] else [])
  {
    FilterCons(x, t, ValueIs(v));
    if x.value == v {
      SortedTail(t);
      FilterNone(t, ValueIs(v));
    }
  }

  /** Inserting `x` behind a first entry no larger than it. */
  lemma {:induction false} InsertBehind(x: Entry, t: seq<Entry>, v: real)
    requires |t| > 0 && t[0].value <= x.value
    requires Filter(Insert(x, t[1..]), ValueIs(v)) == Filter(t[1..], ValueIs(v)) + (if x.value == v then [x] else [])
    ensures Filter(Insert(x, t), ValueIs(v)) == Filter(t, ValueIs(v)) + (if x.value == v then [x] else [])
  {
    var rest, p := t[1..], ValueIs(v);
    var r := Insert(x, rest);
    var head := if p(t[0]) then [t[0]] else [];
    var tail := if x.value == v then [x] else [];
    calc {
      Filter(Insert(x, t), p);
      Filter([t[0]] + r, p);
      { FilterCons(t[0], r, p); }
      head + Filter(r, p);
      head + (Filter(rest, p) + tail);
      { AppendAssoc(head, Filter(rest, p), tail); }
      (head + Filter(rest, p)) + tail;
      { FilterCons(t[0], rest, p); ConsParts(t); }
      Filter(t, p) + tail;
    }
  }

  /** Inserting `x` adds it after every entry of equal value. */
  lemma {:induction false} InsertStable(x: Entry, t: seq<Entry>, v: real)
    requires SortedByValue(t)
    ensures Filter(Insert(x, t), ValueIs(v)) == Filter(t, ValueIs(v)) + (if x.value == v then [x] else [])
  {
    if |t| == 0 {
      FilterCons(x, [], ValueIs(v));
    } else if x.value < t[0].value {
      InsertFront(x, t, v);
    } else {
      SortedTail(t);
      InsertStable(x, t[1..], v);
      InsertBehind(x, t, v);
    }
  }

  /** Stability: among entries of equal value the ranking keeps the
      collection order. */
  lemma {:induction false} RankStable(s: seq<Entry>, v: real)
    ensures Filter(RankByValue(s), ValueIs(v)) == Filter(s, ValueIs(v))
  {
    if |s| > 0 {
      var init := s[..|s| - 1];
      var x := s[|s| - 1];
      var ranked := RankByValue(init);
      assert RankByValue(s) == Insert(x, ranked);
      RankStable(init, v);
      RankSorted(init);
      InsertStable(x, ranked, v);
      SnocParts(s);
      FilterSnoc(init, x, ValueIs(v));
    }
  }

  // ---------------------------------------------------------------------
  // Averages

  function Values(es: seq<Entry>): (vs: seq<real>)
    ensures |vs| == |es|
    ensures forall i :: 0 <= i < |es| ==> vs[i] == es[i].value
  {
    seq(|es|, i requires 0 <= i < |es| => es[i].value)
  }

  /** `min(values)` */
  function MinOf(vs: seq<real>): (m: real)
    requires |vs| > 0
    ensures m in vs
    ensures forall i :: 0 <= i < |vs| ==> m <= vs[i]
  {
    if |vs| == 1 then vs[0]
    else
      var rest := MinOf(vs[1..]);
      if vs[0] <= rest then vs[0] else rest
  }

  /** `max(values)` */
  function MaxOf(vs: seq<real>): (m: real)
    requires |vs| > 0
    ensures m in vs
    ensures forall i :: 0 <= i < |vs| ==> vs[i] <= m
  {
    if |vs| == 1 then vs[0]
    else
      var rest := MaxOf(vs[1..]);
      if rest <= vs[0] then vs[0] else rest
  }

  function Sum(vs: seq<real>): real {
    if |vs| == 0 then 0.0 else vs[0] + Sum(vs[1..])
  }

  /** The sum lies between `n` times the least and `n` times the greatest. */
  lemma {:induction false} SumBetween(vs: seq<real>, lo: real, hi: real)
    requires forall i :: 0 <= i < |vs| ==> lo <= vs[i] <= hi
    ensures |vs| as real * lo <= Sum(vs) <= |vs| as real * hi
  {
    if |vs| > 0 {
      var k := |vs[1..]| as real;
      assert forall i :: 0 <= i < |vs[1..]| ==> vs[1..][i] == vs[i + 1];
      SumBetween(vs[1..], lo, hi);
      assert |vs| as real == k + 1.0;
      assert (k + 1.0) * lo == k * lo + lo && (k + 1.0) * hi == k * hi + hi;
    }
  }

  /** Dividing by the count keeps the mean between the bounds. */
  lemma MeanBetween(total: real, n: real, lo: real, hi: real)
    requires 0.0 < n && n * lo <= total <= n * hi
    ensures lo <= total / n <= hi
  {
    var m := total / n;
    assert m * n == total;
    assert (m - lo) * n == total - n * lo;
    assert (hi - m) * n == n * hi - total;
  }

  /** The statistics reported for one metric. Mean and median are exact
      here; Python rounds them to the nearest float. */
  datatype Summary = Summary(mean: real, median: real, min: real, max: real)

  /** `statistics.median` of values given in ascending order. */
  function MedianOfSorted(sorted: seq<real>): real
    requires |sorted| > 0
  {
    var n := |sorted|;
    if n % 2 == 1 then sorted[n / 2] else (sorted[n / 2 - 1] + sorted[n / 2]) / 2.0
  }

  /** A median lies between any bounds of the values it is read from. */
  lemma MedianBetween(sorted: seq<real>, lo: real, hi: real)
    requires |sorted| > 0
    requires forall i :: 0 <= i < |sorted| ==> lo <= sorted[i] <= hi
    ensures lo <= MedianOfSorted(sorted) <= hi
  {
    var n := |sorted|;
    if n % 2 == 0 {
      assert lo <= sorted[n / 2 - 1] <= hi && lo <= sorted[n / 2] <= hi;
    }
  }

  /** Values drawn from a sequence lie between its least and greatest. */
  lemma MembersBetween(sorted: seq<real>, values: seq<real>)
    requires |values| > 0
    requires forall i :: 0 <= i < |sorted| ==> sorted[i] in values
    ensures forall i :: 0 <= i < |sorted| ==> MinOf(values) <= sorted[i] <= MaxOf(values)
  {
    forall i | 0 <= i < |sorted| ensures MinOf(values) <= sorted[i] <= MaxOf(values) {
      var j :| 0 <= j < |values| && values[j] == sorted[i];
    }
  }

  /** `statistics.mean`, exactly. */
  function Mean(values: seq<real>): (m: real)
    requires |values| > 0
    ensures MinOf(values) <= m <= MaxOf(values)
  {
    SumBetween(values, MinOf(values), MaxOf(values));
    MeanBetween(Sum(values), |values| as real, MinOf(values), MaxOf(values));
    Sum(values) / |values| as real
  }

  /** `mean`, `median`, `min` and `max` of the values, the median read off
      the same values in ascending order. */
  function Summarize(values: seq<real>, sorted: seq<real>): (s: Summary)
    requires |values| > 0 && |sorted| == |values|
    requires forall i :: 0 <= i < |sorted| ==> sorted[i] in values
    ensures s.min in values && s.max in values
    ensures forall i :: 0 <= i < |values| ==> s.min <= values[i] <= s.max
    ensures s.mean == Sum(values) / |values| as real
    ensures s.min <= s.mean <= s.max
    ensures |sorted| % 2 == 1 ==> s.median == sorted[|sorted| / 2]
    ensures |sorted| % 2 == 0 ==> s.median == (sorted[|sorted| / 2 - 1] + sorted[|sorted| / 2]) / 2.0
    ensures s.min <= s.median <= s.max
  {
    MembersBetween(sorted, values);
    MedianBetween(sorted, MinOf(values), MaxOf(values));
    Summary(Mean(values), MedianOfSorted(sorted), MinOf(values), MaxOf(values))
  }

  /** In a sorted permutation the least value comes first. */
  lemma SortedFirstIsMin(r: seq<Entry>, es: seq<Entry>)
    requires |es| > 0 && SortedByValue(r) && multiset(r) == multiset(es)
    ensures |r| == |es| && MinOf(Values(es)) == r[0].value
  {
    assert |r| == |multiset(r)| == |es|;
    var vs := Values(es);
    var lo :| 0 <= lo < |es| && vs[lo] == MinOf(vs);
    assert es[lo] in multiset(r);
    var i :| 0 <= i < |r| && r[i] == es[lo];
    assert r[0].value <= r[i].value;
    assert r[0] in multiset(es);
    var a :| 0 <= a < |es| && es[a] == r[0];
    assert MinOf(vs) <= vs[a];
  }

  /** In a sorted permutation the greatest value comes last. */
  lemma SortedLastIsMax(r: seq<Entry>, es: seq<Entry>)
    requires |es| > 0 && SortedByValue(r) && multiset(r) == multiset(es)
    ensures |r| == |es| && MaxOf(Values(es)) == r[|r| - 1].value
  {
    assert |r| == |multiset(r)| == |es|;
    var vs := Values(es);
    var hi :| 0 <= hi < |es| && vs[hi] == MaxOf(vs);
    assert es[hi] in multiset(r);
    var i :| 0 <= i < |r| && r[i] == es[hi];
    assert r[i].value <= r[|r| - 1].value;
    assert r[|r| - 1] in multiset(es);
    var a :| 0 <= a < |es| && es[a] == r[|r| - 1];
    assert vs[a] <= MaxOf(vs);
  }

  /** The least value is the first in the ranking and the greatest the
      last. */
  lemma RankEnds(es: seq<Entry>)
    requires |es| > 0
    ensures MinOf(Values(es)) == RankByValue(es)[0].value
    ensures MaxOf(Values(es)) == RankByValue(es)[|es| - 1].value
  {
    RankSorted(es);
    SortedFirstIsMin(RankByValue(es), es);
    SortedLastIsMax(RankByValue(es), es);
  }

  /** The values of a permutation are among the original values. */
  lemma PermutedValues(r: seq<Entry>, es: seq<Entry>)
    requires multiset(r) == multiset(es)
    ensures forall i :: 0 <= i < |r| ==> Values(r)[i] in Values(es)
  {
    forall i | 0 <= i < |r| ensures Values(r)[i] in Values(es) {
      assert r[i] in multiset(es);
      var j :| 0 <= j < |es| && es[j] == r[i];
      assert Values(es)[j] == Values(r)[i];
    }
  }

  /** The metrics `compare_urls` reports on; time to interactive is not
      among them. */
  const ComparedKeys: set<MetricKey> := {Lcp, Fid, Cls, Fcp, Ttfb}

  /** Ranking and, when any result contributed, the averages of one metric. */
  datatype MetricComparison = MetricComparison(ranking: seq<Entry>, averages: Option<Summary>)

  function CompareMetric(rs: seq<Analysis>, k: MetricKey): (c: MetricComparison)
    ensures |c.ranking| == Count(rs, Contributes)
    ensures multiset(c.ranking) == multiset(Contributions(rs, k))
    ensures SortedByValue(c.ranking)
    ensures c.averages.Some? <==> c.ranking != []
    ensures c.averages.Some? ==>
      c.averages.value.min == c.ranking[0].value &&
      c.averages.value.max == c.ranking[|c.ranking| - 1].value
    ensures c.averages.Some? ==> c.averages.value.mean == Sum(Values(Contributions(rs, k))) / |c.ranking| as real
    ensures c.averages.Some? ==> c.averages.value.median == MedianOfSorted(Values(c.ranking))
    ensures forall v :: Filter(c.ranking, ValueIs(v)) == Filter(Contributions(rs, k), ValueIs(v))
  {
    var es := Contributions(rs, k);
    var ranked := RankByValue(es);
    RankSorted(es);
    forall v ensures Filter(ranked, ValueIs(v)) == Filter(es, ValueIs(v)) {
      RankStable(es, v);
    }
    if |es| == 0 then MetricComparison(ranked, None)
    else
      PermutedValues(ranked, es);
      RankEnds(es);
      MetricComparison(ranked, Some(Summarize(Values(es), Values(ranked))))
  }

  /** The result of `compare_urls`: a ranking per compared metric and
      averages for the metrics some result contributed to. */
  datatype Comparison = Comparison(urls: seq<string>, strategy: string,
    rankings: map<MetricKey, seq<Entry>>, averages: map<MetricKey, Summary>)

  function CompareUrls(urls: seq<string>, responses: seq<Fetch<PsiResponse>>, strategy: string, show: NumberText): (c: Comparison)
    requires |responses| == |urls|
    ensures c.rankings.Keys == ComparedKeys
    ensures c.averages.Keys <= ComparedKeys
    ensures forall k :: k in c.rankings ==> (k in c.averages <==> c.rankings[k] != [])
    ensures forall k :: k in c.rankings ==> SortedByValue(c.rankings[k])
    ensures forall k :: k in c.rankings ==>
      |c.rankings[k]| == Count(AnalyzeBulk(urls, responses, strategy, show), Contributes)
    ensures forall k :: k in c.rankings ==>
      multiset(c.rankings[k]) == multiset(Contributions(AnalyzeBulk(urls, responses, strategy, show), k))
    ensures forall k, v :: k in c.rankings ==>
      Filter(c.rankings[k], ValueIs(v)) == Filter(Contributions(AnalyzeBulk(urls, responses, strategy, show), k), ValueIs(v))
  {
    var (rankings, averages) := CompareResults(AnalyzeBulk(urls, responses, strategy, show));
    Comparison(urls, strategy, rankings, averages)
  }

  /** The rankings and averages of the compared metrics over the results. */
  function CompareResults(rs: seq<Analysis>): (c: (map<MetricKey, seq<Entry>>, map<MetricKey, Summary>))
    ensures forall k :: k in c.0 <==> k in ComparedKeys
    ensures c.1.Keys <= ComparedKeys
    ensures forall k :: k in c.0 ==> (k in c.1 <==> c.0[k] != [])
    ensures forall k :: k in c.0 ==> SortedByValue(c.0[k])
    ensures forall k :: k in c.0 ==> |c.0[k]| == Count(rs, Contributes)
    ensures forall k :: k in c.0 ==> multiset(c.0[k]) == multiset(Contributions(rs, k))
    ensures forall k :: k in c.1 ==> c.1[k].min == c.0[k][0].value && c.1[k].max == c.0[k][|c.0[k]| - 1].value
    ensures forall k :: k in c.1 ==> c.1[k].median == MedianOfSorted(Values(c.0[k]))
    ensures forall k, v :: k in c.0 ==> Filter(c.0[k], ValueIs(v)) == Filter(Contributions(rs, k), ValueIs(v))
  {
    var rankings := map k | k in ComparedKeys :: CompareMetric(rs, k).ranking;
    var averages := map k | k in ComparedKeys && CompareMetric(rs, k).averages.Some? :: CompareMetric(rs, k).averages.value;
    (rankings, averages)
  }
}

=== FILE: csv_report.dfy ===
/** The two CSV renderings of the command-line tool: the bulk table with one
    row per analysed URL, and the per-check summary of a full audit.
    Every value reaches a cell through Python's `str()`; the values are
    given here already rendered, except counts, which are rendered with
    `NatToString`. */
module CsvReport {
  import opened Common
  import opened Text

  // ---------------------------------------------------------------------
  // Bulk CSV

  /** The checks a bulk run can select. */
  const TechnicalCheck := "technical"
  const CwvCheck := "cwv"
  const SchemaCheck := "schema"
  const MobileCheck := "mobile"

  /** The cells the bulk table reads from each check's result; `None` for a
      missing key, whose cell is blank. */
  datatype TechnicalCells = TechnicalCells(score: Option<string>, critical: Option<string>, warnings: Option<string>)
  datatype CwvCells = CwvCells(score: Option<string>, lcp: Option<string>, fid: Option<string>, cls: Option<string>)
  /** Schema results contribute counts: the lengths of `schemas_found` and
      `errors` (zero when absent). */
  datatype SchemaCells = SchemaCells(score: Option<string>, schemasFound: nat, errors: nat)
  /** `mobileFriendly` is the truthiness of the `mobile_friendly` value. */
  datatype MobileCells = MobileCells(score: Option<string>, mobileFriendly: bool)

  /** One result of a bulk run; a check's field is `None` when the result
      has no entry for it. */
  datatype BulkResult = BulkResult(
    url: string, timestamp: string,
    technical: Option<TechnicalCells>, cwv: Option<CwvCells>,
    schema: Option<SchemaCells>, mobile: Option<MobileCells>,
    error: Option<string>)

  function Blank(v: Option<string>): string {
    v.GetOr("")
  }

  /** Width of each column group. */
  function TechnicalWidth(checks: seq<string>): nat { if TechnicalCheck in checks then 3 else 0 }
  function CwvWidth(checks: seq<string>): nat { if CwvCheck in checks then 4 else 0 }
  function SchemaWidth(checks: seq<string>): nat { if SchemaCheck in checks then 3 else 0 }
  function MobileWidth(checks: seq<string>): nat { if MobileCheck in checks then 2 else 0 }

  /** Columns of a bulk table: URL and timestamp, the groups of the selected
      checks in fixed order, and the error. */
  function Width(checks: seq<string>): nat {
    2 + TechnicalWidth(checks) + CwvWidth(checks) + SchemaWidth(checks) + MobileWidth(checks) + 1
  }

  function TechnicalHeader(checks: seq<string>): (h: seq<string>)
    ensures |h| == TechnicalWidth(checks)
  {
    if TechnicalCheck in checks then ["Technical Score", "Technical Issues", "Technical Warnings"] else []
  }

  function CwvHeader(checks: seq<string>): (h: seq<string>)
    ensures |h| == CwvWidth(checks)
  {
    if CwvCheck in checks then ["CWV Score", "LCP", "FID", "CLS"] else []
  }

  function SchemaHeader(checks: seq<string>): (h: seq<string>)
    ensures |h| == SchemaWidth(checks)
  {
    if SchemaCheck in checks then ["Schema Score", "Schemas Found", "Schema Errors"] else []
  }

  function MobileHeader(checks: seq<string>): (h: seq<string>)
    ensures |h| == MobileWidth(checks)
  {
    if MobileCheck in checks then ["Mobile Score", "Mobile Friendly"] else []
  }

  /** The header row of `_format_bulk_csv`. */
  function BulkHeader(checks: seq<string>): (h: seq<string>)
    ensures |h| == Width(checks)
    ensures h[..2] == ["URL", "Timestamp"] && h[|h| - 1] == "Error"
    ensures MobileCheck in checks ==> h[|h| - 3..|h| - 1] == ["Mobile Score", "Mobile Friendly"]
    ensures TechnicalCheck in checks ==> h[2..5] == ["Technical Score", "Technical Issues", "Technical Warnings"]
  {
    var h := ["URL", "Timestamp"] + TechnicalHeader(checks) + CwvHeader(checks)
      + SchemaHeader(checks) + MobileHeader(checks) + ["Error"];
    assert h[|h| - 1 - MobileWidth(checks)..|h| - 1] == MobileHeader(checks);
    assert h[2..2 + TechnicalWidth(checks)] == TechnicalHeader(checks);
    h
  }

  function TechnicalRow(checks: seq<string>, r: BulkResult): (row: seq<string>)
    ensures |row| == TechnicalWidth(checks)
  {
    if TechnicalCheck !in checks then []
    else match r.technical
      case None => ["", "", ""]
      case Some(t) => [Blank(t.score), Blank(t.critical), Blank(t.warnings)]
  }

  function CwvRow(checks: seq<string>, r: BulkResult): (row: seq<string>)
    ensures |row| == CwvWidth(checks)
  {
    if CwvCheck !in checks then []
    else match r.cwv
      case None => ["", "", "", ""]
      case Some(c) => [Blank(c.score), Blank(c.lcp), Blank(c.fid), Blank(c.cls)]
  }

  function SchemaRow(checks: seq<string>, r: BulkResult): (row: seq<string>)
    ensures |row| == SchemaWidth(checks)
  {
    if SchemaCheck !in checks then []
    else match r.schema
      case None => ["", "", ""]
      case Some(s) => [Blank(s.score), NatToString(s.schemasFound), NatToString(s.errors)]
  }

  function MobileRow(checks: seq<string>, r: BulkResult): (row: seq<string>)
    ensures |row| == MobileWidth(checks)
  {
    if MobileCheck !in checks then []
    else match r.mobile
      case None => ["", ""]
      case Some(m) => [Blank(m.score), if m.mobileFriendly then "Yes" else "No"]
  }

  /** One data row: as many cells as the header, a missing check padded
      with blanks. */
  function BulkRow(checks: seq<string>, r: BulkResult): (row: seq<string>)
    ensures |row| == Width(checks)
    ensures row[0] == r.url && row[1] == r.timestamp
    ensures row[|row| - 1] == Blank(r.error)
    ensures MobileCheck in checks ==>
      (row[|row| - 2] == "Yes" <==> r.mobile.Some? && r.mobile.value.mobileFriendly)
    ensures MobileCheck in checks ==>
      (row[|row| - 2] == "No" <==> r.mobile.Some? && !r.mobile.value.mobileFriendly)
    ensures TechnicalCheck in checks && r.technical.None? ==> row[2..5] == ["", "", ""]
    ensures TechnicalCheck in checks && r.technical.Some? ==>
      row[2..5] == [Blank(r.technical.value.score), Blank(r.technical.value.critical), Blank(r.technical.value.warnings)]
    ensures var c := 2 + TechnicalWidth(checks);
      CwvCheck in checks ==>
        row[c..c + 4] == (if r.cwv.None? then ["", "", "", ""]
                          else [Blank(r.cwv.value.score), Blank(r.cwv.value.lcp), Blank(r.cwv.value.fid), Blank(r.cwv.value.cls)])
    ensures var c := 2 + TechnicalWidth(checks) + CwvWidth(checks);
      SchemaCheck in checks && r.schema.None? ==> row[c..c + 3] == ["", "", ""]
    ensures var c := 2 + TechnicalWidth(checks) + CwvWidth(checks);
      SchemaCheck in checks && r.schema.Some? ==>
        && row[c] == Blank(r.schema.value.score)
        && ReadsAs(row[c + 1], r.schema.value.schemasFound)
        && ReadsAs(row[c + 2], r.schema.value.errors)
    ensures MobileCheck in checks && r.mobile.None? ==> row[|row| - 3..|row| - 1] == ["", ""]
    ensures MobileCheck in checks && r.mobile.Some? ==> row[|row| - 3] == Blank(r.mobile.value.score)
  {
    var t, c, s, m := TechnicalRow(checks, r), CwvRow(checks, r), SchemaRow(checks, r), MobileRow(checks, r);
    GroupSlices([r.url, r.timestamp], t, c, s, m, [Blank(r.error)]);
    DecimalRoundTrip(if r.schema.Some? then r.schema.value.schemasFound else 0);
    DecimalRoundTrip(if r.schema.Some? then r.schema.value.errors else 0);
    [r.url, r.timestamp] + t + c + s + m + [Blank(r.error)]
  }

  /** Each group of a row of six groups is found at its offset. */
  lemma GroupSlices(a: seq<string>, t: seq<string>, c: seq<string>, s: seq<string>, m: seq<string>, e: seq<string>)
    ensures var row := a + t + c + s + m + e;
      && row[..|a|] == a
      && row[|a|..|a| + |t|] == t
      && row[|a| + |t|..|a| + |t| + |c|] == c
      && row[|a| + |t| + |c|..|a| + |t| + |c| + |s|] == s
      && row[|a| + |t| + |c| + |s|..|row| - |e|] == m
      && row[|row| - |e|..] == e
  {
    var row := a + t + c + s + m + e;
    assert row == a + (t + (c + (s + (m + e))));
  }

  /** Every row of the table, header first. */
  function BulkRows(results: seq<BulkResult>, checks: seq<string>): (rows: seq<seq<string>>)
    ensures |rows| == |results| + 1
    ensures rows[0] == BulkHeader(checks)
    ensures forall i :: 0 <= i < |results| ==> rows[i + 1] == BulkRow(checks, results[i])
    ensures forall i :: 0 <= i < |rows| ==> |rows[i]| == |rows[0]|
  {
    [BulkHeader(checks)] + seq(|results|, i requires 0 <= i < |results| => BulkRow(checks, results[i]))
  }

  /** `f'"{cell}"'`: the cell between double quotes, embedded quotes left
      as they are. */
  function Quote(cell: string): string {
    "\"" + cell + "\""
  }

  function QuoteAll(row: seq<string>): (q: seq<string>)
    ensures |q| == |row|
    ensures forall i :: 0 <= i < |row| ==> q[i] == Quote(row[i])
  {
    seq(|row|, i requires 0 <= i < |row| => Quote(row[i]))
  }

  function QuotedLine(row: seq<string>): string {
    Join(QuoteAll(row), ",")
  }

  function RenderLines(rows: seq<seq<string>>, line: seq<string> -> string): (ls: seq<string>)
    ensures |ls| == |rows|
    ensures forall i :: 0 <= i < |rows| ==> ls[i] == line(rows[i])
  {
    seq(|rows|, i requires 0 <= i < |rows| => line(rows[i]))
  }

  /** `_format_bulk_csv` */
  function BulkCsv(results: seq<BulkResult>, checks: seq<string>): string {
    Join(RenderLines(BulkRows(results, checks), QuotedLine), "\n")
  }

  /** No line break inside any cell of the table. */
  predicate SingleLineCells(rows: seq<seq<string>>) {
    forall i, j :: 0 <= i < |rows| && 0 <= j < |rows[i]| ==> '\n' !in rows[i][j]
  }

  lemma QuotedLineSingle(row: seq<string>)
    requires forall j :: 0 <= j < |row| ==> '\n' !in row[j]
    ensures '\n' !in QuotedLine(row)
  {
    JoinKeeps(QuoteAll(row), ",", '\n');
  }

  /** Joining never introduces a character that neither the pieces nor the
      separator hold. */
  lemma {:induction false} JoinKeeps(parts: seq<string>, sep: string, c: char)
    requires c !in sep
    requires forall j :: 0 <= j < |parts| ==> c !in parts[j]
    ensures c !in Join(parts, sep)
  {
    if |parts| > 1 {
      JoinKeeps(parts[1..], sep, c);
      assert c !in parts[0];
    }
  }

  /** The bulk output is the header line plus one line per result, as
      long as no cell holds a line break. */
  lemma BulkLines(results: seq<BulkResult>, checks: seq<string>)
    requires SingleLineCells(BulkRows(results, checks))
    ensures |Split(BulkCsv(results, checks), '\n')| == |results| + 1
    ensures Split(BulkCsv(results, checks), '\n')[0] == QuotedLine(BulkHeader(checks))
  {
    var rows := BulkRows(results, checks);
    var lines := RenderLines(rows, QuotedLine);
    forall i | 0 <= i < |lines| ensures '\n' !in lines[i] {
      QuotedLineSingle(rows[i]);
    }
    SplitJoin(lines, '\n');
  }

  /** Quoting without escaping is not injective: a cell holding `","`
      renders like two cells. */
  lemma QuotingIsAmbiguous()
    ensures QuotedLine(["a\",\"b"]) == QuotedLine(["a", "b"])
  {
    assert QuotedLine(["a", "b"]) == "\"a\"" + "," + "\"b\"";
  }

  // ---------------------------------------------------------------------
  // Full-audit CSV

  /** The `issues` entry of a check result: a dictionary with optional
      counts, or any other value. */
  datatype Issues = IssueCounts(critical: Option<nat>, warnings: Option<nat>) | NotCounts

  /** One entry of `results['audits']`. A dictionary result carries its
      optional fields (`errors` and `warnings` by their lengths, `score` and
      `status` already rendered); any other value is skipped. */
  datatype CheckData =
    | CheckDict(score: Option<string>, issues: Option<Issues>, errors: Option<nat>,
                warnings: Option<nat>, status: Option<string>)
    | NotDict

  predicate IsDict(entry: (string, CheckData)) {
    entry.1.CheckDict?
  }

  function CriticalCount(d: CheckData): nat
    requires d.CheckDict?
  {
    var base := match d.issues
      case Some(IssueCounts(c, _)) => c.GetOr(0)
      case _ => 0;
    base + d.errors.GetOr(0)
  }

  function WarningCount(d: CheckData): nat
    requires d.CheckDict?
  {
    var base := match d.issues
      case Some(IssueCounts(_, w)) => w.GetOr(0)
      case _ => 0;
    base + d.warnings.GetOr(0)
  }

  const SummaryHeader: seq<string> := ["Check", "Score", "Critical Issues", "Warnings", "Status"]

  /** The summary row of one dictionary-valued check. */
  function SummaryRow(name: string, d: CheckData): (row: seq<string>)
    requires d.CheckDict?
    ensures |row| == |SummaryHeader|
    ensures row[0] == name
    ensures d.score.None? ==> row[1] == "N/A"
    ensures d.score.Some? ==> row[1] == d.score.value
    ensures d.status.None? ==> row[4] == "unknown"
    ensures d.status.Some? ==> row[4] == d.status.value
    ensures ReadsAs(row[2], CriticalCount(d))
    ensures ReadsAs(row[3], WarningCount(d))
  {
    DecimalRoundTrip(CriticalCount(d));
    DecimalRoundTrip(WarningCount(d));
    [name, d.score.GetOr("N/A"), NatToString(CriticalCount(d)),
      NatToString(WarningCount(d)), d.status.GetOr("unknown")]
  }

  /** The rows after the header, one per dictionary-valued check, in order. */
  function SummaryRows(audits: seq<(string, CheckData)>): (rows: seq<seq<string>>)
    ensures |rows| == Count(audits, IsDict)
    ensures forall i :: 0 <= i < |rows| ==> |rows[i]| == |SummaryHeader|
  {
    if |audits| == 0 then []
    else
      (if IsDict(audits[0]) then [SummaryRow(audits[0].0, audits[0].1)] else [])
      + SummaryRows(audits[1..])
  }

  /** The rows follow the dictionary-valued checks one for one. */
  lemma {:induction false} SummaryRowsFollowChecks(audits: seq<(string, CheckData)>)
    ensures forall i :: 0 <= i < |SummaryRows(audits)| ==>
      Filter(audits, IsDict)[i].1.CheckDict? &&
      SummaryRows(audits)[i] == SummaryRow(Filter(audits, IsDict)[i].0, Filter(audits, IsDict)[i].1)
  {
    if |audits| > 0 {
      SummaryRowsFollowChecks(audits[1..]);
      var head := if IsDict(audits[0]) then [audits[0]] else [];
      assert Filter(audits, IsDict) == head + Filter(audits[1..], IsDict);
    }
  }

  function PlainLine(row: seq<string>): string {
    Join(row, ",")
  }

  /** The `csv` branch of `_format_full_audit_results`. */
  function FullAuditCsv(audits: seq<(string, CheckData)>): string {
    Join(RenderLines([SummaryHeader] + SummaryRows(audits), PlainLine), "\n")
  }

  /** Lines of rows whose cells hold no line break hold none either. */
  lemma PlainLinesSingle(rows: seq<seq<string>>)
    requires SingleLineCells(rows)
    ensures forall i :: 0 <= i < |rows| ==> '\n' !in PlainLine(rows[i])
  {
    forall i | 0 <= i < |rows| ensures '\n' !in PlainLine(rows[i]) {
      JoinKeeps(rows[i], ",", '\n');
    }
  }

  lemma HeaderSingleLine()
    ensures '\n' !in PlainLine(SummaryHeader)
  {
    forall j | 0 <= j < |SummaryHeader| ensures '\n' !in SummaryHeader[j] {
      var c := SummaryHeader[j];
      assert forall k :: 0 <= k < |c| ==> c[k] != '\n';
    }
    JoinKeeps(SummaryHeader, ",", '\n');
  }

  /** The summary is the header line plus one line per dictionary-valued
      check, as long as no name, score or status holds a line break. */
  lemma FullAuditLines(audits: seq<(string, CheckData)>)
    requires SingleLineCells(SummaryRows(audits))
    ensures |Split(FullAuditCsv(audits), '\n')| == Count(audits, IsDict) + 1
  {
    var rows := [SummaryHeader] + SummaryRows(audits);
    var lines := RenderLines(rows, PlainLine);
    HeaderSingleLine();
    PlainLinesSingle(SummaryRows(audits));
    forall i | 0 <= i < |lines| ensures '\n' !in lines[i] {
      if i > 0 {
        assert rows[i] == SummaryRows(audits)[i - 1];
      }
    }
    SplitJoin(lines, '\n');
    assert FullAuditCsv(audits) == Join(lines, "\n");
  }
}

=== FILE: mobile_checker.dfy ===
/** The mobile-friendliness rules: the viewport meta tag and its directives,
    responsive-design and touch-target heuristics over the first elements of
    the page, readable font sizes, render-blocking scripts, the clamped score
    and the `mobile_friendly` verdict. */
module MobileChecker {
  import opened Common
  import opened Text

  // Message texts, as the checker words them.
  const FloatErrorPrefix := "could not convert string to float: '"
  const MissingWidthIssue := "Viewport missing width directive"
  const NoZoomIssue := "user-scalable=no prevents zooming - accessibility issue"
  const MaxScaleWarning := "Maximum-scale restricts zooming - consider accessibility"
  const WidthWarningPrefix := "Viewport width set to '"
  const WidthWarningSuffix := "' instead of 'device-width'"
  const MissingInitialScaleWarning := "Viewport missing initial-scale directive"
  const InitialScalePrefix := "Initial-scale set to "
  const InitialScaleSuffix := " instead of 1"
  const NoViewportNote := "No viewport meta tag found - critical for mobile responsiveness"
  const MissingViewportIssue := "Missing viewport meta tag"
  const EmptyViewportIssue := "Empty viewport meta tag"
  const RigidImagesWarning := "Images may not be responsive - consider using srcset or max-width: 100%"
  const FixedContainersSuffix := " containers with fixed pixel widths"
  const SmallTargetsSuffix := " potentially small touch targets"
  const TouchTargetSizeAdvice := "Ensure touch targets are at least 48x48 CSS pixels"
  const SmallFontsSuffix := " elements with potentially small font sizes"
  const FontSizeAdvice := "Use minimum 16px font size for body text on mobile"
  const HandheldFriendlyIssue := "HandheldFriendly meta tag may affect text scaling"
  const AsyncDeferAdvice := "Add async or defer attributes to non-critical scripts"
  const LazyLoadingSuggestion := "Images missing loading=\"lazy\" attribute for performance"
  const RenderBlockingSuffix := " render-blocking scripts found"
  const AnalysisFailedPrefix := "Analysis failed: "
  const FetchFailedPrefix := "Failed to fetch URL: "
  const FoundPrefix := "Found "

  // ------------------------------------------------------------ the page

  /** The first `<meta name="viewport">`; `content` is its attribute. */
  datatype ViewportTag = ViewportTag(content: Option<string>)

  /** An `<img>`: `src` and `style` read with default `''`. */
  datatype Image = Image(src: string, srcset: Option<string>, sizes: Option<string>,
                         style: string, loading: Option<string>)

  /** An element of which only the inline `style` (default `''`) matters. */
  datatype Styled = Styled(style: string)

  /** An `<a>`, `<button>`, `<input>`, `<select>` or `<textarea>`: its class
      tokens and inline style. */
  datatype Clickable = Clickable(classes: seq<string>, style: string)

  /** A `<script>` that has a `src` attribute, with its `async` and `defer`
      attributes. An attribute written without a value holds `''`. */
  datatype Script = Script(async: Option<string>, defer: Option<string>)

  /** What the rules read from the page fetched with the mobile user agent.
      `containers` are the `div`/`section`/`article` elements and
      `textElements` the `p`/`span`/`div`/`li`/`td` elements, in document
      order; `inlineStyles` are the texts between each `<style …>` tag and the next
      `</style>`, matched over the raw page text rather than the parsed
      document (so a commented-out style block counts too);
      `handheldFriendly`, `manifest` and `appleCapable` say whether
      `<meta name="HandheldFriendly" content="true">`, `<link rel="manifest">`
      and `<meta name="apple-mobile-web-app-capable">` occur. */
  datatype MobilePage = MobilePage(
    html: string,
    viewport: Option<ViewportTag>,
    images: seq<Image>,
    containers: seq<Styled>,
    clickables: seq<Clickable>,
    textElements: seq<Styled>,
    handheldFriendly: bool,
    inlineStyles: seq<string>,
    scripts: seq<Script>,
    manifest: bool,
    appleCapable: bool)

  /** `float(text)`, absent when it raises `ValueError`. */
  type FloatParser = string -> Option<PyFloat>

  // ------------------------------------------------- inline CSS patterns

  /** Length of the run of ASCII digits at the start of `s`. */
  function DigitRun(s: string): (n: nat)
    ensures n <= |s|
    ensures forall i :: 0 <= i < n ==> IsDigit(s[i])
    ensures n == |s| || !IsDigit(s[n])
  {
    if |s| > 0 && IsDigit(s[0]) then 1 + DigitRun(s[1..]) else 0
  }

  /** `\s*\d+px` matches at the start of `s`. */
  predicate PixelsAt(s: string) {
    var t := StripLeft(s);
    var n := DigitRun(t);
    n > 0 && StartsWith(t[n..], "px")
  }

  /** `width:\s*\d+px` matches at the start of `s`. */
  predicate FixedWidthAt(s: string) {
    StartsWith(s, "width:") && PixelsAt(s[6..])
  }

  /** `re.search(r'width:\s*\d+px', style)` */
  predicate FixedWidth(style: string) {
    exists i :: 0 <= i <= |style| && FixedWidthAt(style[i..])
  }

  /** `\s*([0-2]?\d)px` matches at the start of `s`: one digit, or two of
      which the first is 0, 1 or 2, right before `px`. */
  predicate SmallPixelsAt(s: string) {
    var t := StripLeft(s);
    var n := DigitRun(t);
    (n == 1 || (n == 2 && t[0] <= '2')) && StartsWith(t[n..], "px")
  }

  /** `(height|width):\s*([0-2]?\d)px` matches at the start of `s`. */
  predicate SmallSizeAt(s: string) {
    || (StartsWith(s, "height:") && SmallPixelsAt(s[7..]))
    || (StartsWith(s, "width:") && SmallPixelsAt(s[6..]))
  }

  /** `re.search(r'(height|width):\s*([0-2]?\d)px', style)` */
  predicate SmallSize(style: string) {
    exists i :: 0 <= i <= |style| && SmallSizeAt(style[i..])
  }

  /** The number a small-size match names is below 30 pixels. */
  lemma SmallPixelsBelowThirty(s: string)
    requires SmallPixelsAt(s)
    ensures var t := StripLeft(s); DigitsValue(t[..DigitRun(t)]) < 30
  {
    var t := StripLeft(s);
    var n := DigitRun(t);
    SmallDigitsBelowThirty(t[..n]);
  }

  /** One digit, or two digits the first of which is at most 2, read as a
      number below 30. */
  lemma SmallDigitsBelowThirty(d: string)
    requires forall i :: 0 <= i < |d| ==> IsDigit(d[i])
    requires |d| == 1 || (|d| == 2 && d[0] <= '2')
    ensures DigitsValue(d) < 30
  {
    assert DigitsValue(d[..0]) == 0;
    if |d| == 2 {
      assert d[..1][..0] == d[..0];
      assert DigitsValue(d[..1]) == DigitValue(d[0]);
    }
  }

  datatype FontUnit = Px | Pt

  /** `font-size:\s*(\d+)(px|pt)` at the start of `s`: the size and unit. */
  function FontSizeAt(s: string): (m: Option<(nat, FontUnit)>)
    ensures m.Some? ==> StartsWith(s, "font-size:")
  {
    if !StartsWith(s, "font-size:") then None
    else
      var t := StripLeft(s[10..]);
      var n := DigitRun(t);
      if n == 0 then None
      else if StartsWith(t[n..], "px") then Some((DigitsValue(t[..n]), Px))
      else if StartsWith(t[n..], "pt") then Some((DigitsValue(t[..n]), Pt))
      else None
  }

  /** `re.search(r'font-size:\s*(\d+)(px|pt)', style)` scanning from `from`:
      the leftmost match. */
  function FirstFontSize(style: string): Option<(nat, FontUnit)> {
    FirstMatch(FontMatches(style), 0, |style|)
  }

  /** The match of the font-size pattern at each position of `style`. */
  function FontMatches(style: string): nat -> Option<(nat, FontUnit)> {
    (i: nat) => if i <= |style| then FontSizeAt(style[i..]) else None
  }

  /** The first position from `from` up to `last` at which `at` matches:
      the way `re.search` scans. */
  function FirstMatch<M>(at: nat -> Option<M>, from: nat, last: nat): Option<M>
    requires from <= last
    decreases last - from
  {
    if at(from).Some? then at(from)
    else if from == last then None
    else FirstMatch(at, from + 1, last)
  }

  /** The scan finds a match exactly when there is one, and what it finds
      is the leftmost. */
  lemma {:induction false} FirstMatchLeftmost<M>(at: nat -> Option<M>, from: nat, last: nat)
    requires from <= last
    ensures FirstMatch(at, from, last).None? <==> forall i :: from <= i <= last ==> at(i).None?
    ensures FirstMatch(at, from, last).Some? ==>
      exists i :: from <= i <= last && at(i) == FirstMatch(at, from, last)
                  && forall j :: from <= j < i ==> at(j).None?
    decreases last - from
  {
    if at(from).None? && from < last {
      FirstMatchLeftmost(at, from + 1, last);
    }
  }

  /** An inline font size below 12px or below 9pt. */
  predicate SmallFont(e: Styled) {
    match FirstFontSize(e.style)
    case Some((size, Px)) => size < 12
    case Some((size, Pt)) => size < 9
    case None => false
  }

  // ------------------------------------------------------------ viewport

  /** `f.strip().split('=', 1)` with each side stripped, for a `content`
      fragment holding `=`; fragments without `=` define nothing. The key is
      what precedes the first `=` of the stripped fragment, the value what
      follows it, each stripped again. */
  function Directive(f: string): (kv: Option<(string, string)>)
    ensures kv.Some? <==> '=' in f
    ensures kv.Some? ==> '=' in Strip(f) && kv.value == (Strip(SplitFirst(Strip(f), '=').0), Strip(SplitFirst(Strip(f), '=').1))
  {
    if '=' !in f then None
    else
      StripKeeps(f, '=');
      var p := SplitFirst(Strip(f), '=');
      Some((Strip(p.0), Strip(p.1)))
  }

  /** Fragment `i` sets directive `k`. */
  predicate Sets(frags: seq<string>, parse: string -> Option<(string, string)>, i: nat, k: string)
    requires i < |frags|
  {
    parse(frags[i]).Some? && parse(frags[i]).value.0 == k
  }

  /** Fragment `i` sets `k` and no later fragment does. */
  predicate SetsLast(frags: seq<string>, parse: string -> Option<(string, string)>, i: nat, k: string)
    requires i < |frags|
  {
    Sets(frags, parse, i, k) && forall j :: i < j < |frags| ==> !Sets(frags, parse, j, k)
  }

  /** The dictionary built by `for f in frags: if kv: d[key] = value`. */
  function Directives(frags: seq<string>, parse: string -> Option<(string, string)>): (d: map<string, string>)
    ensures forall k :: k in d <==> exists i :: 0 <= i < |frags| && Sets(frags, parse, i, k)
    ensures forall i, k :: 0 <= i < |frags| && SetsLast(frags, parse, i, k) ==> k in d && d[k] == parse(frags[i]).value.1
  {
    if |frags| == 0 then map[]
    else
      var init := frags[..|frags| - 1];
      var f := frags[|frags| - 1];
      var d := Directives(init, parse);
      DirectivesSnoc(init, f, parse);
      assert frags == init + [f];
      var r := if parse(f).Some? then d[parse(f).value.0 := parse(f).value.1] else d;
      forall k | k in r ensures exists i :: 0 <= i < |frags| && Sets(frags, parse, i, k) {
        if parse(f).Some? && k == parse(f).value.0 {
          assert Sets(frags, parse, |init|, k);
        } else {
          var i :| 0 <= i < |init| && Sets(init, parse, i, k);
          assert Sets(frags, parse, i, k);
        }
      }
      r
  }

  /** How `Sets` and `SetsLast` over a list grown by one fragment relate to
      the shorter list. */
  lemma DirectivesSnoc(init: seq<string>, f: string, parse: string -> Option<(string, string)>)
    ensures var frags := init + [f];
      && (forall i, k :: 0 <= i < |init| ==> (Sets(frags, parse, i, k) <==> Sets(init, parse, i, k)))
      && (forall i, k :: 0 <= i < |init| && SetsLast(frags, parse, i, k) ==> SetsLast(init, parse, i, k))
      && (forall i, k :: 0 <= i < |init| && SetsLast(frags, parse, i, k) ==> !Sets(frags, parse, |init|, k))
  {
    var frags := init + [f];
    assert forall j :: 0 <= j < |init| ==> frags[j] == init[j];
  }

  /** The directives of a `content` attribute. */
  function ParseViewport(content: string): map<string, string> {
    Directives(Split(content, ','), Directive)
  }

  /** `results['viewport_analysis']` */
  datatype ViewportAnalysis = ViewportAnalysis(present: bool, content: string, issues: seq<string>)

  /** What the viewport check adds, and the text of the `ValueError` it
      raises when `maximum-scale` is not a number. */
  datatype ViewportOutcome = ViewportOutcome(
    analysis: ViewportAnalysis,
    issues: seq<string>,
    warnings: seq<string>,
    raised: Option<string>)

  /** The `ValueError` text of `float(v)` (quoting inside `v` left as is). */
  function FloatErrorText(v: string): string {
    FloatErrorPrefix + v + "'"
  }

  /** The width rule applied to the directives. */
  predicate WidthMissing(d: map<string, string>) {
    "width" !in d
  }

  predicate WidthNotDevice(d: map<string, string>) {
    "width" in d && d["width"] != "device-width"
  }

  predicate ScaleNotOne(d: map<string, string>) {
    "initial-scale" !in d || d["initial-scale"] != "1"
  }

  /** `float(directives['maximum-scale'])` raises. */
  predicate MaxScaleRaises(d: map<string, string>, parseFloat: FloatParser) {
    "maximum-scale" in d && parseFloat(d["maximum-scale"]).None?
  }

  predicate MaxScaleRestricts(d: map<string, string>, parseFloat: FloatParser) {
    "maximum-scale" in d && parseFloat(d["maximum-scale"]).Some?
    && parseFloat(d["maximum-scale"]).value.Below(2.0)
  }

  predicate NoUserScaling(d: map<string, string>) {
    "user-scalable" in d && d["user-scalable"] == "no"
  }

  /** The rules `_check_viewport` applies to the parsed directives. */
  function DirectiveRules(d: map<string, string>, parseFloat: FloatParser, analysis: ViewportAnalysis): (v: ViewportOutcome)
    ensures v.analysis == analysis
    ensures v.raised.Some? <==> MaxScaleRaises(d, parseFloat)
    ensures v.raised.Some? ==> v.raised.value == FloatErrorText(d["maximum-scale"])
    ensures |v.issues| == B2N(WidthMissing(d)) + B2N(!MaxScaleRaises(d, parseFloat) && NoUserScaling(d))
    ensures WidthMissing(d) ==> v.issues[0] == MissingWidthIssue
    ensures |v.warnings| == B2N(WidthNotDevice(d)) + B2N(ScaleNotOne(d))
                            + B2N(!MaxScaleRaises(d, parseFloat) && MaxScaleRestricts(d, parseFloat))
  {
    var widthIssues := WidthIssues(d);
    var early := WidthWarnings(d) + ScaleWarnings(d);
    if MaxScaleRaises(d, parseFloat) then
      ViewportOutcome(analysis, widthIssues, early, Some(FloatErrorText(d["maximum-scale"])))
    else
      ViewportOutcome(analysis, widthIssues + ScalingIssues(d), early + MaxScaleWarnings(d, parseFloat), None)
  }

  function WidthIssues(d: map<string, string>): (w: seq<string>)
    ensures |w| == B2N(WidthMissing(d))
    ensures WidthMissing(d) ==> w[0] == MissingWidthIssue
  {
    if WidthMissing(d) then [MissingWidthIssue] else []
  }

  function ScalingIssues(d: map<string, string>): (w: seq<string>)
    ensures |w| == B2N(NoUserScaling(d))
  {
    if NoUserScaling(d) then [NoZoomIssue] else []
  }

  function MaxScaleWarnings(d: map<string, string>, parseFloat: FloatParser): (w: seq<string>)
    ensures |w| == B2N(MaxScaleRestricts(d, parseFloat))
  {
    if MaxScaleRestricts(d, parseFloat) then [MaxScaleWarning] else []
  }

  function WidthWarnings(d: map<string, string>): (w: seq<string>)
    ensures |w| == B2N(WidthNotDevice(d))
  {
    if WidthNotDevice(d) then [WidthWarningPrefix + d["width"] + WidthWarningSuffix] else []
  }

  function ScaleWarnings(d: map<string, string>): (w: seq<string>)
    ensures |w| == B2N(ScaleNotOne(d))
  {
    if "initial-scale" !in d then [MissingInitialScaleWarning]
    else if d["initial-scale"] != "1" then [InitialScalePrefix + d["initial-scale"] + InitialScaleSuffix]
    else []
  }

  /** `_check_viewport` */
  function CheckViewport(tag: Option<ViewportTag>, parseFloat: FloatParser): (v: ViewportOutcome)
    ensures tag.None? ==>
      && v.analysis == ViewportAnalysis(false, "", [NoViewportNote])
      && v.issues == [MissingViewportIssue] && v.warnings == [] && v.raised.None?
    ensures tag.Some? ==> v.analysis == ViewportAnalysis(true, tag.value.content.GetOr(""), [])
    ensures tag.Some? && tag.value.content.GetOr("") == "" ==>
      v.issues == [EmptyViewportIssue] && v.warnings == [] && v.raised.None?
    ensures tag.Some? && tag.value.content.GetOr("") != "" ==>
      v == DirectiveRules(ParseViewport(tag.value.content.value), parseFloat, v.analysis)
  {
    match tag
    case None =>
      ViewportOutcome(ViewportAnalysis(false, "", [NoViewportNote]),
                      [MissingViewportIssue], [], None)
    case Some(t) =>
      var c := t.content.GetOr("");
      var analysis := ViewportAnalysis(true, c, []);
      if c == "" then ViewportOutcome(analysis, [EmptyViewportIssue], [], None)
      else DirectiveRules(ParseViewport(c), parseFloat, analysis)
  }

  // --------------------------------------------------- responsive design

  /** An image with `srcset` or `sizes`, or a `max-width` of `100%`. */
  predicate Flexible(img: Image) {
    || Present(img.srcset) || Present(img.sizes)
    || (Contains(img.style, "max-width") && Contains(img.style, "100%"))
  }

  /** The image loop that stops at the first flexible image. */
  function AnyFlexible(images: seq<Image>): (found: bool)
    ensures found <==> exists i :: 0 <= i < |images| && Flexible(images[i])
  {
    if |images| == 0 then false
    else if Flexible(images[0]) then true
    else
      var found := AnyFlexible(images[1..]);
      assert forall i :: 0 < i < |images| ==> images[i] == images[1..][i - 1];
      found
  }

  predicate FixedContainer(e: Styled) {
    FixedWidth(e.style)
  }

  datatype ResponsiveChecks = ResponsiveChecks(
    flexibleImages: bool,
    fixedWidthCount: nat,
    mediaQueries: bool,
    cssFramework: bool)

  /** `_check_responsive_design`, without the media-query part. */
  function CheckResponsiveDesign(page: MobilePage): (r: (bool, nat, seq<string>))
    ensures r.0 <==> exists i :: 0 <= i < |page.images| && Flexible(page.images[i])
    ensures r.1 == Count(Take(page.containers, 50), FixedContainer) && r.1 <= 50
    ensures |r.2| == B2N(!r.0) + B2N(r.1 > 10)
  {
    var flexible := AnyFlexible(page.images);
    var fixed := Count(Take(page.containers, 50), FixedContainer);
    (flexible, fixed,
     (if !flexible then [RigidImagesWarning] else [])
     + (if fixed > 10 then [FoundPrefix + NatToString(fixed) + FixedContainersSuffix] else []))
  }

  const Frameworks: seq<string> := ["bootstrap", "foundation", "tailwind", "bulma"]

  predicate HasMediaRule(style: string) {
    Contains(style, "@media")
  }

  predicate NamesFramework(html: string) {
    Contains(Lower(html), "bootstrap") || Contains(Lower(html), "foundation")
    || Contains(Lower(html), "tailwind") || Contains(Lower(html), "bulma")
  }

  /** `_check_media_queries`: whether some `<style>` body holds `@media`,
      or else the page names a CSS framework; the second flag says the
      framework rule decided. */
  function CheckMediaQueries(page: MobilePage): (r: (bool, bool))
    ensures r.0 <==> (exists i :: 0 <= i < |page.inlineStyles| && HasMediaRule(page.inlineStyles[i])) || NamesFramework(page.html)
    ensures r.1 <==> (forall i :: 0 <= i < |page.inlineStyles| ==> !HasMediaRule(page.inlineStyles[i])) && NamesFramework(page.html)
  {
    var media := exists i :: 0 <= i < |page.inlineStyles| && HasMediaRule(page.inlineStyles[i]);
    if media then (true, false)
    else if NamesFramework(page.html) then (true, true)
    else (false, false)
  }

  // ------------------------------------------------------- touch targets

  /** A class list whose space-joined, lower-cased text names a small size. */
  predicate SmallClass(e: Clickable) {
    var c := Lower(Join(e.classes, " "));
    Contains(c, "xs") || Contains(c, "tiny") || Contains(c, "small")
  }

  predicate SmallStyle(e: Clickable) {
    SmallSize(e.style)
  }

  datatype TouchTargets = TouchTargets(totalChecked: nat, tooSmall: nat, tooClose: nat)

  /** `_check_touch_elements`: the counters, the warning and the advice. */
  function CheckTouchElements(clickables: seq<Clickable>): (r: (TouchTargets, seq<string>, seq<string>))
    ensures r.0.totalChecked == |Take(clickables, 100)| <= 100
    ensures r.0.tooSmall == Count(Take(clickables, 100), SmallClass) + Count(Take(clickables, 100), SmallStyle)
    ensures r.0.tooSmall <= 2 * r.0.totalChecked
    ensures r.0.tooClose == 0
    ensures r.0.tooSmall > 0 <==> r.1 != []
    ensures r.1 != [] ==>
      && r.1 == [FoundPrefix + NatToString(r.0.tooSmall) + SmallTargetsSuffix]
      && r.2 == [TouchTargetSizeAdvice]
    ensures r.1 == [] ==> r.2 == []
  {
    var checked := Take(clickables, 100);
    var small := Count(checked, SmallClass) + Count(checked, SmallStyle);
    if small > 0 then
      (TouchTargets(|checked|, small, 0),
       [FoundPrefix + NatToString(small) + SmallTargetsSuffix],
       [TouchTargetSizeAdvice])
    else (TouchTargets(|checked|, 0, 0), [], [])
  }

  // ---------------------------------------------------------- font sizes

  datatype Typography = Typography(smallTextFound: bool, fontIssues: seq<string>)

  /** `_check_font_sizes` */
  function CheckFontSizes(page: MobilePage): (r: (Typography, seq<string>, seq<string>))
    ensures var n := Count(Take(page.textElements, 100), SmallFont);
      && (r.0.smallTextFound <==> n > 5)
      && (n > 5 ==> r.1 == [FoundPrefix + NatToString(n) + SmallFontsSuffix]
                    && r.2 == [FontSizeAdvice])
      && (n <= 5 ==> r.1 == [] && r.2 == [])
    ensures |r.0.fontIssues| == B2N(page.handheldFriendly)
  {
    var n := Count(Take(page.textElements, 100), SmallFont);
    var fontIssues := if page.handheldFriendly then [HandheldFriendlyIssue] else [];
    if n > 5 then
      (Typography(true, fontIssues),
       [FoundPrefix + NatToString(n) + SmallFontsSuffix],
       [FontSizeAdvice])
    else (Typography(false, fontIssues), [], [])
  }

  // ----------------------------------------------------------- resources

  /** A source that already names a high-resolution variant. */
  predicate Retina(img: Image) {
    var s := Lower(img.src);
    Contains(s, "@2x") || Contains(s, "@3x") || Contains(s, "retina")
  }

  /** An image the lazy-loading rule stops at. */
  predicate EagerImage(img: Image) {
    !Retina(img) && !Present(img.loading)
  }

  /** The image loop: it skips retina sources and stops at the first image
      without a `loading` attribute. */
  function AnyEager(images: seq<Image>): (found: bool)
    ensures found <==> exists i :: 0 <= i < |images| && EagerImage(images[i])
  {
    if |images| == 0 then false
    else if EagerImage(images[0]) then true
    else
      var found := AnyEager(images[1..]);
      assert forall i :: 0 < i < |images| ==> images[i] == images[1..][i - 1];
      found
  }

  /** A script with neither a non-empty `async` nor a non-empty `defer`; a
      bare attribute holds `''`, which is false. */
  predicate Blocking(s: Script) {
    !Present(s.async) && !Present(s.defer)
  }

  datatype ResourceAnalysis = ResourceAnalysis(renderBlocking: nat, pwaReady: bool, iosOptimized: bool)

  /** `_check_mobile_resources` */
  function CheckMobileResources(page: MobilePage): (r: (ResourceAnalysis, seq<string>, seq<string>))
    ensures r.0.renderBlocking == Count(page.scripts, Blocking)
    ensures r.0.pwaReady == page.manifest && r.0.iosOptimized == page.appleCapable
    ensures |r.1| == B2N(exists i :: 0 <= i < |page.images| && EagerImage(page.images[i]))
                     + B2N(r.0.renderBlocking > 3)
    ensures r.2 == (if r.0.renderBlocking > 3 then [AsyncDeferAdvice] else [])
  {
    var n := Count(page.scripts, Blocking);
    var lazy := if AnyEager(page.images) then [LazyLoadingSuggestion] else [];
    if n > 3 then
      (ResourceAnalysis(n, page.manifest, page.appleCapable),
       lazy + [NatToString(n) + RenderBlockingSuffix],
       [AsyncDeferAdvice])
    else (ResourceAnalysis(n, page.manifest, page.appleCapable), lazy, [])
  }

  /** `_check_page_speed_mobile`: the same five hints for every page. */
  const OptimizationOpportunities: seq<string> := [
    "Minimize Critical Rendering Path for mobile",
    "Implement AMP (Accelerated Mobile Pages) if applicable",
    "Use responsive images with srcset",
    "Enable browser caching for mobile assets",
    "Compress images for mobile bandwidth"]

  // ------------------------------------------------------ score and advice

  /** `_calculate_score` */
  function CalculateScore(issues: nat, warnings: nat, viewportPresent: bool, mediaQueries: bool): (s: int)
    ensures 0 <= s <= 100
    ensures var raw := 100 - 15 * issues - 5 * warnings + 5 * B2N(viewportPresent) + 5 * B2N(mediaQueries);
      && (0 <= raw <= 100 ==> s == raw)
      && (raw > 100 ==> s == 100)
      && (raw < 0 ==> s == 0)
  {
    Clamp(100 - 15 * issues - 5 * warnings + 5 * B2N(viewportPresent) + 5 * B2N(mediaQueries), 0, 100)
  }

  /** More issues or warnings never raise the score. */
  lemma ScoreMonotone(i1: nat, w1: nat, i2: nat, w2: nat, present: bool, media: bool)
    requires i1 <= i2 && w1 <= w2
    ensures CalculateScore(i2, w2, present, media) <= CalculateScore(i1, w1, present, media)
  {
  }

  /** A page without issues or warnings scores 100 with or without the
      bonuses, and one issue alone keeps it at 95 or below even with both
      bonuses. */
  lemma ScoreWithoutProblems(present: bool, media: bool)
    ensures CalculateScore(0, 0, present, media) == 100
    ensures CalculateScore(1, 0, present, media) <= 95
  {
  }

  const ViewportAdvice := "Add viewport meta tag: <meta name=\"viewport\" content=\"width=device-width, initial-scale=1\">"
  const MediaQueryAdvice := "Implement responsive design with CSS media queries"
  const TouchTargetAdvice := "Increase touch target sizes to at least 48x48 CSS pixels"
  const ScriptDeliveryAdvice := "Optimize JavaScript delivery for faster mobile loading"
  const GenericTips: seq<string> := [
    "Consider implementing Progressive Web App (PWA) features",
    "Test with real devices across different screen sizes",
    "Monitor Core Web Vitals specifically for mobile users"]

  /** `_generate_recommendations`: `prior` holds the advice the checks
      already added. */
  function GenerateRecommendations(prior: seq<string>, viewportPresent: bool, mediaQueries: bool,
                                   tooSmall: nat, renderBlocking: nat, issues: nat, warnings: nat): (r: seq<string>)
    ensures !viewportPresent ==> |r| > 0 && r[0] == ViewportAdvice && prior <= r[1..]
    ensures viewportPresent ==> prior <= r
    ensures |r| == |prior| + B2N(!viewportPresent) + B2N(!mediaQueries) + B2N(tooSmall > 0)
                   + B2N(renderBlocking > 0) + 3 * B2N(issues == 0 && warnings < 3)
    ensures !mediaQueries ==> MediaQueryAdvice in r
    ensures tooSmall > 0 ==> TouchTargetAdvice in r
    ensures renderBlocking > 0 ==> ScriptDeliveryAdvice in r
  {
    var follow := FollowUpAdvice(mediaQueries, tooSmall, renderBlocking);
    var tips := if issues == 0 && warnings < 3 then GenericTips else [];
    var head := if viewportPresent then [] else [ViewportAdvice];
    AssembleKeeps(head, prior, follow, tips, MediaQueryAdvice);
    AssembleKeeps(head, prior, follow, tips, TouchTargetAdvice);
    AssembleKeeps(head, prior, follow, tips, ScriptDeliveryAdvice);
    Assemble(head, prior, follow, tips)
  }

  /** A page with no issues and fewer than three warnings ends its advice
      with the three generic tips. */
  lemma CleanPageEndsWithTips(prior: seq<string>, viewportPresent: bool, mediaQueries: bool,
                              tooSmall: nat, renderBlocking: nat, issues: nat, warnings: nat)
    requires issues == 0 && warnings < 3
    ensures var r := GenerateRecommendations(prior, viewportPresent, mediaQueries, tooSmall, renderBlocking, issues, warnings);
      |r| >= |GenericTips| && r[|r| - |GenericTips|..] == GenericTips
  {
  }

  /** The advice added for missing media queries, small touch targets and
      render-blocking scripts, in that order. */
  function FollowUpAdvice(mediaQueries: bool, tooSmall: nat, renderBlocking: nat): (r: seq<string>)
    ensures |r| == B2N(!mediaQueries) + B2N(tooSmall > 0) + B2N(renderBlocking > 0)
    ensures MediaQueryAdvice in r <==> !mediaQueries
    ensures TouchTargetAdvice in r <==> tooSmall > 0
    ensures ScriptDeliveryAdvice in r <==> renderBlocking > 0
    ensures !mediaQueries ==> r[0] == MediaQueryAdvice
    ensures renderBlocking > 0 ==> r[|r| - 1] == ScriptDeliveryAdvice
  {
    FollowUpLinesDiffer();
    (if !mediaQueries then [MediaQueryAdvice] else [])
    + (if tooSmall > 0 then [TouchTargetAdvice] else [])
    + (if renderBlocking > 0 then [ScriptDeliveryAdvice] else [])
  }

  /** The three follow-up lines are different texts. */
  lemma FollowUpLinesDiffer()
    ensures MediaQueryAdvice != TouchTargetAdvice
    ensures MediaQueryAdvice != ScriptDeliveryAdvice
    ensures TouchTargetAdvice != ScriptDeliveryAdvice
  {
    assert |MediaQueryAdvice| == 50 && |TouchTargetAdvice| == 56 && |ScriptDeliveryAdvice| == 54;
  }

  // ---------------------------------------------------------- the check

  datatype CheckStatus = Completed | Errored

  /** `results` of `check_mobile_friendliness`; the sections the checks
      never reached are absent. */
  datatype MobileResult = MobileResult(
    url: string,
    status: CheckStatus,
    mobileFriendly: bool,
    issues: seq<string>,
    warnings: seq<string>,
    recommendations: seq<string>,
    viewport: ViewportAnalysis,
    responsive: Option<ResponsiveChecks>,
    touchTargets: Option<TouchTargets>,
    typography: Option<Typography>,
    resources: Option<ResourceAnalysis>,
    optimizationOpportunities: seq<string>,
    score: Option<int>)

  /** The checks run on a fetched page, in the source's order. */
  function RunChecks(url: string, page: MobilePage, parseFloat: FloatParser): (r: MobileResult)
    ensures var v := CheckViewport(page.viewport, parseFloat);
      && (v.raised.Some? ==> r.status == Errored && r.mobileFriendly
                             && r.issues == v.issues + [AnalysisFailedPrefix + v.raised.value]
                             && r.warnings == v.warnings && r.recommendations == [] && r.score.None?)
      && (v.raised.None? ==> r == CompletedChecks(url, page, v))
    ensures r.viewport == CheckViewport(page.viewport, parseFloat).analysis
  {
    var v := CheckViewport(page.viewport, parseFloat);
    if v.raised.Some? then
      MobileResult(url, Errored, true, v.issues + [AnalysisFailedPrefix + v.raised.value], v.warnings, [],
                   v.analysis, None, None, None, None, [], None)
    else CompletedChecks(url, page, v)
  }

  /** The warning and advice counts of the later checks, read off their
      own contracts. */
  lemma LaterCounts(page: MobilePage)
    ensures var resp := CheckResponsiveDesign(page);
      var touch := CheckTouchElements(page.clickables);
      var font := CheckFontSizes(page);
      var res := CheckMobileResources(page);
      && |resp.2 + touch.1 + font.1 + res.1| ==
           B2N(!resp.0) + B2N(resp.1 > 10) + B2N(touch.0.tooSmall > 0) + B2N(font.0.smallTextFound)
           + B2N(exists i :: 0 <= i < |page.images| && EagerImage(page.images[i])) + B2N(res.0.renderBlocking > 3)
      && touch.2 + font.2 + res.2 ==
           (if touch.0.tooSmall > 0 then [TouchTargetSizeAdvice] else [])
           + (if font.0.smallTextFound then [FontSizeAdvice] else [])
           + (if res.0.renderBlocking > 3 then [AsyncDeferAdvice] else [])
  {
    var touch := CheckTouchElements(page.clickables);
    var font := CheckFontSizes(page);
    assert |touch.1| == B2N(touch.0.tooSmall > 0);
    assert |font.1| == B2N(font.0.smallTextFound);
    assert touch.2 == (if touch.0.tooSmall > 0 then [TouchTargetSizeAdvice] else []);
    assert font.2 == (if font.0.smallTextFound then [FontSizeAdvice] else []);
  }

  /** What the checks after the viewport check find. */
  datatype LaterFindings = LaterFindings(
    responsive: ResponsiveChecks, touch: TouchTargets, typography: Typography, resources: ResourceAnalysis,
    warnings: seq<string>, advice: seq<string>)

  /** The responsive, touch, font and resource checks, in that order: each
      adds at most one warning per condition it finds, and the touch, font
      and resource checks at most one piece of advice each. */
  function LaterChecks(page: MobilePage): (l: LaterFindings)
    ensures l.responsive.mediaQueries == CheckMediaQueries(page).0
    ensures l.touch == CheckTouchElements(page.clickables).0
    ensures l.resources == CheckMobileResources(page).0
    ensures |l.warnings| ==
      B2N(!l.responsive.flexibleImages) + B2N(l.responsive.fixedWidthCount > 10) + B2N(l.touch.tooSmall > 0)
      + B2N(l.typography.smallTextFound)
      + B2N(exists i :: 0 <= i < |page.images| && EagerImage(page.images[i])) + B2N(l.resources.renderBlocking > 3)
    ensures l.advice ==
      (if l.touch.tooSmall > 0 then [TouchTargetSizeAdvice] else [])
      + (if l.typography.smallTextFound then [FontSizeAdvice] else [])
      + (if l.resources.renderBlocking > 3 then [AsyncDeferAdvice] else [])
  {
    var resp := CheckResponsiveDesign(page);
    var touch := CheckTouchElements(page.clickables);
    var font := CheckFontSizes(page);
    var media := CheckMediaQueries(page);
    var res := CheckMobileResources(page);
    LaterCounts(page);
    LaterFindings(ResponsiveChecks(resp.0, resp.1, media.0, media.1), touch.0, font.0, res.0,
                  resp.2 + touch.1 + font.1 + res.1, touch.2 + font.2 + res.2)
  }

  /** The checks after a viewport check that did not raise. */
  function CompletedChecks(url: string, page: MobilePage, v: ViewportOutcome): (r: MobileResult)
    ensures r.status == Completed && r.issues == v.issues && r.viewport == v.analysis
    ensures v.warnings <= r.warnings
    ensures r.mobileFriendly <==> r.issues == []
    ensures r.responsive.Some? && r.touchTargets.Some? && r.resources.Some?
    ensures r.score == Some(CalculateScore(|r.issues|, |r.warnings|, v.analysis.present, r.responsive.value.mediaQueries))
    ensures r.touchTargets == Some(CheckTouchElements(page.clickables).0)
    ensures r.resources == Some(CheckMobileResources(page).0)
    ensures !v.analysis.present ==> |r.recommendations| > 0 && r.recommendations[0] == ViewportAdvice
    ensures r.typography.Some?
    ensures var l := LaterChecks(page);
      && r.responsive == Some(l.responsive) && r.typography == Some(l.typography)
      && r.warnings == v.warnings + l.warnings
      && r.recommendations == GenerateRecommendations(l.advice, v.analysis.present, l.responsive.mediaQueries,
                                                      l.touch.tooSmall, l.resources.renderBlocking,
                                                      |r.issues|, |r.warnings|)
  {
    var l := LaterChecks(page);
    var warnings := v.warnings + l.warnings;
    assert warnings[..|v.warnings|] == v.warnings;
    var score := CalculateScore(|v.issues|, |warnings|, v.analysis.present, l.responsive.mediaQueries);
    var advice := GenerateRecommendations(l.advice, v.analysis.present, l.responsive.mediaQueries,
                                          l.touch.tooSmall, l.resources.renderBlocking, |v.issues|, |warnings|);
    MobileResult(url, Completed, v.issues == [], v.issues, warnings, advice, v.analysis,
                 Some(l.responsive), Some(l.touch), Some(l.typography),
                 Some(l.resources), OptimizationOpportunities, Some(score))
  }

  /** `check_mobile_friendliness` as written: `mobile` is the page fetched
      with the mobile user agent and `desktopFailure` the error of the
      desktop fetch, if any. On both error paths `mobile_friendly` keeps its
      initial `True`. */
  function CheckMobileFriendlinessAsWritten(url: string, mobile: Fetch<MobilePage>, desktopFailure: Option<string>,
                                            parseFloat: FloatParser): (r: MobileResult)
    ensures r.url == url
    ensures mobile.FetchFailed? ==>
      r.status == Errored && r.mobileFriendly && r.issues == [FetchFailedPrefix + mobile.reason] && r.score.None?
    ensures mobile.Fetched? && desktopFailure.Some? ==>
      r.status == Errored && r.mobileFriendly && r.issues == [FetchFailedPrefix + desktopFailure.value]
    ensures mobile.Fetched? && desktopFailure.None? ==> r == RunChecks(url, mobile.doc, parseFloat)
  {
    var failed := MobileResult(url, Errored, true, [], [], [], ViewportAnalysis(false, "", []),
                               None, None, None, None, [], None);
    match mobile
    case FetchFailed(reason) => failed.(issues := [FetchFailedPrefix + reason])
    case Fetched(page) =>
      match desktopFailure
      case Some(reason) => failed.(issues := [FetchFailedPrefix + reason])
      case None => RunChecks(url, page, parseFloat)
  }

  /** An unreachable URL comes out mobile friendly while its issues list
      names the failure. */
  lemma FetchFailureStaysFriendly(url: string, reason: string, parseFloat: FloatParser)
    ensures var r := CheckMobileFriendlinessAsWritten(url, FetchFailed(reason), None, parseFloat);
      r.mobileFriendly && r.issues != []
  {
  }

  /** `check_mobile_friendliness` with the verdict the assessment line
      states applied on every path: friendly exactly when there are no
      issues. */
  function CheckMobileFriendliness(url: string, mobile: Fetch<MobilePage>, desktopFailure: Option<string>,
                                   parseFloat: FloatParser): (r: MobileResult)
    ensures r.mobileFriendly <==> r.issues == []
    ensures r.status == Errored ==> !r.mobileFriendly
    ensures var w := CheckMobileFriendlinessAsWritten(url, mobile, desktopFailure, parseFloat);
      r == w.(mobileFriendly := r.mobileFriendly)
  {
    var w := CheckMobileFriendlinessAsWritten(url, mobile, desktopFailure, parseFloat);
    w.(mobileFriendly := w.issues == [])
  }

  /** Only the viewport check reports issues, so a completed check is
      mobile friendly exactly when the viewport is sound. */
  lemma FriendlyIffViewportSound(url: string, page: MobilePage, parseFloat: FloatParser)
    requires CheckViewport(page.viewport, parseFloat).raised.None?
    ensures var r := CheckMobileFriendliness(url, Fetched(page), None, parseFloat);
      r.mobileFriendly <==> CheckViewport(page.viewport, parseFloat).issues == []
  {
  }

  /** A page without a viewport tag is never mobile friendly, and its first
      recommendation is to add one. */
  lemma MissingViewportFirstAdvice(url: string, page: MobilePage, parseFloat: FloatParser)
    requires page.viewport.None?
    ensures var r := CheckMobileFriendliness(url, Fetched(page), None, parseFloat);
      !r.mobileFriendly && |r.recommendations| > 0 && r.recommendations[0] == ViewportAdvice
  {
    var v := CheckViewport(page.viewport, parseFloat);
    assert !v.analysis.present;
  }
}

=== FILE: pyjson.dfy ===
/** Decoded JSON values and the Python operators the validators apply to
    them without first checking their type. */
module PyJson {
  import opened Common
  import opened Text

  /** A value as `json.loads` returns it; objects are dictionaries keyed by
      their member names (a repeated name keeps its last value). */
  datatype Json =
    | JNull
    | JBool(b: bool)
    | JNum(n: real)
    | JStr(s: string)
    | JArr(items: seq<Json>)
    | JObj(fields: map<string, Json>)

  /** Python's `key in v` for a string key: key membership for a dictionary,
      element equality for a list, substring test for a string. `None` is the
      `TypeError` that numbers, booleans and `None` raise. */
  function In(key: string, v: Json): (r: Option<bool>)
    ensures r.None? <==> (v.JNull? || v.JBool? || v.JNum?)
    ensures v.JObj? ==> r == Some(key in v.fields)
    ensures v.JArr? ==> r == Some(JStr(key) in v.items)
    ensures v.JStr? ==> r == Some(Contains(v.s, key))
  {
    match v
    case JObj(f) => Some(key in f)
    case JArr(items) => Some(JStr(key) in items)
    case JStr(s) => Some(Contains(s, key))
    case _ => None
  }

  /** Python truthiness of a decoded value. */
  predicate Truthy(v: Json) {
    match v
    case JNull => false
    case JBool(b) => b
    case JNum(n) => n != 0.0
    case JStr(s) => s != ""
    case JArr(items) => items != []
    case JObj(f) => f != map[]
  }

  /** `json.loads`: the decoded value, or the decoder's error message. */
  type Decoder = string -> Result<Json>

  /** A `<script type="application/ld+json">` element; `text` is its
      `.string`, absent when the element does not hold exactly one text node. */
  datatype LdScript = LdScript(text: Option<string>)

  /** `v if isinstance(v, list) else [v]` */
  function AsList(v: Json): (r: seq<Json>)
    ensures v.JArr? ==> r == v.items
    ensures !v.JArr? ==> r == [v]
  {
    if v.JArr? then v.items else [v]
  }
}

=== FILE: schema_validator.dfy ===
/** The structured-data validator: extraction of JSON-LD and microdata
    items from a page, per-type field rules, page-type detection,
    recommendations and the validation score. */
module SchemaValidator {
  import opened Common
  import opened Text
  import opened PyJson

  /** Texts standing for the exceptions that escape a validation step. */
  const TypeErrorText: string := "TypeError"
  const AttributeErrorText: string := "AttributeError"

  /** What validating one schema object produced. `typ` is its `@type`, or
      `"unknown"` when it has none. */
  datatype Validation = Validation(typ: string, errors: seq<string>, warnings: seq<string>)

  /** `w` keeps the type of `v` and only adds errors and warnings after
      those of `v`. */
  predicate Extends(w: Validation, v: Validation) {
    && w.typ == v.typ
    && |v.errors| <= |w.errors| && w.errors[..|v.errors|] == v.errors
    && |v.warnings| <= |w.warnings| && w.warnings[..|v.warnings|] == v.warnings
  }

  /** `v` with `errors` and `warnings` appended to its findings. */
  function AddFindings(v: Validation, errors: seq<string>, warnings: seq<string>): (r: Validation)
    ensures Extends(r, v)
    ensures |r.errors| == |v.errors| + |errors| && r.errors[|v.errors|..] == errors
    ensures |r.warnings| == |v.warnings| + |warnings| && r.warnings[..|v.warnings|] == v.warnings
    ensures r.warnings[|v.warnings|..] == warnings
  {
    AppendParts(v.errors, errors);
    AppendParts(v.warnings, warnings);
    Validation(v.typ, v.errors + errors, v.warnings + warnings)
  }

  // ------------------------------------------------------- field rules

  function FieldMessage(kind: string, level: string, name: string): string {
    kind + ": Missing " + level + " field '" + name + "'"
  }

  /** Different field names give different messages. */
  lemma FieldMessageInjective(kind: string, level: string, a: string, b: string)
    requires FieldMessage(kind, level, a) == FieldMessage(kind, level, b)
    ensures a == b
  {
    var p := kind + ": Missing " + level + " field '";
    assert FieldMessage(kind, level, a) == p + a + "'";
    assert FieldMessage(kind, level, b) == p + b + "'";
    assert a == (p + a + "'")[|p|..|p| + |a|];
    assert b == (p + b + "'")[|p|..|p| + |b|];
  }

  function AbsentFrom(fields: map<string, Json>): string -> bool {
    n => n !in fields
  }

  /** One message per name in `names` that is not a key of `fields`, in order. */
  function MissingFields(kind: string, level: string, names: seq<string>, fields: map<string, Json>): (r: seq<string>)
    ensures |r| == Count(names, AbsentFrom(fields))
  {
    if |names| == 0 then []
    else (if names[0] !in fields then [FieldMessage(kind, level, names[0])] else [])
         + MissingFields(kind, level, names[1..], fields)
  }

  /** A listed field is reported exactly when the object lacks it, and
      nothing else is reported. */
  lemma {:induction false} MissingFieldsIff(kind: string, level: string, names: seq<string>, fields: map<string, Json>)
    ensures forall n :: n in names ==>
      (FieldMessage(kind, level, n) in MissingFields(kind, level, names, fields) <==> n !in fields)
    ensures forall m :: m in MissingFields(kind, level, names, fields) ==>
      exists n :: n in names && n !in fields && m == FieldMessage(kind, level, n)
  {
    if |names| > 0 {
      MissingFieldsIff(kind, level, names[1..], fields);
      var r := MissingFields(kind, level, names, fields);
      var rest := MissingFields(kind, level, names[1..], fields);
      forall n | n in names
        ensures FieldMessage(kind, level, n) in r <==> n !in fields
      {
        if FieldMessage(kind, level, n) in r && n in fields {
          if names[0] !in fields && FieldMessage(kind, level, n) == FieldMessage(kind, level, names[0]) {
            FieldMessageInjective(kind, level, n, names[0]);
          }
          assert FieldMessage(kind, level, n) in rest;
          var n' :| n' in names[1..] && n' !in fields && FieldMessage(kind, level, n) == FieldMessage(kind, level, n');
          FieldMessageInjective(kind, level, n, n');
        }
        if n !in fields && n != names[0] {
          assert n in names[1..];
        }
      }
    }
  }

  /** For a field list without repeats, the number of messages is the number
      of distinct missing fields. */
  lemma MissingFieldsCard(kind: string, level: string, names: seq<string>, fields: map<string, Json>)
    requires Distinct(names)
    ensures |MissingFields(kind, level, names, fields)| == |set n | n in names && n !in fields|
  {
    var p := AbsentFrom(fields);
    CountDistinctIsCard(names, p);
    assert (set n | n in names && n !in fields) == Members(names, p);
  }

  // ------------------------------------------------------ organization

  const OrganizationRequired: seq<string> := ["name", "url"]
  const OrganizationRecommended: seq<string> := ["logo", "sameAs", "contactPoint"]

  predicate LogoWithoutType(fields: map<string, Json>) {
    "logo" in fields && fields["logo"].JObj? && "@type" !in fields["logo"].fields
  }

  const LogoWarning := "Organization: Logo should be an ImageObject with @type"
  const NoImageError := "Article: At least one image is required"

  /** No field is listed twice. */
  lemma OrganizationFieldsDistinct()
    ensures Distinct(OrganizationRequired) && Distinct(OrganizationRecommended)
  {
  }

  function ValidateOrganization(fields: map<string, Json>, v: Validation): (r: Validation)
    ensures Extends(r, v)
    ensures r.typ == v.typ
    ensures |r.errors| == |v.errors| + |set n | n in OrganizationRequired && n !in fields|
    ensures |r.warnings| == |v.warnings| + |set n | n in OrganizationRecommended && n !in fields| + B2N(LogoWithoutType(fields))
    ensures r.errors == v.errors + MissingFields("Organization", "required", OrganizationRequired, fields)
    ensures r.warnings == v.warnings + MissingFields("Organization", "recommended", OrganizationRecommended, fields)
                          + (if LogoWithoutType(fields) then [LogoWarning] else [])
  {
    OrganizationFieldsDistinct();
    MissingFieldsCard("Organization", "required", OrganizationRequired, fields);
    MissingFieldsCard("Organization", "recommended", OrganizationRecommended, fields);
    var logo := if LogoWithoutType(fields) then [LogoWarning] else [];
    var recommended := MissingFields("Organization", "recommended", OrganizationRecommended, fields);
    AppendAssoc(v.warnings, recommended, logo);
    AddFindings(v, MissingFields("Organization", "required", OrganizationRequired, fields), recommended + logo)
  }

  // ----------------------------------------------------------- product

  const ProductRequired: seq<string> := ["name", "image"]
  const ProductRecommended: seq<string> := ["description", "sku", "offers", "aggregateRating", "brand"]

  /** `for offer in offers` after a dictionary was wrapped in a list: a list
      yields its items, a string its one-character strings, and any other
      value raises. */
  function Iterate(v: Json): (r: Option<seq<Json>>)
    requires !v.JObj?
    ensures r.None? <==> (v.JNull? || v.JBool? || v.JNum?)
    ensures v.JArr? ==> r == Some(v.items)
    ensures v.JStr? ==> r.Some? && |r.value| == |v.s|
  {
    match v
    case JArr(items) => Some(items)
    case JStr(s) => Some(seq(|s|, i requires 0 <= i < |s| => JStr([s[i]])))
    case _ => None
  }

  /** An element of `offers` lacks the key `key` (`key not in offer`). */
  predicate Lacks(key: string, o: Json) {
    In(key, o) == Some(false)
  }

  predicate LacksPrice(o: Json) { Lacks("price", o) }
  predicate LacksCurrency(o: Json) { Lacks("priceCurrency", o) }
  predicate LacksPosition(o: Json) { Lacks("position", o) }
  predicate LacksName(o: Json) { Lacks("name", o) }
  predicate LacksAnswer(o: Json) { Lacks("acceptedAnswer", o) }

  /** A scalar element makes `in` raise. */
  predicate Scalar(o: Json) {
    In("price", o).None?
  }

  /** The two offer rules over each offer in turn; `None` once one raises. */
  function OfferErrors(offers: seq<Json>): (r: Option<seq<string>>)
    ensures r.None? <==> exists i :: 0 <= i < |offers| && Scalar(offers[i])
    ensures r.Some? ==> |r.value| == Count(offers, LacksPrice) + Count(offers, LacksCurrency)
  {
    if |offers| == 0 then Some([])
    else
      var o := offers[0];
      var rest := OfferErrors(offers[1..]);
      assert forall i :: 0 <= i < |offers[1..]| ==> offers[1..][i] == offers[i + 1];
      if In("price", o).None? || rest.None? then None
      else
        Some((if Lacks("price", o) then ["Product: Offer missing required 'price' field"] else [])
             + (if Lacks("priceCurrency", o) then ["Product: Offer missing required 'priceCurrency' field"] else [])
             + rest.value)
  }

  /** The offers of a product: `None` when iterating them raises. */
  function ProductOffers(fields: map<string, Json>): (r: Option<seq<string>>)
    ensures "offers" !in fields ==> r == Some([])
    ensures "offers" in fields && fields["offers"].JObj? ==>
      r == Some((if "price" !in fields["offers"].fields then ["Product: Offer missing required 'price' field"] else [])
                + (if "priceCurrency" !in fields["offers"].fields then ["Product: Offer missing required 'priceCurrency' field"] else []))
  {
    if "offers" !in fields then Some([])
    else
      var offers := fields["offers"];
      if offers.JObj? then
        assert [offers][1..] == [];
        assert OfferErrors([]) == Some([]);
        assert Lacks("price", offers) <==> "price" !in offers.fields;
        assert Lacks("priceCurrency", offers) <==> "priceCurrency" !in offers.fields;
        var a := if Lacks("price", offers) then ["Product: Offer missing required 'price' field"] else [];
        var b := if Lacks("priceCurrency", offers) then ["Product: Offer missing required 'priceCurrency' field"] else [];
        assert a + b + [] == a + b;
        OfferErrors([offers])
      else
        match Iterate(offers)
        case None => None
        case Some(items) => OfferErrors(items)
  }

  /** No recommended field is listed twice. */
  lemma ProductFieldsDistinct()
    ensures Distinct(ProductRecommended)
  {
  }

  function ValidateProduct(fields: map<string, Json>, v: Validation): (r: Option<Validation>)
    ensures r.Some? ==> Extends(r.value, v)
    ensures r.None? <==> ProductOffers(fields).None?
    ensures r.Some? ==>
      && r.value.typ == v.typ
      && r.value.errors == v.errors + MissingFields("Product", "required", ProductRequired, fields) + ProductOffers(fields).value
      && |r.value.warnings| == |v.warnings| + |set n | n in ProductRecommended && n !in fields|
      && r.value.warnings == v.warnings + MissingFields("Product", "recommended", ProductRecommended, fields)
  {
    ProductFieldsDistinct();
    MissingFieldsCard("Product", "recommended", ProductRecommended, fields);
    match ProductOffers(fields)
    case None => None
    case Some(offerErrors) =>
      var required := MissingFields("Product", "required", ProductRequired, fields);
      AppendAssoc(v.errors, required, offerErrors);
      Some(AddFindings(v, required + offerErrors, MissingFields("Product", "recommended", ProductRecommended, fields)))
  }

  // ----------------------------------------------------------- article

  const ArticleRequired: seq<string> := ["headline", "image", "author", "datePublished"]
  const ArticleRecommended: seq<string> := ["dateModified", "publisher", "mainEntityOfPage", "description"]

  /** No field is listed twice. */
  lemma ArticleFieldsDistinct()
    ensures Distinct(ArticleRequired) && Distinct(ArticleRecommended)
  {
  }

  function ValidateArticle(fields: map<string, Json>, v: Validation): (r: Validation)
    ensures Extends(r, v)
    ensures r.typ == v.typ
    ensures |r.errors| == |v.errors| + |set n | n in ArticleRequired && n !in fields|
                          + B2N("image" in fields && fields["image"] == JArr([]))
    ensures |r.warnings| == |v.warnings| + |set n | n in ArticleRecommended && n !in fields|
    ensures r.errors == v.errors + MissingFields("Article", "required", ArticleRequired, fields)
                        + (if "image" in fields && fields["image"] == JArr([]) then [NoImageError] else [])
    ensures r.warnings == v.warnings + MissingFields("Article", "recommended", ArticleRecommended, fields)
  {
    ArticleFieldsDistinct();
    MissingFieldsCard("Article", "required", ArticleRequired, fields);
    MissingFieldsCard("Article", "recommended", ArticleRecommended, fields);
    var noImage :=
      if "image" in fields && |AsList(fields["image"])| < 1 then [NoImageError] else [];
    var required := MissingFields("Article", "required", ArticleRequired, fields);
    AppendAssoc(v.errors, required, noImage);
    AddFindings(v, required + noImage,
                MissingFields("Article", "recommended", ArticleRecommended, fields))
  }

  // -------------------------------------------------------- breadcrumb

  /** Per-item rules of a breadcrumb list, numbering items from `start`. */
  function BreadcrumbItems(items: seq<Json>, start: nat): (r: Option<seq<string>>)
    ensures r.None? <==> exists i :: 0 <= i < |items| && Scalar(items[i])
    ensures r.Some? ==> |r.value| == Count(items, LacksPosition) + Count(items, LacksName)
  {
    if |items| == 0 then Some([])
    else
      var o := items[0];
      var rest := BreadcrumbItems(items[1..], start + 1);
      assert forall i :: 0 <= i < |items[1..]| ==> items[1..][i] == items[i + 1];
      if In("position", o).None? || rest.None? then None
      else
        var k := NatToString(start);
        Some((if Lacks("position", o) then ["BreadcrumbList: Item " + k + " missing 'position'"] else [])
             + (if Lacks("name", o) then ["BreadcrumbList: Item " + k + " missing 'name'"] else [])
             + rest.value)
  }

  function ValidateBreadcrumb(fields: map<string, Json>, v: Validation): (r: Option<Validation>)
    ensures r.Some? ==> Extends(r.value, v)
    ensures r.Some? ==> r.value.typ == v.typ && r.value.warnings == v.warnings
    ensures "itemListElement" !in fields ==>
      r == Some(v.(errors := v.errors + ["BreadcrumbList: Missing required 'itemListElement'"]))
    ensures "itemListElement" in fields && !fields["itemListElement"].JArr? ==>
      r == Some(v.(errors := v.errors + ["BreadcrumbList: itemListElement must be an array"]))
    ensures "itemListElement" in fields && fields["itemListElement"].JArr? ==>
      (r.None? <==> exists i :: 0 <= i < |fields["itemListElement"].items| && Scalar(fields["itemListElement"].items[i]))
    ensures "itemListElement" in fields && fields["itemListElement"].JArr? && r.Some? ==>
      r.value.errors == v.errors + BreadcrumbItems(fields["itemListElement"].items, 0).value
  {
    if "itemListElement" !in fields then
      Some(v.(errors := v.errors + ["BreadcrumbList: Missing required 'itemListElement'"]))
    else
      var items := fields["itemListElement"];
      if !items.JArr? then
        Some(v.(errors := v.errors + ["BreadcrumbList: itemListElement must be an array"]))
      else
        match BreadcrumbItems(items.items, 0)
        case None => None
        case Some(errs) => Some(v.(errors := v.errors + errs))
  }

  // --------------------------------------------------------------- FAQ

  /** Whether `question['@type'] != 'Question'` is reached and raises: the
      key test passed on a list or a string, which cannot be subscripted
      by a string. */
  predicate QuestionRaises(q: Json) {
    In("@type", q).None? || (In("@type", q) == Some(true) && !q.JObj?)
  }

  predicate NotAQuestion(q: Json) {
    In("@type", q) == Some(false) || (q.JObj? && "@type" in q.fields && q.fields["@type"] != JStr("Question"))
  }

  /** Per-question rules of an FAQ page, numbering questions from `start`. */
  function FaqQuestions(questions: seq<Json>, start: nat): (r: Option<seq<string>>)
    ensures r.None? <==> exists i :: 0 <= i < |questions| && QuestionRaises(questions[i])
    ensures r.Some? ==> |r.value| == Count(questions, NotAQuestion)
                                    + Count(questions, LacksName)
                                    + Count(questions, LacksAnswer)
  {
    if |questions| == 0 then Some([])
    else
      var q := questions[0];
      var rest := FaqQuestions(questions[1..], start + 1);
      assert forall i :: 0 <= i < |questions[1..]| ==> questions[1..][i] == questions[i + 1];
      if QuestionRaises(q) || rest.None? then None
      else
        var k := NatToString(start);
        Some((if NotAQuestion(q) then ["FAQPage: Item " + k + " should be of type 'Question'"] else [])
             + (if Lacks("name", q) then ["FAQPage: Question " + k + " missing 'name'"] else [])
             + (if Lacks("acceptedAnswer", q) then ["FAQPage: Question " + k + " missing 'acceptedAnswer'"] else [])
             + rest.value)
  }

  function ValidateFaq(fields: map<string, Json>, v: Validation): (r: Option<Validation>)
    ensures r.Some? ==> Extends(r.value, v)
    ensures r.Some? ==> r.value.typ == v.typ && r.value.warnings == v.warnings
    ensures "mainEntity" !in fields ==>
      r == Some(v.(errors := v.errors + ["FAQPage: Missing required 'mainEntity' property"]))
    ensures "mainEntity" in fields ==>
      (r.None? <==> exists i :: 0 <= i < |AsList(fields["mainEntity"])| && QuestionRaises(AsList(fields["mainEntity"])[i]))
    ensures "mainEntity" in fields && r.Some? ==>
      r.value.errors == v.errors + FaqQuestions(AsList(fields["mainEntity"]), 0).value
  {
    if "mainEntity" !in fields then
      Some(v.(errors := v.errors + ["FAQPage: Missing required 'mainEntity' property"]))
    else
      match FaqQuestions(AsList(fields["mainEntity"]), 0)
      case None => None
      case Some(errs) => Some(v.(errors := v.errors + errs))
  }

  // ------------------------------------------------------------ recipe

  const RecipeRequired: seq<string> := ["name", "image", "recipeIngredient", "recipeInstructions"]
  const RecipeRecommended: seq<string> :=
    ["prepTime", "cookTime", "totalTime", "recipeYield", "nutrition", "aggregateRating", "author"]

  /** No field is listed twice. */
  lemma RecipeFieldsDistinct()
    ensures Distinct(RecipeRequired) && Distinct(RecipeRecommended)
  {
  }

  function ValidateRecipe(fields: map<string, Json>, v: Validation): (r: Validation)
    ensures Extends(r, v)
    ensures r.typ == v.typ
    ensures |r.errors| == |v.errors| + |set n | n in RecipeRequired && n !in fields|
    ensures |r.warnings| == |v.warnings| + |set n | n in RecipeRecommended && n !in fields|
    ensures r.errors == v.errors + MissingFields("Recipe", "required", RecipeRequired, fields)
    ensures r.warnings == v.warnings + MissingFields("Recipe", "recommended", RecipeRecommended, fields)
  {
    RecipeFieldsDistinct();
    MissingFieldsCard("Recipe", "required", RecipeRequired, fields);
    MissingFieldsCard("Recipe", "recommended", RecipeRecommended, fields);
    AddFindings(v, MissingFields("Recipe", "required", RecipeRequired, fields),
                MissingFields("Recipe", "recommended", RecipeRecommended, fields))
  }

  // ---------------------------------------------------------- dispatch

  /** The lower-cased type names that select the organization rules, as
      written: the second entry holds an upper-case letter, so no lower-cased
      type ever equals it. */
  const OrganizationTypesAsWritten: seq<string> := ["organization", "localBusiness"]

  /** The same list with the local-business entry lower-cased. */
  const OrganizationTypes: seq<string> := ["organization", "localbusiness"]

  const SchemaPrefix := "Schema "
  const MissingTypeSuffix := ": Missing @type property"
  const MissingContextSuffix := ": Missing @context. Should reference schema.org"

  /** The generic rules every object gets: a missing `@type` is an error, a
      missing `@context` a warning unless the object came from microdata. */
  function GenericRules(fields: map<string, Json>, index: nat): (v: Validation)
    ensures |v.errors| == B2N("@type" !in fields)
    ensures |v.warnings| == B2N("_format" !in fields && "@context" !in fields)
  {
    var k := NatToString(index);
    Validation(
      if "@type" in fields && fields["@type"].JStr? then fields["@type"].s else "unknown",
      if "@type" in fields then [] else [SchemaPrefix + k + MissingTypeSuffix],
      if "_format" !in fields && "@context" !in fields then [SchemaPrefix + k + MissingContextSuffix] else [])
  }

  /** Whether validating `schema` gets as far as the type-specific rules:
      it must be an object whose `@type`, if any, is a string. */
  predicate Dispatchable(schema: Json) {
    schema.JObj? && ("@type" in schema.fields ==> schema.fields["@type"].JStr?)
  }

  function LowerType(fields: map<string, Json>): string {
    if "@type" in fields && fields["@type"].JStr? then Lower(fields["@type"].s) else ""
  }

  /** A rule set that may raise: `None` is the `TypeError` it lets escape. */
  function Raising(o: Option<Validation>): (r: Result<Validation>)
    ensures r.Success? <==> o.Some?
    ensures o.Some? ==> r.value == o.value
  {
    match o
    case None => Failure(TypeErrorText)
    case Some(v) => Success(v)
  }

  /** `_validate_schema`, with the organization type list as a parameter;
      `ValidateWithDispatch` states which rules run. */
  function ValidateWith(orgTypes: seq<string>, schema: Json, index: nat): (r: Result<Validation>)
    ensures !Dispatchable(schema) ==> r.Failure?
    ensures r.Success? ==> Dispatchable(schema)
    ensures r.Success? && "@type" in schema.fields ==> r.value.typ == schema.fields["@type"].s
    ensures r.Success? && "@type" !in schema.fields ==> r.value.typ == "unknown"
    ensures r.Success? ==> ("@type" !in schema.fields ==> SchemaPrefix + NatToString(index) + MissingTypeSuffix in r.value.errors)
  {
    match In("@type", schema)
    case None => Failure(TypeErrorText)
    case Some(hasType) =>
      if hasType && !schema.JObj? then Failure(TypeErrorText)
      else if !schema.JObj? then Failure(AttributeErrorText)
      else if "@type" in schema.fields && !schema.fields["@type"].JStr? then Failure(AttributeErrorText)
      else
        var f := schema.fields;
        var v := GenericRules(f, index);
        match TypeRules(orgTypes, LowerType(f), f, v)
        case None => Failure(TypeErrorText)
        case Some(w) => Success(w)
  }

  /** Which rules a dispatchable schema gets: the generic rules, then the
      rule set its lower-cased `@type` selects; the product, breadcrumb and
      FAQ rules raise on a malformed list and the whole validation with
      them. */
  lemma ValidateWithDispatch(orgTypes: seq<string>, schema: Json, index: nat)
    requires Dispatchable(schema)
    ensures var r := ValidateWith(orgTypes, schema, index);
      var f := schema.fields;
      var g := GenericRules(f, index);
      match RulesFor(orgTypes, LowerType(f))
      case OrganizationRules => r == Success(ValidateOrganization(f, g))
      case ProductRules => r == Raising(ValidateProduct(f, g))
      case ArticleRules => r == Success(ValidateArticle(f, g))
      case BreadcrumbRules => r == Raising(ValidateBreadcrumb(f, g))
      case FaqRules => r == Raising(ValidateFaq(f, g))
      case RecipeRules => r == Success(ValidateRecipe(f, g))
      case GenericOnly => r == Success(g)
  {
  }

  /** The rule sets the dispatch can select. */
  datatype RuleSet = OrganizationRules | ProductRules | ArticleRules | BreadcrumbRules
                   | FaqRules | RecipeRules | GenericOnly

  const ProductName := "product"
  const ArticleNames: seq<string> := ["article", "newsarticle", "blogposting"]
  const BreadcrumbName := "breadcrumblist"
  const FaqName := "faqpage"
  const RecipeName := "recipe"

  /** The dispatch names differ from one another. */
  lemma RuleNamesDiffer()
    ensures ProductName !in ArticleNames
    ensures BreadcrumbName != ProductName && BreadcrumbName !in ArticleNames
    ensures FaqName != ProductName && FaqName !in ArticleNames && FaqName != BreadcrumbName
    ensures RecipeName != ProductName && RecipeName !in ArticleNames && RecipeName != BreadcrumbName
    ensures RecipeName != FaqName
  {
    assert ProductName[0] == 'p' && FaqName[0] == 'f' && RecipeName[0] == 'r' && BreadcrumbName[0] == 'b';
    assert |ProductName| == 7 && |FaqName| == 7 && |RecipeName| == 6 && |BreadcrumbName| == 14;
    assert ArticleNames[0][0] == 'a' && ArticleNames[1][0] == 'n' && |ArticleNames[2]| == 11;
    assert BreadcrumbName[1] == 'r' && ArticleNames[2][1] == 'l';
  }

  /** The rule set the lower-cased type `t` selects: the organization rules
      for a name in `orgTypes`, and otherwise the first matching name, in
      the order of the dispatch. */
  function RulesFor(orgTypes: seq<string>, t: string): (k: RuleSet)
    ensures k == OrganizationRules <==> t in orgTypes
    ensures k == ProductRules <==> t !in orgTypes && t == ProductName
    ensures k == ArticleRules <==> t !in orgTypes && t in ArticleNames
    ensures k == BreadcrumbRules <==> t !in orgTypes && t == BreadcrumbName
    ensures k == FaqRules <==> t !in orgTypes && t == FaqName
    ensures k == RecipeRules <==> t !in orgTypes && t == RecipeName
  {
    RuleNamesDiffer();
    if t in orgTypes then OrganizationRules
    else if t == ProductName then ProductRules
    else if t in ArticleNames then ArticleRules
    else if t == BreadcrumbName then BreadcrumbRules
    else if t == FaqName then FaqRules
    else if t == RecipeName then RecipeRules
    else GenericOnly
  }

  /** The type-specific rules selected by the lower-cased type `t`; they
      keep the type and only add to the findings so far. */
  function TypeRules(orgTypes: seq<string>, t: string, f: map<string, Json>, v: Validation): (r: Option<Validation>)
    ensures r.Some? ==> Extends(r.value, v)
  {
    match RulesFor(orgTypes, t)
    case OrganizationRules => Some(ValidateOrganization(f, v))
    case ProductRules => ValidateProduct(f, v)
    case ArticleRules => Some(ValidateArticle(f, v))
    case BreadcrumbRules => ValidateBreadcrumb(f, v)
    case FaqRules => ValidateFaq(f, v)
    case RecipeRules => Some(ValidateRecipe(f, v))
    case GenericOnly => Some(v)
  }

  function ValidateSchemaAsWritten(schema: Json, index: nat): Result<Validation> {
    ValidateWith(OrganizationTypesAsWritten, schema, index)
  }

  /** The validator the rest of the model uses: local businesses get the
      organization rules. */
  function ValidateSchema(schema: Json, index: nat): Result<Validation> {
    ValidateWith(OrganizationTypes, schema, index)
  }

  /** As written, a `LocalBusiness` object without any organization field
      passes with no error at all: the organization rules never run. */
  lemma LocalBusinessSkipsOrganizationRules()
    ensures var schema := JObj(map["@type" := JStr("LocalBusiness"), "@context" := JStr("https://schema.org")]);
      ValidateSchemaAsWritten(schema, 0) == Success(Validation("LocalBusiness", [], []))
  {
    var f := map["@type" := JStr("LocalBusiness"), "@context" := JStr("https://schema.org")];
    var t := LowerType(f);
    // No type name the dispatch knows starts with an `l`, except the
    // mixed-case entry that a lower-cased name can never equal.
    assert |t| == 13 && t[0] == 'l';
    LowerDiffersFromMixedCase(f["@type"].s, "localBusiness", 5);
    assert t !in OrganizationTypesAsWritten;
    assert RulesFor(OrganizationTypesAsWritten, t) == GenericOnly;
    var v := GenericRules(f, 0);
    assert v == Validation("LocalBusiness", [], []);
    ValidateWithDispatch(OrganizationTypesAsWritten, JObj(f), 0);
  }

  /** With the corrected list, a local business without `name` and `url`
      gets both required-field errors. */
  lemma LocalBusinessGetsOrganizationRules(fields: map<string, Json>)
    requires "@type" in fields && fields["@type"].JStr? && Lower(fields["@type"].s) == "localbusiness"
    requires "name" !in fields && "url" !in fields
    ensures ValidateSchema(JObj(fields), 0).Success?
    ensures FieldMessage("Organization", "required", "name") in ValidateSchema(JObj(fields), 0).value.errors
    ensures FieldMessage("Organization", "required", "url") in ValidateSchema(JObj(fields), 0).value.errors
  {
    var v := GenericRules(fields, 0);
    assert LowerType(fields) in OrganizationTypes;
    var w := ValidateOrganization(fields, v);
    assert ValidateSchema(JObj(fields), 0) == Success(w);
    var missing := MissingFields("Organization", "required", OrganizationRequired, fields);
    assert w.errors[|v.errors|..] == missing;
    MissingFieldsIff("Organization", "required", OrganizationRequired, fields);
    assert "name" in OrganizationRequired && "url" in OrganizationRequired;
    assert FieldMessage("Organization", "required", "name") in w.errors[|v.errors|..];
    assert FieldMessage("Organization", "required", "url") in w.errors[|v.errors|..];
  }

  /** An object of a type without specific rules gets only the generic ones. */
  lemma UnknownTypeGenericOnly(fields: map<string, Json>, index: nat)
    requires Dispatchable(JObj(fields))
    requires LowerType(fields) !in OrganizationTypes + ["product", "article", "newsarticle", "blogposting",
                                                         "breadcrumblist", "faqpage", "recipe"]
    ensures ValidateSchema(JObj(fields), index) == Success(GenericRules(fields, index))
  {
    assert RulesFor(OrganizationTypes, LowerType(fields)) == GenericOnly;
    ValidateWithDispatch(OrganizationTypes, JObj(fields), index);
  }

  // ---------------------------------------------------------- microdata

  /** An element carrying `itemprop`, with the attributes its value comes from. */
  datatype Prop = Prop(name: Option<string>, content: Option<string>, href: Option<string>,
                       src: Option<string>, text: string)

  /** An element carrying `itemscope`, with every `itemprop` element under it. */
  datatype MicroItem = MicroItem(itemtype: Option<string>, props: seq<Prop>)

  predicate Typed(m: MicroItem) {
    Present(m.itemtype)
  }

  /** `content or href or src or text.strip()` */
  function PropValue(p: Prop): string {
    if Present(p.content) then p.content.value
    else if Present(p.href) then p.href.value
    else if Present(p.src) then p.src.value
    else Strip(p.text)
  }

  /** Whether `p` writes the key `k`. */
  predicate Sets(p: Prop, k: string) {
    Present(p.name) && p.name.value == k && PropValue(p) != ""
  }

  /** The properties applied in order; a later property overwrites an
      earlier one of the same name. */
  function ApplyProps(m: map<string, Json>, props: seq<Prop>): (r: map<string, Json>)
    ensures m.Keys <= r.Keys
  {
    if |props| == 0 then m
    else
      var r := ApplyProps(m, props[..|props| - 1]);
      var p := props[|props| - 1];
      if Present(p.name) && PropValue(p) != "" then r[p.name.value := JStr(PropValue(p))] else r
  }

  /** The key `k` is present after the properties exactly when it was
      before or some property writes it. */
  lemma {:induction false} ApplyPropsKeys(m: map<string, Json>, props: seq<Prop>, k: string)
    ensures k in ApplyProps(m, props) <==> k in m || exists i :: 0 <= i < |props| && Sets(props[i], k)
  {
    if |props| > 0 {
      var init := props[..|props| - 1];
      ApplyPropsKeys(m, init, k);
      assert forall i :: 0 <= i < |init| ==> init[i] == props[i];
    }
  }

  /** The last property that writes `k` decides its value. */
  lemma {:induction false} ApplyPropsLastWriter(m: map<string, Json>, props: seq<Prop>, k: string, i: nat)
    requires i < |props| && Sets(props[i], k)
    requires forall j :: i < j < |props| ==> !Sets(props[j], k)
    ensures k in ApplyProps(m, props) && ApplyProps(m, props)[k] == JStr(PropValue(props[i]))
  {
    if i < |props| - 1 {
      var init := props[..|props| - 1];
      assert init[i] == props[i];
      assert forall j :: i < j < |init| ==> init[j] == props[j];
      ApplyPropsLastWriter(m, init, k, i);
    }
  }

  /** A key no property writes keeps its original value. */
  lemma {:induction false} ApplyPropsUntouched(m: map<string, Json>, props: seq<Prop>, k: string)
    ensures k in m && (forall i :: 0 <= i < |props| ==> !Sets(props[i], k)) ==>
      k in ApplyProps(m, props) && ApplyProps(m, props)[k] == m[k]
  {
    if |props| > 0 {
      var init := props[..|props| - 1];
      assert forall i :: 0 <= i < |init| ==> init[i] == props[i];
      ApplyPropsUntouched(m, init, k);
    }
  }

  /** `_parse_microdata`: absent when the item has no (or an empty)
      `itemtype`. */
  function ParseMicrodata(item: MicroItem): (r: Option<Json>)
    ensures r.None? <==> !Present(item.itemtype)
    ensures r.Some? ==> r.value.JObj? && "@type" in r.value.fields && "_format" in r.value.fields
    ensures r.Some? && (forall i :: 0 <= i < |item.props| ==> !Sets(item.props[i], "@type")) ==>
      r.value.fields["@type"] == JStr(LastSegment(item.itemtype.value, '/'))
  {
    if !Present(item.itemtype) then None
    else
      var base := map["@type" := JStr(LastSegment(item.itemtype.value, '/')), "_format" := JStr("microdata")];
      ApplyPropsUntouched(base, item.props, "@type");
      Some(JObj(ApplyProps(base, item.props)))
  }

  // --------------------------------------------------------- extraction

  /** The page as the validator reads it: its JSON-LD blocks and its
      microdata items, in document order. */
  datatype SchemaPage = SchemaPage(ldScripts: seq<LdScript>, microdata: seq<MicroItem>)

  /** What one JSON-LD block contributes: nothing when it is blank or does
      not decode, the items of a decoded list, or the decoded value. */
  function BlockData(text: string, decode: Decoder): (r: seq<Json>)
    ensures Strip(text) == "" || decode(Strip(text)).Failure? ==> r == []
    ensures Strip(text) != "" && decode(Strip(text)).Success? ==> r == AsList(decode(Strip(text)).value)
  {
    var s := Strip(text);
    if s == "" then []
    else match decode(s)
      case Failure(_) => []
      case Success(d) => AsList(d)
  }

  /** The JSON-LD part of `_extract_structured_data`; a block without a
      single text node makes `.strip()` raise. */
  function LdData(scripts: seq<LdScript>, decode: Decoder): (r: Result<seq<Json>>)
    ensures r.Failure? <==> exists i :: 0 <= i < |scripts| && scripts[i].text.None?
  {
    if |scripts| == 0 then Success([])
    else
      var init := scripts[..|scripts| - 1];
      var s := scripts[|scripts| - 1];
      var prev := LdData(init, decode);
      assert forall i :: 0 <= i < |init| ==> init[i] == scripts[i];
      if prev.Failure? || s.text.None? then Failure(AttributeErrorText)
      else Success(prev.value + BlockData(s.text.value, decode))
  }

  /** What one script contributes once it has its text. */
  function ScriptData(script: LdScript, decode: Decoder): seq<Json> {
    if script.text.Some? then BlockData(script.text.value, decode) else []
  }

  /** What each script contributes, one entry per script. */
  function ScriptParts(scripts: seq<LdScript>, decode: Decoder): (r: seq<seq<Json>>)
    ensures |r| == |scripts|
    ensures forall i :: 0 <= i < |r| ==> r[i] == ScriptData(scripts[i], decode)
  {
    seq(|scripts|, i requires 0 <= i < |scripts| => ScriptData(scripts[i], decode))
  }

  /** When no block raises, the JSON-LD data is what each block
      contributes, joined in document order. */
  lemma {:induction false} LdDataConcat(scripts: seq<LdScript>, decode: Decoder)
    requires LdData(scripts, decode).Success?
    ensures LdData(scripts, decode).value == Flatten(ScriptParts(scripts, decode))
  {
    if |scripts| > 0 {
      var n := |scripts| - 1;
      LdDataLast(scripts, decode);
      LdDataConcat(scripts[..n], decode);
      PartsSnoc(scripts, decode);
      FlattenSnoc(ScriptParts(scripts[..n], decode), ScriptData(scripts[n], decode));
    }
  }

  /** One more script adds its contribution at the end. */
  lemma PartsSnoc(scripts: seq<LdScript>, decode: Decoder)
    requires |scripts| > 0
    ensures ScriptParts(scripts, decode) ==
      ScriptParts(scripts[..|scripts| - 1], decode) + [ScriptData(scripts[|scripts| - 1], decode)]
  {
    var n := |scripts| - 1;
    var all := ScriptParts(scripts, decode);
    var rhs := ScriptParts(scripts[..n], decode) + [ScriptData(scripts[n], decode)];
    assert |all| == |rhs|;
    forall i | 0 <= i < |all| ensures all[i] == rhs[i] {
      if i < n {
        assert scripts[..n][i] == scripts[i];
      }
    }
  }

  /** A successful extraction ends with what its last block contributes. */
  lemma LdDataLast(scripts: seq<LdScript>, decode: Decoder)
    requires |scripts| > 0 && LdData(scripts, decode).Success?
    ensures LdData(scripts[..|scripts| - 1], decode).Success?
    ensures LdData(scripts, decode).value ==
      LdData(scripts[..|scripts| - 1], decode).value + ScriptData(scripts[|scripts| - 1], decode)
  {
  }

  function MicroData(items: seq<MicroItem>): (r: seq<Json>)
    ensures |r| == Count(items, Typed)
    ensures forall j :: 0 <= j < |r| ==> r[j].JObj? && "_format" in r[j].fields
  {
    if |items| == 0 then []
    else
      var head := ParseMicrodata(items[0]);
      (if head.Some? then [head.value] else []) + MicroData(items[1..])
  }

  /** `_extract_structured_data`: the JSON-LD values first, then one object
      per microdata item that has an `itemtype`. */
  function ExtractStructuredData(page: SchemaPage, decode: Decoder): (r: Result<seq<Json>>)
    ensures r.Failure? <==> exists i :: 0 <= i < |page.ldScripts| && page.ldScripts[i].text.None?
    ensures r.Success? ==>
      |r.value| == |LdData(page.ldScripts, decode).value| + Count(page.microdata, Typed)
    ensures r.Success? ==> r.value == LdData(page.ldScripts, decode).value + MicroData(page.microdata)
  {
    match LdData(page.ldScripts, decode)
    case Failure(e) => Failure(e)
    case Success(ld) => Success(ld + MicroData(page.microdata))
  }

  // --------------------------------------------------------- page type

  /** The page types the recommendation table knows, with their schemas. */
  function RecommendedSchemas(pageType: string): seq<string> {
    match pageType
    case "homepage" => ["Organization", "WebSite", "SearchAction"]
    case "article" => ["Article", "NewsArticle", "BlogPosting", "BreadcrumbList"]
    case "product" => ["Product", "Offer", "AggregateRating", "Review"]
    case "local" => ["LocalBusiness", "PostalAddress", "GeoCoordinates", "OpeningHoursSpecification"]
    case "person" => ["Person", "ProfilePage"]
    case "event" => ["Event", "Place", "Offer"]
    case "faq" => ["FAQPage", "Question", "Answer"]
    case "recipe" => ["Recipe", "NutritionInformation", "AggregateRating"]
    case "video" => ["VideoObject", "Clip", "BroadcastEvent"]
    case _ => []
  }

  /** Whether the lower-cased URL holds one of the path markers the page
      type detection looks for. */
  predicate Marked(u: string) {
    || Contains(u, "/home") || Contains(u, "/product") || Contains(u, "/shop")
    || Contains(u, "/blog") || Contains(u, "/article") || Contains(u, "/post")
    || Contains(u, "/contact") || Contains(u, "/about") || Contains(u, "/event")
    || Contains(u, "/faq") || Contains(u, "/recipe")
  }

  /** The URL rules of the page type detection, in the order they are
      tried; the first one that holds decides. */
  predicate HomeUrl(url: string) {
    EndsWith(url, "/") || Contains(Lower(url), "/home")
  }

  predicate ProductUrl(url: string) {
    Contains(Lower(url), "/product") || Contains(Lower(url), "/shop")
  }

  predicate ArticleUrl(url: string) {
    Contains(Lower(url), "/blog") || Contains(Lower(url), "/article") || Contains(Lower(url), "/post")
  }

  predicate LocalUrl(url: string) {
    Contains(Lower(url), "/contact") || Contains(Lower(url), "/about")
  }

  /** The page type the URL alone decides, if any; earlier patterns win. */
  function UrlPageType(url: string): (r: Option<string>)
    ensures r.None? <==> !EndsWith(url, "/") && !Marked(Lower(url))
    ensures r.Some? ==> RecommendedSchemas(r.value) != []
    ensures r == Some("homepage") <==> HomeUrl(url)
    ensures r == Some("product") <==> !HomeUrl(url) && ProductUrl(url)
    ensures r == Some("article") <==> !HomeUrl(url) && !ProductUrl(url) && ArticleUrl(url)
    ensures r == Some("local") <==> !HomeUrl(url) && !ProductUrl(url) && !ArticleUrl(url) && LocalUrl(url)
    ensures r == Some("event") <==>
      !HomeUrl(url) && !ProductUrl(url) && !ArticleUrl(url) && !LocalUrl(url) && Contains(Lower(url), "/event")
    ensures r == Some("faq") <==>
      !HomeUrl(url) && !ProductUrl(url) && !ArticleUrl(url) && !LocalUrl(url) && !Contains(Lower(url), "/event")
      && Contains(Lower(url), "/faq")
    ensures r == Some("recipe") <==>
      !HomeUrl(url) && !ProductUrl(url) && !ArticleUrl(url) && !LocalUrl(url) && !Contains(Lower(url), "/event")
      && !Contains(Lower(url), "/faq") && Contains(Lower(url), "/recipe")
  {
    var u := Lower(url);
    if EndsWith(url, "/") || Contains(u, "/home") then Some("homepage")
    else if Contains(u, "/product") || Contains(u, "/shop") then Some("product")
    else if Contains(u, "/blog") || Contains(u, "/article") || Contains(u, "/post") then Some("article")
    else if Contains(u, "/contact") || Contains(u, "/about") then Some("local")
    else if Contains(u, "/event") then Some("event")
    else if Contains(u, "/faq") then Some("faq")
    else if Contains(u, "/recipe") then Some("recipe")
    else None
  }

  /** The lower-cased `@type` of every object among the schemas. */
  function SchemaTypes(schemas: seq<Json>): (r: seq<string>)
    ensures forall t :: t in r <==> exists i :: 0 <= i < |schemas| && schemas[i].JObj? && t == LowerType(schemas[i].fields)
  {
    if |schemas| == 0 then []
    else
      var rest := SchemaTypes(schemas[1..]);
      assert forall i :: 0 <= i < |schemas[1..]| ==> schemas[1..][i] == schemas[i + 1];
      assert forall i :: 1 <= i < |schemas| ==> schemas[i] == schemas[1..][i - 1];
      (if schemas[0].JObj? then [LowerType(schemas[0].fields)] else []) + rest
  }

  /** Some object among the schemas has the lower-cased type `t`. */
  predicate HasType(schemas: seq<Json>, t: string) {
    exists i :: 0 <= i < |schemas| && schemas[i].JObj? && LowerType(schemas[i].fields) == t
  }

  /** `_detect_page_type`: URL patterns first, then the schema types, then
      `"general"`. The schemas have passed validation, so every object's
      `@type` is a string when present. */
  function DetectPageType(url: string, schemas: seq<Json>): (r: string)
    ensures r == "general" || RecommendedSchemas(r) != []
    ensures UrlPageType(url).Some? ==> r == UrlPageType(url).value
    ensures UrlPageType(url).None? ==> r in ["product", "article", "general"]
    ensures UrlPageType(url).None? ==> (r == "product" <==> HasType(schemas, "product"))
    ensures UrlPageType(url).None? ==>
      (r == "article" <==> !HasType(schemas, "product") && (HasType(schemas, "article")
                           || HasType(schemas, "newsarticle") || HasType(schemas, "blogposting")))
  {
    match UrlPageType(url)
    case Some(t) => t
    case None =>
      var types := SchemaTypes(schemas);
      if "product" in types then "product"
      else if "article" in types || "newsarticle" in types || "blogposting" in types then "article"
      else "general"
  }

  // --------------------------------------------------- recommendations

  function ConsiderMessage(schemaType: string, pageType: string): string {
    "Consider adding " + schemaType + " schema for " + pageType + " pages"
  }

  function Considerations(recommended: seq<string>, foundLower: seq<string>, pageType: string): (r: seq<string>)
    ensures |r| == Count(recommended, s => Lower(s) !in foundLower)
    ensures forall s :: s in recommended && Lower(s) !in foundLower ==> ConsiderMessage(s, pageType) in r
  {
    if |recommended| == 0 then []
    else
      (if Lower(recommended[0]) !in foundLower then [ConsiderMessage(recommended[0], pageType)] else [])
      + Considerations(recommended[1..], foundLower, pageType)
  }

  /** `_generate_recommendations`. */
  const NoDataAdvice := "No structured data found. Add schema markup to improve search appearance"
  const SearchBoxAdvice := "Add WebSite schema with SearchAction for sitelinks search box"
  const ReviewAdvice := "Add Review schema to display star ratings in search results"
  const BreadcrumbAdvice := "Add BreadcrumbList schema for better navigation in search results"

  function GenerateRecommendations(pageType: string, found: seq<string>): (r: seq<string>)
    ensures |r| == Count(RecommendedSchemas(pageType), s => Lower(s) !in LowerAll(found))
                   + B2N(found == [])
                   + B2N(pageType == "homepage" && "WebSite" !in found)
                   + B2N(pageType == "product" && "Review" !in found)
                   + B2N(pageType == "article" && "BreadcrumbList" !in found)
    ensures forall s :: s in RecommendedSchemas(pageType) && Lower(s) !in LowerAll(found) ==>
      ConsiderMessage(s, pageType) in r
  {
    Considerations(RecommendedSchemas(pageType), LowerAll(found), pageType)
    + (if found == [] then [NoDataAdvice] else [])
    + (if "WebSite" !in found && pageType == "homepage" then [SearchBoxAdvice] else [])
    + (if pageType == "product" && "Review" !in found then [ReviewAdvice] else [])
    + (if pageType == "article" && "BreadcrumbList" !in found then [BreadcrumbAdvice] else [])
  }

  function LowerAll(xs: seq<string>): (r: seq<string>)
    ensures |r| == |xs| && forall i :: 0 <= i < |xs| ==> r[i] == Lower(xs[i])
  {
    seq(|xs|, i requires 0 <= i < |xs| => Lower(xs[i]))
  }

  /** A general page, or any type outside the table, gets no
      "consider adding" line. */
  lemma GeneralPageNoConsiderations(found: seq<string>)
    requires found != []
    ensures GenerateRecommendations("general", found) == []
  {
  }

  /** Found types are compared case-insensitively with the table, but
      exactly with the three extra rules: a page that has every recommended
      type, in any letter case, gets no "consider adding" line, yet still
      gets each extra whose exactly spelled type is missing. */
  lemma AllFoundNoConsiderations(pageType: string, found: seq<string>)
    requires forall s :: s in RecommendedSchemas(pageType) ==> Lower(s) in LowerAll(found)
    ensures forall m :: m in GenerateRecommendations(pageType, found) ==>
      m in [NoDataAdvice, SearchBoxAdvice, ReviewAdvice, BreadcrumbAdvice]
    ensures |GenerateRecommendations(pageType, found)| ==
      B2N(found == []) + B2N(pageType == "homepage" && "WebSite" !in found)
      + B2N(pageType == "product" && "Review" !in found) + B2N(pageType == "article" && "BreadcrumbList" !in found)
    ensures pageType == "homepage" && "WebSite" !in found ==> SearchBoxAdvice in GenerateRecommendations(pageType, found)
  {
    var p := s => Lower(s) !in LowerAll(found);
    CountPositive(RecommendedSchemas(pageType), p);
    assert Considerations(RecommendedSchemas(pageType), LowerAll(found), pageType) == [];
  }

  // ------------------------------------------------------------ score

  datatype ValidationStatus = Completed | NoData | Errored

  /** `_calculate_score`: 100, minus 10 per error and 5 per warning, plus 10
      when any schema was found, kept within 0..100; 0 for an errored run. */
  function CalculateScore(status: ValidationStatus, errors: nat, warnings: nat, anyFound: bool): (score: int)
    ensures 0 <= score <= 100
    ensures status == Errored ==> score == 0
    ensures status != Errored && errors == 0 && warnings == 0 ==> score == 100
    ensures status != Errored && 100 - 10 * errors - 5 * warnings + 10 * B2N(anyFound) <= 0 ==> score == 0
    ensures status != Errored && 0 <= 100 - 10 * errors - 5 * warnings + 10 * B2N(anyFound) <= 100 ==>
      score == 100 - 10 * errors - 5 * warnings + 10 * B2N(anyFound)
    ensures status != Errored && 100 - 10 * errors - 5 * warnings + 10 * B2N(anyFound) > 100 ==> score == 100
  {
    if status == Errored then 0
    else Clamp(100 - 10 * errors - 5 * warnings + 10 * B2N(anyFound), 0, 100)
  }

  /** More errors or warnings never raise the score. */
  lemma ScoreMonotone(status: ValidationStatus, e1: nat, w1: nat, e2: nat, w2: nat, anyFound: bool)
    requires e1 <= e2 && w1 <= w2
    ensures CalculateScore(status, e2, w2, anyFound) <= CalculateScore(status, e1, w1, anyFound)
  {
  }

  // ------------------------------------------------------- validate_url

  datatype UrlValidation = UrlValidation(
    url: string,
    status: ValidationStatus,
    schemasFound: seq<string>,
    errors: seq<string>,
    warnings: seq<string>,
    recommendations: seq<string>,
    pageType: Option<string>,
    score: Option<int>)

  datatype Accumulated = Accumulated(found: seq<string>, errors: seq<string>, warnings: seq<string>)

  /** The loop over the extracted schemas, each validated with its
      position: what was gathered before the first one that raised, and
      that failure. */
  function ValidateAll(schemas: seq<Json>, validate: (Json, nat) -> Result<Validation>): (r: (Accumulated, Option<string>))
    ensures r.1.None? <==> forall i :: 0 <= i < |schemas| ==> validate(schemas[i], i).Success?
    ensures r.1.None? ==> |r.0.found| == |schemas|
    ensures r.1.None? ==> forall i :: 0 <= i < |schemas| ==> r.0.found[i] == validate(schemas[i], i).value.typ
  {
    if |schemas| == 0 then (Accumulated([], [], []), None)
    else
      var init := schemas[..|schemas| - 1];
      var prev := ValidateAll(init, validate);
      assert forall i :: 0 <= i < |init| ==> init[i] == schemas[i];
      if prev.1.Some? then prev
      else match validate(schemas[|schemas| - 1], |schemas| - 1)
        case Failure(e) => (prev.0, Some(e))
        case Success(v) =>
          (Accumulated(prev.0.found + [v.typ], prev.0.errors + v.errors, prev.0.warnings + v.warnings), None)
  }

  /** When no schema raises, the loop keeps every error and warning of
      every schema and invents none. */
  lemma {:induction false} ValidateAllGathers(schemas: seq<Json>, validate: (Json, nat) -> Result<Validation>)
    requires forall i :: 0 <= i < |schemas| ==> validate(schemas[i], i).Success?
    ensures forall i, m :: 0 <= i < |schemas| && m in validate(schemas[i], i).value.errors ==>
      m in ValidateAll(schemas, validate).0.errors
    ensures forall i, m :: 0 <= i < |schemas| && m in validate(schemas[i], i).value.warnings ==>
      m in ValidateAll(schemas, validate).0.warnings
    ensures forall m :: m in ValidateAll(schemas, validate).0.errors ==>
      exists i :: 0 <= i < |schemas| && m in validate(schemas[i], i).value.errors
    ensures forall m :: m in ValidateAll(schemas, validate).0.warnings ==>
      exists i :: 0 <= i < |schemas| && m in validate(schemas[i], i).value.warnings
  {
    if |schemas| > 0 {
      var n := |schemas| - 1;
      var init := schemas[..n];
      assert forall i :: 0 <= i < |init| ==> init[i] == schemas[i];
      ValidateAllGathers(init, validate);
      var prev := ValidateAll(init, validate).0;
      var v := validate(schemas[n], n).value;
      var acc := ValidateAll(schemas, validate).0;
      assert acc.errors == prev.errors + v.errors && acc.warnings == prev.warnings + v.warnings;
      forall i, m | 0 <= i < |schemas| && m in validate(schemas[i], i).value.errors
        ensures m in acc.errors
      {
        if i < n {
          assert init[i] == schemas[i];
          assert m in validate(init[i], i).value.errors;
          assert m in prev.errors;
        } else {
          assert m in v.errors;
        }
      }
      forall i, m | 0 <= i < |schemas| && m in validate(schemas[i], i).value.warnings
        ensures m in acc.warnings
      {
        if i < n {
          assert init[i] == schemas[i];
          assert m in validate(init[i], i).value.warnings;
          assert m in prev.warnings;
        } else {
          assert m in v.warnings;
        }
      }
      forall m | m in acc.errors
        ensures exists i :: 0 <= i < |schemas| && m in validate(schemas[i], i).value.errors
      {
        if m in prev.errors {
          var i :| 0 <= i < |init| && m in validate(init[i], i).value.errors;
          assert init[i] == schemas[i];
        } else {
          assert m in validate(schemas[n], n).value.errors;
        }
      }
      forall m | m in acc.warnings
        ensures exists i :: 0 <= i < |schemas| && m in validate(schemas[i], i).value.warnings
      {
        if m in prev.warnings {
          var i :| 0 <= i < |init| && m in validate(init[i], i).value.warnings;
          assert init[i] == schemas[i];
        } else {
          assert m in validate(schemas[n], n).value.warnings;
        }
      }
    }
  }

  /** The errors of one schema's validation, none when it raised. */
  function ErrorsOf(r: Result<Validation>): seq<string> {
    if r.Success? then r.value.errors else []
  }

  /** The warnings of one schema's validation, none when it raised. */
  function WarningsOf(r: Result<Validation>): seq<string> {
    if r.Success? then r.value.warnings else []
  }

  /** When no schema raises, the loop's findings are the findings of each
      schema joined in order, repeats included. */
  lemma {:induction false} ValidateAllConcat(schemas: seq<Json>, validate: (Json, nat) -> Result<Validation>)
    requires forall i :: 0 <= i < |schemas| ==> validate(schemas[i], i).Success?
    ensures ValidateAll(schemas, validate).0.errors ==
      Flatten(seq(|schemas|, i requires 0 <= i < |schemas| => ErrorsOf(validate(schemas[i], i))))
    ensures ValidateAll(schemas, validate).0.warnings ==
      Flatten(seq(|schemas|, i requires 0 <= i < |schemas| => WarningsOf(validate(schemas[i], i))))
  {
    if |schemas| > 0 {
      var n := |schemas| - 1;
      var init := schemas[..n];
      assert forall i :: 0 <= i < |init| ==> init[i] == schemas[i];
      ValidateAllConcat(init, validate);
      var es := seq(|schemas|, i requires 0 <= i < |schemas| => ErrorsOf(validate(schemas[i], i)));
      var ws := seq(|schemas|, i requires 0 <= i < |schemas| => WarningsOf(validate(schemas[i], i)));
      var es0 := seq(|init|, i requires 0 <= i < |init| => ErrorsOf(validate(init[i], i)));
      var ws0 := seq(|init|, i requires 0 <= i < |init| => WarningsOf(validate(init[i], i)));
      assert es == es0 + [es[n]];
      assert ws == ws0 + [ws[n]];
      FlattenSnoc(es0, es[n]);
      FlattenSnoc(ws0, ws[n]);
    }
  }

  /** The per-schema findings through `Validator` are those of `ValidateWith`. */
  lemma ValidatorFindings(orgTypes: seq<string>, data: seq<Json>)
    ensures seq(|data|, i requires 0 <= i < |data| => ErrorsOf(Validator(orgTypes)(data[i], i)))
         == seq(|data|, i requires 0 <= i < |data| => ErrorsOf(ValidateWith(orgTypes, data[i], i)))
    ensures seq(|data|, i requires 0 <= i < |data| => WarningsOf(Validator(orgTypes)(data[i], i)))
         == seq(|data|, i requires 0 <= i < |data| => WarningsOf(ValidateWith(orgTypes, data[i], i)))
  {
    var validate := Validator(orgTypes);
    var es := seq(|data|, i requires 0 <= i < |data| => ErrorsOf(validate(data[i], i)));
    var ws := seq(|data|, i requires 0 <= i < |data| => WarningsOf(validate(data[i], i)));
    forall i | 0 <= i < |data|
      ensures es[i] == ErrorsOf(ValidateWith(orgTypes, data[i], i))
      ensures ws[i] == WarningsOf(ValidateWith(orgTypes, data[i], i))
    {
      assert validate(data[i], i) == ValidateWith(orgTypes, data[i], i);
    }
  }

  const FetchFailedPrefix := "Failed to fetch URL: "
  const ValidationFailedPrefix := "Validation failed: "
  const NoStructuredDataInfo := "No structured data found on the page"
  const AddMarkupAdvice := "Add appropriate schema markup for better search visibility"

  /** `validate_url`, with the organization type list of the dispatch as a
      parameter. */
  function ValidateUrlWith(orgTypes: seq<string>, url: string, fetch: Fetch<SchemaPage>, decode: Decoder): (r: UrlValidation)
    ensures r.url == url
    ensures r.score.None? <==> r.status == Errored
    ensures r.status != Errored ==> r.score == Some(CalculateScore(r.status, |r.errors|, |r.warnings|, r.schemasFound != []))
    ensures fetch.FetchFailed? ==> r.status == Errored && r.errors == [FetchFailedPrefix + fetch.reason]
    ensures fetch.Fetched? && r.status != Errored ==>
      var data := ExtractStructuredData(fetch.doc, decode);
      && data.Success?
      && (r.status == NoData <==> data.value == [])
      && |r.schemasFound| == |data.value|
      && (r.status == Completed ==> r.pageType == Some(DetectPageType(url, data.value)))
    ensures fetch.Fetched? ==>
      var data := ExtractStructuredData(fetch.doc, decode);
      (r.status == Errored <==>
        data.Failure? || exists i :: 0 <= i < |data.value| && ValidateWith(orgTypes, data.value[i], i).Failure?)
    ensures r.status == Errored ==> r.errors != [] && r.recommendations == [] && r.pageType.None?
    ensures r.status == NoData ==>
      && r.schemasFound == [] && r.errors == []
      && r.warnings == [NoStructuredDataInfo] && r.recommendations == [AddMarkupAdvice]
    ensures r.status == Completed ==>
      r.pageType.Some? && r.recommendations == GenerateRecommendations(r.pageType.value, r.schemasFound)
  {
    match fetch
    case FetchFailed(reason) =>
      UrlValidation(url, Errored, [], [FetchFailedPrefix + reason], [], [], None, None)
    case Fetched(page) =>
      match ExtractStructuredData(page, decode)
      case Failure(e) =>
        UrlValidation(url, Errored, [], [ValidationFailedPrefix + e], [], [], None, None)
      case Success(data) =>
        if data == [] then
          UrlValidation(url, NoData, [], [], [NoStructuredDataInfo],
                        [AddMarkupAdvice], None,
                        Some(CalculateScore(NoData, 0, 1, false)))
        else
          var (acc, failure) := ValidateAll(data, Validator(orgTypes));
          if failure.Some? then
            UrlValidation(url, Errored, acc.found, acc.errors + [ValidationFailedPrefix + failure.value],
                          acc.warnings, [], None, None)
          else
            var pageType := DetectPageType(url, data);
            UrlValidation(url, Completed, acc.found, acc.errors, acc.warnings,
                          GenerateRecommendations(pageType, acc.found), Some(pageType),
                          Some(CalculateScore(Completed, |acc.errors|, |acc.warnings|, true)))
  }

  /** A completed run is the loop over the extracted schemas with none
      raising: its types, errors and warnings are the loop's. */
  lemma CompletedLoop(orgTypes: seq<string>, url: string, page: SchemaPage, decode: Decoder)
    requires ValidateUrlWith(orgTypes, url, Fetched(page), decode).status == Completed
    ensures ExtractStructuredData(page, decode).Success?
    ensures var r := ValidateUrlWith(orgTypes, url, Fetched(page), decode);
      var data := ExtractStructuredData(page, decode).value;
      var acc := ValidateAll(data, Validator(orgTypes)).0;
      && (forall i :: 0 <= i < |data| ==> ValidateWith(orgTypes, data[i], i).Success?)
      && r.schemasFound == acc.found && r.errors == acc.errors && r.warnings == acc.warnings
  {
    var data := ExtractStructuredData(page, decode).value;
    var validate := Validator(orgTypes);
    assert ValidateAll(data, validate).1.None?;
    forall i | 0 <= i < |data| ensures ValidateWith(orgTypes, data[i], i).Success? {
      assert validate(data[i], i).Success?;
    }
  }

  /** A completed run reports the type of every schema, in order, and
      every error and warning of every schema, and no error that no schema
      reported. */
  lemma ValidateUrlGathers(orgTypes: seq<string>, url: string, page: SchemaPage, decode: Decoder)
    requires ValidateUrlWith(orgTypes, url, Fetched(page), decode).status == Completed
    ensures ExtractStructuredData(page, decode).Success?
    ensures var r := ValidateUrlWith(orgTypes, url, Fetched(page), decode);
      var data := ExtractStructuredData(page, decode).value;
      forall i :: 0 <= i < |data| ==>
        ValidateWith(orgTypes, data[i], i).Success? && r.schemasFound[i] == ValidateWith(orgTypes, data[i], i).value.typ
    ensures var r := ValidateUrlWith(orgTypes, url, Fetched(page), decode);
      var data := ExtractStructuredData(page, decode).value;
      forall i, m :: 0 <= i < |data| && m in ValidateWith(orgTypes, data[i], i).value.errors ==> m in r.errors
    ensures var r := ValidateUrlWith(orgTypes, url, Fetched(page), decode);
      var data := ExtractStructuredData(page, decode).value;
      forall i, m :: 0 <= i < |data| && m in ValidateWith(orgTypes, data[i], i).value.warnings ==> m in r.warnings
    ensures var r := ValidateUrlWith(orgTypes, url, Fetched(page), decode);
      var data := ExtractStructuredData(page, decode).value;
      forall m :: m in r.errors ==> exists i :: 0 <= i < |data| && m in ValidateWith(orgTypes, data[i], i).value.errors
  {
    CompletedLoop(orgTypes, url, page, decode);
    var data := ExtractStructuredData(page, decode).value;
    var validate := Validator(orgTypes);
    ValidateAllGathers(data, validate);
    forall i | 0 <= i < |data| ensures validate(data[i], i) == ValidateWith(orgTypes, data[i], i) {
    }
  }

  /** The errors and warnings of a completed run are those of each schema
      joined in document order, repeats included, so that the score counts
      every one of them. */
  lemma ValidateUrlConcat(orgTypes: seq<string>, url: string, page: SchemaPage, decode: Decoder)
    requires ValidateUrlWith(orgTypes, url, Fetched(page), decode).status == Completed
    ensures ExtractStructuredData(page, decode).Success?
    ensures var r := ValidateUrlWith(orgTypes, url, Fetched(page), decode);
      var data := ExtractStructuredData(page, decode).value;
      && r.errors == Flatten(seq(|data|, i requires 0 <= i < |data| => ErrorsOf(ValidateWith(orgTypes, data[i], i))))
      && r.warnings == Flatten(seq(|data|, i requires 0 <= i < |data| => WarningsOf(ValidateWith(orgTypes, data[i], i))))
  {
    CompletedLoop(orgTypes, url, page, decode);
    var data := ExtractStructuredData(page, decode).value;
    var validate := Validator(orgTypes);
    ValidateAllConcat(data, validate);
    ValidatorFindings(orgTypes, data);
  }

  /** The validator of one schema at its position. */
  function Validator(orgTypes: seq<string>): (Json, nat) -> Result<Validation> {
    (schema: Json, i: nat) => ValidateWith(orgTypes, schema, i)
  }

  /** `validate_url` as written: `LocalBusiness` objects miss the
      organization rules. */
  function ValidateUrl(url: string, fetch: Fetch<SchemaPage>, decode: Decoder): UrlValidation {
    ValidateUrlWith(OrganizationTypesAsWritten, url, fetch, decode)
  }

  /** `validate_url` with the corrected organization type list. */
  function ValidateUrlCorrected(url: string, fetch: Fetch<SchemaPage>, decode: Decoder): UrlValidation {
    ValidateUrlWith(OrganizationTypes, url, fetch, decode)
  }

  /** A page without structured data scores 95: one warning, no bonus. */
  lemma NoDataScore(url: string, page: SchemaPage, decode: Decoder)
    requires ExtractStructuredData(page, decode) == Success([])
    ensures ValidateUrl(url, Fetched(page), decode).score == Some(95)
  {
  }

  // ------------------------------------------------------ validate_json

  datatype JsonValidation = JsonValidation(valid: bool, errors: seq<string>, warnings: seq<string>, typ: string)

  /** `validate_json`, with the organization type list of the dispatch as
      a parameter: valid exactly when the text decodes, validation does not
      raise and it reports no error. */
  function ValidateJsonWith(orgTypes: seq<string>, text: string, decode: Decoder): (r: JsonValidation)
    ensures r.valid <==> decode(text).Success? && ValidateWith(orgTypes, decode(text).value, 0).Success?
                         && ValidateWith(orgTypes, decode(text).value, 0).value.errors == []
    ensures r.valid ==> r.errors == []
    ensures !r.valid ==> r.errors != []
    ensures decode(text).Failure? ==> r.errors == ["Invalid JSON: " + decode(text).error] && r.typ == "unknown"
  {
    match decode(text)
    case Failure(e) => JsonValidation(false, ["Invalid JSON: " + e], [], "unknown")
    case Success(d) =>
      match ValidateWith(orgTypes, d, 0)
      case Failure(e) => JsonValidation(false, ["Validation error: " + e], [], "unknown")
      case Success(v) => JsonValidation(v.errors == [], v.errors, v.warnings, v.typ)
  }

  /** `validate_json` as written. */
  function ValidateJson(text: string, decode: Decoder): JsonValidation {
    ValidateJsonWith(OrganizationTypesAsWritten, text, decode)
  }

  /** `validate_json` with the corrected organization type list. */
  function ValidateJsonCorrected(text: string, decode: Decoder): JsonValidation {
    ValidateJsonWith(OrganizationTypes, text, decode)
  }

  const LocalBusinessObject := JObj(map["@type" := JStr("LocalBusiness"), "@context" := JStr("https://schema.org")])

  /** As written, `validate_json` calls a bare `LocalBusiness` object valid. */
  lemma LocalBusinessJsonValid(text: string, decode: Decoder)
    requires decode(text) == Success(LocalBusinessObject)
    ensures ValidateJson(text, decode).valid && ValidateJson(text, decode).errors == []
  {
    LocalBusinessSkipsOrganizationRules();
  }

  /** With the corrected list, the same object is invalid: it lacks the
      required `name` and `url`. */
  lemma LocalBusinessJsonInvalid(text: string, decode: Decoder)
    requires decode(text) == Success(LocalBusinessObject)
    ensures !ValidateJsonCorrected(text, decode).valid
  {
    var f := LocalBusinessObject.fields;
    LowerLocalBusiness();
    LocalBusinessGetsOrganizationRules(f);
  }

  lemma LowerLocalBusiness()
    ensures Lower("LocalBusiness") == "localbusiness"
  {
    assert forall i :: 0 <= i < 13 ==> Lower("LocalBusiness")[i] == "localbusiness"[i];
  }
}

=== FILE: sitemap_analyzer.dfy ===
/** The sitemap rules: dispatch between a sitemap index and a URL set, the
    per-entry checks and counters, the protocol limits of sitemaps.org
    (50,000 URLs and 50 MB per file), the recommendations, and the
    discovery of sitemaps through robots.txt and well-known paths. */
module SitemapAnalyzer {
  import opened Common
  import opened Text

  const MaxUrls: nat := 50000
  const MaxSize: nat := 52428800

  /** A `<sitemap>` element of an index. Each field is the text of the child
      element, absent when the child is missing or holds no text. */
  datatype IndexEntry = IndexEntry(loc: Option<string>, lastmod: Option<string>)

  /** A `<url>` element of a URL set, read the same way. */
  datatype UrlEntry = UrlEntry(loc: Option<string>, lastmod: Option<string>,
                               changefreq: Option<string>, priority: Option<string>)

  /** Every `<sitemap>` and every `<url>` element of the parsed document. */
  datatype Tree = Tree(sitemaps: seq<IndexEntry>, urls: seq<UrlEntry>)

  /** The fetched text and what the XML parser makes of it (its error
      message when the text is not well-formed). */
  datatype SitemapDoc = SitemapDoc(content: string, tree: Result<Tree>)

  /** The library calls the rules depend on: the scheme and network location
      of a URL, whether `datetime.fromisoformat` accepts a text, `float()`,
      and the status code a HEAD request returns (absent when the request
      fails). */
  datatype Env = Env(
    scheme: string -> string,
    netloc: string -> string,
    isIsoDate: string -> bool,
    parseFloat: string -> Option<PyFloat>,
    probe: string -> Option<int>)

  // ----------------------------------------------------------- limits

  /** Bytes of one character in UTF-8. */
  function Utf8Width(c: char): (n: nat)
    ensures 1 <= n <= 4
  {
    if c as int < 0x80 then 1
    else if c as int < 0x800 then 2
    else if c as int < 0x10000 then 3
    else 4
  }

  /** `len(s.encode('utf-8'))` */
  function Utf8Length(s: string): (n: nat)
    ensures |s| <= n <= 4 * |s|
  {
    if |s| == 0 then 0 else Utf8Width(s[0]) + Utf8Length(s[1..])
  }

  /** Text of at most 13,107,200 characters is never over the size limit,
      and text of more than 52,428,800 characters always is. */
  lemma SizeLimitBounds(s: string)
    ensures |s| * 4 <= MaxSize ==> Utf8Length(s) <= MaxSize
    ensures |s| > MaxSize ==> Utf8Length(s) > MaxSize
  {
  }

  // ------------------------------------------------------ percentages

  /** `n / d` rounded to the nearest integer, ties to even. */
  function RoundHalfEven(n: nat, d: nat): (r: nat)
    requires d > 0
    ensures 2 * n - d <= 2 * (r * d) <= 2 * n + d
    ensures n % d == 0 ==> r == n / d
  {
    var q := n / d;
    var m := n % d;
    assert n == q * d + m;
    assert (q + 1) * d == q * d + d;
    if 2 * m > d then q + 1
    else if 2 * m < d then q
    else q + q % 2
  }

  /** The share `w / total` in tenths of a percent, rounded: the model of
      `round(w / total * 100, 1)`. */
  function Tenths(w: nat, total: nat): (t: nat)
    requires 0 < total && w <= total
    ensures t <= 1000
    ensures w == 0 ==> t == 0
    ensures w == total ==> t == 1000
    ensures t == 0 ==> 2000 * w <= total
    ensures t == 1000 ==> 2000 * (total - w) <= total
  {
    var t := RoundHalfEven(1000 * w, total);
    TenthsBounds(w, total, t);
    t
  }

  /** What the rounding bounds imply for a share of at most one. */
  lemma TenthsBounds(w: nat, total: nat, t: nat)
    requires 0 < total && w <= total
    requires 2 * (1000 * w) - total <= 2 * (t * total) <= 2 * (1000 * w) + total
    ensures t <= 1000
    ensures w == 0 ==> t == 0
    ensures w == total ==> t == 1000
    ensures t == 0 ==> 2000 * w <= total
    ensures t == 1000 ==> 2000 * (total - w) <= total
  {
    if w == 0 && t >= 1 {
      MulMono(1, t, total);
      assert false;
    }
    if t >= 1001 {
      MulMono(1001, t, total);
      assert false;
    }
    if w == total && t <= 999 {
      MulMono(t, 999, total);
      assert false;
    }
  }

  /** How Python prints the rounded percentage, `33.3` for 333 tenths. */
  function PercentText(t: nat): string {
    NatToString(t / 10) + "." + NatToString(t % 10)
  }

  // ------------------------------------------------------ sitemap index

  predicate IsAbsolute(u: string) {
    StartsWith(u, "http://") || StartsWith(u, "https://")
  }

  /** The date text as `fromisoformat` sees it. */
  function IsoText(s: string): string {
    ReplaceChar(s, 'Z', "+00:00")
  }

  datatype Findings = Findings(errors: seq<string>, warnings: seq<string>, info: seq<string>)

  /** The messages one index entry adds. */
  function IndexEntryFindings(e: IndexEntry, env: Env): (f: Findings)
    ensures !Present(e.loc) ==> f == Findings(["Sitemap entry missing <loc> tag"], [], [])
    ensures Present(e.loc) ==>
      && f.errors == [] && f.info == []
      && |f.warnings| == B2N(!IsAbsolute(Strip(e.loc.value)))
                         + B2N(Present(e.lastmod) && !env.isIsoDate(IsoText(e.lastmod.value)))
  {
    if !Present(e.loc) then Findings(["Sitemap entry missing <loc> tag"], [], [])
    else
      var u := Strip(e.loc.value);
      Findings([],
               (if !IsAbsolute(u) then ["Relative URL in sitemap index: " + u] else [])
               + (if Present(e.lastmod) && !env.isIsoDate(IsoText(e.lastmod.value))
                  then ["Invalid lastmod date format: " + e.lastmod.value] else []),
               [])
  }

  function Concat(a: Findings, b: Findings): Findings {
    Findings(a.errors + b.errors, a.warnings + b.warnings, a.info + b.info)
  }

  predicate MissingLoc(e: IndexEntry) {
    !Present(e.loc)
  }

  /** The warnings of each index entry, in order. */
  function IndexWarningLists(entries: seq<IndexEntry>, env: Env): (r: seq<seq<string>>)
    ensures |r| == |entries|
    ensures forall i :: 0 <= i < |entries| ==> r[i] == IndexEntryFindings(entries[i], env).warnings
  {
    if |entries| == 0 then []
    else [IndexEntryFindings(entries[0], env).warnings] + IndexWarningLists(entries[1..], env)
  }

  /** The loop over the index entries. */
  function IndexFindings(entries: seq<IndexEntry>, env: Env): (f: Findings)
    ensures |f.errors| == Count(entries, MissingLoc)
    ensures f.warnings == Flatten(IndexWarningLists(entries, env))
    ensures f.info == []
  {
    if |entries| == 0 then Findings([], [], [])
    else Concat(IndexEntryFindings(entries[0], env), IndexFindings(entries[1..], env))
  }

  // -------------------------------------------------------- URL set

  datatype CodeCount = CodeCount(code: int, count: nat)

  /** Status codes in the order first seen, each with its count. */
  function AddCode(codes: seq<CodeCount>, code: int): (r: seq<CodeCount>)
    ensures |r| == |codes| || |r| == |codes| + 1
    ensures forall k :: 0 <= k < |r| ==> (r[k].code == code || exists j :: 0 <= j < |codes| && codes[j].code == r[k].code)
    ensures exists k :: 0 <= k < |r| && r[k].code == code
    ensures Total(r) == Total(codes) + 1
  {
    if |codes| == 0 then
      var r := [CodeCount(code, 1)];
      assert r[0].code == code;
      r
    else if codes[0].code == code then
      var r := [CodeCount(code, codes[0].count + 1)] + codes[1..];
      assert r[0].code == code;
      r
    else
      var rest := AddCode(codes[1..], code);
      assert forall j :: 0 <= j < |codes[1..]| ==> codes[1..][j] == codes[j + 1];
      var k :| 0 <= k < |rest| && rest[k].code == code;
      var r := [codes[0]] + rest;
      assert r[k + 1].code == code;
      r
  }

  function Total(codes: seq<CodeCount>): nat {
    if |codes| == 0 then 0 else codes[0].count + Total(codes[1..])
  }

  /** Every code appears once. */
  predicate DistinctCodes(codes: seq<CodeCount>) {
    forall i, j :: 0 <= i < j < |codes| ==> codes[i].code != codes[j].code
  }

  lemma {:induction false} AddCodeDistinct(codes: seq<CodeCount>, code: int)
    ensures DistinctCodes(codes) ==> DistinctCodes(AddCode(codes, code))
  {
    if DistinctCodes(codes) && |codes| > 0 {
      DistinctTail(codes);
      if codes[0].code != code {
        AddCodeDistinct(codes[1..], code);
        var rest := AddCode(codes[1..], code);
        forall k | 0 <= k < |rest| ensures rest[k].code != codes[0].code {
          if rest[k].code != code {
            var j :| 0 <= j < |codes[1..]| && codes[1..][j].code == rest[k].code;
            assert codes[1..][j] == codes[j + 1];
          }
        }
        DistinctCons(codes[0], rest);
      } else {
        DistinctCons(CodeCount(code, codes[0].count + 1), codes[1..]);
      }
    }
  }

  lemma DistinctTail(codes: seq<CodeCount>)
    requires |codes| > 0 && DistinctCodes(codes)
    ensures DistinctCodes(codes[1..])
    ensures forall k :: 0 <= k < |codes[1..]| ==> codes[1..][k].code != codes[0].code
  {
    forall i, j | 0 <= i < j < |codes[1..]| ensures codes[1..][i].code != codes[1..][j].code {
      assert codes[1..][i] == codes[i + 1] && codes[1..][j] == codes[j + 1];
    }
    forall k | 0 <= k < |codes[1..]| ensures codes[1..][k].code != codes[0].code {
      assert codes[1..][k] == codes[k + 1];
    }
  }

  lemma DistinctCons(c: CodeCount, rest: seq<CodeCount>)
    requires DistinctCodes(rest)
    requires forall k :: 0 <= k < |rest| ==> rest[k].code != c.code
    ensures DistinctCodes([c] + rest)
  {
    var r := [c] + rest;
    forall i, j | 0 <= i < j < |r| ensures r[i].code != r[j].code {
      assert r[j] == rest[j - 1];
      if i > 0 {
        assert r[i] == rest[i - 1];
      }
    }
  }

  /** The state of the URL loop. */
  datatype Scan = Scan(
    seen: set<string>,
    withLastmod: nat,
    withChangefreq: nat,
    withPriority: nat,
    duplicates: nat,
    invalid: nat,
    codes: seq<CodeCount>,
    found: Findings)

  const ValidFrequencies: seq<string> := ["always", "hourly", "daily", "weekly", "monthly", "yearly", "never"]

  /** An entry whose stripped `loc` lacks a scheme or a network location. */
  predicate Invalid(e: UrlEntry, env: Env) {
    Present(e.loc) && (env.scheme(Strip(e.loc.value)) == "" || env.netloc(Strip(e.loc.value)) == "")
  }

  /** An entry that reaches the optional-field checks. */
  predicate Checked(e: UrlEntry, env: Env) {
    Present(e.loc) && !Invalid(e, env)
  }

  // Messages of the URL loop.
  const BadLastmodPrefix := "Invalid lastmod date: "
  const ForSeparator := " for "
  const BadChangefreqPrefix := "Invalid changefreq: "
  const BadPriorityFormatPrefix := "Invalid priority format: "
  const BadPriorityValuePrefix := "Invalid priority value: "
  const EntryPrefix := "URL entry "
  const MissingLocSuffix := " missing <loc> tag"
  const DuplicateUrlPrefix := "Duplicate URL: "
  const InvalidUrlPrefix := "Invalid URL: "
  const ForeignUrlPrefix := "URL from different domain: "
  const UncheckedUrlPrefix := "Could not check URL: "
  const UrlReturnsPrefix := "URL returns "
  const ColonSeparator := ": "

  function LastmodWarning(text: string, u: string): string {
    BadLastmodPrefix + (text + ForSeparator + u)
  }

  function ChangefreqWarning(text: string): string {
    BadChangefreqPrefix + text
  }

  function PriorityFormatWarning(text: string): string {
    BadPriorityFormatPrefix + text
  }

  function PriorityValueWarning(text: string): string {
    BadPriorityValuePrefix + text
  }

  /** Two texts that differ at a position inside both prefixes differ. */
  lemma PrefixesDiffer(a: string, b: string, x: string, y: string, k: nat)
    requires k < |a| && k < |b| && a[k] != b[k]
    ensures a + x != b + y
  {
    assert (a + x)[k] == a[k] && (b + y)[k] == b[k];
  }

  /** The four optional-field warnings can never be mistaken for one
      another, whatever texts they quote. */
  lemma FieldWarningsDiffer(lastmod: string, u: string, freq: string, format: string, value: string)
    ensures LastmodWarning(lastmod, u) != ChangefreqWarning(freq)
    ensures LastmodWarning(lastmod, u) != PriorityFormatWarning(format)
    ensures LastmodWarning(lastmod, u) != PriorityValueWarning(value)
    ensures ChangefreqWarning(freq) != PriorityFormatWarning(format)
    ensures ChangefreqWarning(freq) != PriorityValueWarning(value)
    ensures PriorityFormatWarning(format) != PriorityValueWarning(value)
  {
    PrefixesDiffer(BadLastmodPrefix, BadChangefreqPrefix, lastmod + ForSeparator + u, freq, 8);
    PrefixesDiffer(BadLastmodPrefix, BadPriorityFormatPrefix, lastmod + ForSeparator + u, format, 8);
    PrefixesDiffer(BadLastmodPrefix, BadPriorityValuePrefix, lastmod + ForSeparator + u, value, 8);
    PrefixesDiffer(BadChangefreqPrefix, BadPriorityFormatPrefix, freq, format, 8);
    PrefixesDiffer(BadChangefreqPrefix, BadPriorityValuePrefix, freq, value, 8);
    PrefixesDiffer(BadPriorityFormatPrefix, BadPriorityValuePrefix, format, value, 17);
  }

  /** A `lastmod` that `fromisoformat` rejects. */
  predicate BadLastmod(e: UrlEntry, env: Env) {
    Present(e.lastmod) && !env.isIsoDate(IsoText(e.lastmod.value))
  }

  /** A `changefreq` whose lower-cased text is none of the seven values. */
  predicate BadChangefreq(e: UrlEntry) {
    Present(e.changefreq) && Lower(e.changefreq.value) !in ValidFrequencies
  }

  /** A `priority` that `float()` rejects. */
  predicate UnparsedPriority(e: UrlEntry, env: Env) {
    Present(e.priority) && env.parseFloat(e.priority.value).None?
  }

  /** A `priority` that parses to a value outside 0.0 to 1.0 (NaN included). */
  predicate PriorityOutOfRange(e: UrlEntry, env: Env) {
    Present(e.priority) && env.parseFloat(e.priority.value).Some?
    && !env.parseFloat(e.priority.value).value.Within(0.0, 1.0)
  }

  /** The warnings of the optional fields of a checked entry: one per field
      that is present and wrong, each naming its rule. */
  function OptionalFieldWarnings(e: UrlEntry, u: string, env: Env): (r: seq<string>)
    ensures |r| == B2N(BadLastmod(e, env)) + B2N(BadChangefreq(e))
                   + B2N(UnparsedPriority(e, env) || PriorityOutOfRange(e, env))
    ensures Present(e.lastmod) ==> (LastmodWarning(e.lastmod.value, u) in r <==> BadLastmod(e, env))
    ensures Present(e.changefreq) ==> (ChangefreqWarning(e.changefreq.value) in r <==> BadChangefreq(e))
    ensures Present(e.priority) ==> (PriorityFormatWarning(e.priority.value) in r <==> UnparsedPriority(e, env))
    ensures Present(e.priority) ==> (PriorityValueWarning(e.priority.value) in r <==> PriorityOutOfRange(e, env))
  {
    FieldWarningsDiffer(e.lastmod.GetOr(""), u, e.changefreq.GetOr(""), e.priority.GetOr(""), e.priority.GetOr(""));
    (if BadLastmod(e, env) then [LastmodWarning(e.lastmod.value, u)] else [])
    + (if BadChangefreq(e) then [ChangefreqWarning(e.changefreq.value)] else [])
    + (if Present(e.priority) then
         match env.parseFloat(e.priority.value)
         case None => [PriorityFormatWarning(e.priority.value)]
         case Some(v) => if !v.Within(0.0, 1.0) then [PriorityValueWarning(e.priority.value)] else []
       else [])
  }

  /** One turn of the loop, for the entry at position `i`. */
  function Step(s: Scan, i: nat, e: UrlEntry, base: string, checkUrls: bool, env: Env): (r: Scan)
    ensures r.seen == if Present(e.loc) then s.seen + {Strip(e.loc.value)} else s.seen
    ensures r.duplicates == s.duplicates + B2N(Present(e.loc) && Strip(e.loc.value) in s.seen)
    ensures r.invalid == s.invalid + B2N(Invalid(e, env))
    ensures Total(r.codes) == Total(s.codes)
                              + B2N(Checked(e, env) && checkUrls && i < 10 && env.probe(Strip(e.loc.value)).Some?)
    ensures DistinctCodes(s.codes) ==> DistinctCodes(r.codes)
    ensures r.found.errors == s.found.errors + EntryErrors(i, e, env)
  {
    var f := s.found;
    if !Present(e.loc) then
      s.(found := f.(errors := f.errors + [EntryPrefix + NatToString(i) + MissingLocSuffix]))
    else
      var u := Strip(e.loc.value);
      var dup := u in s.seen;
      var warnings := f.warnings + (if dup then [DuplicateUrlPrefix + u] else []);
      var s := s.(seen := s.seen + {u}, duplicates := s.duplicates + B2N(dup));
      if env.scheme(u) == "" || env.netloc(u) == "" then
        s.(invalid := s.invalid + 1,
           found := Findings(f.errors + [InvalidUrlPrefix + u], warnings, f.info))
      else
        var warnings := warnings
          + (if env.netloc(u) != base then [ForeignUrlPrefix + u] else [])
          + OptionalFieldWarnings(e, u, env);
        var s := s.(withLastmod := s.withLastmod + B2N(Present(e.lastmod)),
                    withChangefreq := s.withChangefreq + B2N(Present(e.changefreq)),
                    withPriority := s.withPriority + B2N(Present(e.priority)));
        Probe(s, Findings(f.errors, warnings, f.info), u, checkUrls && i < 10, env)
  }

  /** The error one URL entry adds: a missing `loc`, reported with the
      entry's position, or a URL without scheme or host. */
  function EntryErrors(i: nat, e: UrlEntry, env: Env): seq<string> {
    if !Present(e.loc) then [EntryPrefix + NatToString(i) + MissingLocSuffix]
    else if Invalid(e, env) then [InvalidUrlPrefix + Strip(e.loc.value)]
    else []
  }

  /** One entry keeps the earlier warnings. A valid entry adds every
      warning its optional fields earn. Any other entry adds at most the
      duplicate warning. */
  lemma StepWarnings(s: Scan, i: nat, e: UrlEntry, base: string, checkUrls: bool, env: Env)
    ensures s.found.warnings <= Step(s, i, e, base, checkUrls, env).found.warnings
    ensures Checked(e, env) ==> forall m :: m in OptionalFieldWarnings(e, Strip(e.loc.value), env) ==>
      m in Step(s, i, e, base, checkUrls, env).found.warnings
    ensures !Checked(e, env) ==>
      |Step(s, i, e, base, checkUrls, env).found.warnings| == |s.found.warnings| + B2N(Present(e.loc) && Strip(e.loc.value) in s.seen)
  {
    var r := Step(s, i, e, base, checkUrls, env);
    if Checked(e, env) {
      var u := Strip(e.loc.value);
      var w := s.found.warnings + (if u in s.seen then [DuplicateUrlPrefix + u] else [])
        + (if env.netloc(u) != base then [ForeignUrlPrefix + u] else []);
      var all := w + OptionalFieldWarnings(e, u, env);
      assert all <= r.found.warnings;
      assert s.found.warnings <= all;
    }
  }

  /** Only an entry with a valid `loc` counts towards the optional-field
      tallies, and then exactly for the fields it carries. */
  lemma StepFieldCounts(s: Scan, i: nat, e: UrlEntry, base: string, checkUrls: bool, env: Env)
    ensures var r := Step(s, i, e, base, checkUrls, env);
      && r.withLastmod == s.withLastmod + B2N(Checked(e, env) && Present(e.lastmod))
      && r.withChangefreq == s.withChangefreq + B2N(Checked(e, env) && Present(e.changefreq))
      && r.withPriority == s.withPriority + B2N(Checked(e, env) && Present(e.priority))
  {
  }

  /** The status-code check of a valid URL, when it is among the first ten
      and checking is on: only the codes and the findings change. */
  function Probe(s: Scan, found: Findings, u: string, check: bool, env: Env): (r: Scan)
    ensures r.(codes := s.codes, found := s.found) == s
    ensures Total(r.codes) == Total(s.codes) + B2N(check && env.probe(u).Some?)
    ensures DistinctCodes(s.codes) ==> DistinctCodes(r.codes)
    ensures r.found.errors == found.errors
  {
    if check then
      match env.probe(u)
      case None =>
        s.(found := found.(info := found.info + [UncheckedUrlPrefix + u]))
      case Some(code) =>
        AddCodeDistinct(s.codes, code);
        s.(codes := AddCode(s.codes, code),
           found := found.(warnings := found.warnings
                             + (if code >= 400 then [UrlReturnsPrefix + IntToString(code) + ColonSeparator + u] else [])))
    else
      s.(found := found)
  }

  /** `str(n)` for any integer. */
  function IntToString(n: int): string {
    if n < 0 then "-" + NatToString(-n) else NatToString(n)
  }

  /** The stripped `loc` of every entry that has one, in order. */
  function Locs(entries: seq<UrlEntry>): (r: seq<string>)
    ensures |r| == Count(entries, HasLoc)
  {
    if |entries| == 0 then []
    else
      var init := entries[..|entries| - 1];
      var e := entries[|entries| - 1];
      assert entries == init + [e];
      CountSnoc(init, e, HasLoc);
      Locs(init) + (if Present(e.loc) then [Strip(e.loc.value)] else [])
  }

  predicate HasLoc(e: UrlEntry) {
    Present(e.loc)
  }

  function InvalidIn(env: Env): UrlEntry -> bool {
    e => Invalid(e, env)
  }

  predicate LacksLoc(e: UrlEntry) {
    !Present(e.loc)
  }

  /** A valid entry carrying the field, for the tallies. */
  function LastmodIn(env: Env): UrlEntry -> bool {
    e => Checked(e, env) && Present(e.lastmod)
  }

  function ChangefreqIn(env: Env): UrlEntry -> bool {
    e => Checked(e, env) && Present(e.changefreq)
  }

  function PriorityIn(env: Env): UrlEntry -> bool {
    e => Checked(e, env) && Present(e.priority)
  }

  /** The distinct members of a list. */
  function SetOf(s: seq<string>): set<string> {
    set u | u in s
  }

  /** The loop over the entries of a URL set. */
  function ScanUrls(entries: seq<UrlEntry>, base: string, checkUrls: bool, env: Env): (s: Scan)
    ensures s.seen == SetOf(Locs(entries))
    ensures s.duplicates == |Locs(entries)| - |s.seen|
    ensures s.invalid == Count(entries, InvalidIn(env))
    ensures s.withLastmod <= |entries| && s.withChangefreq <= |entries| && s.withPriority <= |entries|
    ensures s.invalid + s.withLastmod <= |entries|
    ensures |s.found.errors| == Count(entries, LacksLoc) + s.invalid
    ensures s.withLastmod == Count(entries, LastmodIn(env))
    ensures s.withChangefreq == Count(entries, ChangefreqIn(env))
    ensures s.withPriority == Count(entries, PriorityIn(env))
    ensures DistinctCodes(s.codes)
  {
    if |entries| == 0 then Scan({}, 0, 0, 0, 0, 0, [], Findings([], [], []))
    else
      var init := entries[..|entries| - 1];
      var e := entries[|entries| - 1];
      var prev := ScanUrls(init, base, checkUrls, env);
      assert entries == init + [e];
      CountSnoc(init, e, InvalidIn(env));
      CountSnoc(init, e, LacksLoc);
      CountSnoc(init, e, LastmodIn(env));
      CountSnoc(init, e, ChangefreqIn(env));
      CountSnoc(init, e, PriorityIn(env));
      LocsSnoc(init, e);
      CardAtMostLength(Locs(init));
      StepFieldCounts(prev, |init|, e, base, checkUrls, env);
      Step(prev, |init|, e, base, checkUrls, env)
  }

  /** The errors of each entry, in order. */
  function EntryErrorLists(entries: seq<UrlEntry>, env: Env): (r: seq<seq<string>>)
    ensures |r| == |entries|
    ensures forall i :: 0 <= i < |entries| ==> r[i] == EntryErrors(i, entries[i], env)
  {
    seq(|entries|, i requires 0 <= i < |entries| => EntryErrors(i, entries[i], env))
  }

  /** The loop's errors are exactly the entries' errors, joined in order. */
  lemma {:induction false} ScanUrlsErrors(entries: seq<UrlEntry>, base: string, checkUrls: bool, env: Env)
    ensures ScanUrls(entries, base, checkUrls, env).found.errors == Flatten(EntryErrorLists(entries, env))
  {
    if |entries| > 0 {
      var init := entries[..|entries| - 1];
      var e := entries[|entries| - 1];
      var prev := ScanUrls(init, base, checkUrls, env);
      ScanUrlsErrors(init, base, checkUrls, env);
      assert ScanUrls(entries, base, checkUrls, env) == Step(prev, |init|, e, base, checkUrls, env);
      assert entries == init + [e];
      EntryErrorListsSnoc(init, e, env);
      FlattenSnoc(EntryErrorLists(init, env), EntryErrors(|init|, e, env));
    }
  }

  lemma EntryErrorListsSnoc(init: seq<UrlEntry>, e: UrlEntry, env: Env)
    ensures EntryErrorLists(init + [e], env) == EntryErrorLists(init, env) + [EntryErrors(|init|, e, env)]
  {
    var a := EntryErrorLists(init + [e], env);
    var b := EntryErrorLists(init, env) + [EntryErrors(|init|, e, env)];
    assert |a| == |b|;
    forall i | 0 <= i < |a|
      ensures a[i] == b[i]
    {
      if i < |init| {
        assert (init + [e])[i] == init[i];
      }
    }
  }

  lemma {:induction false} LocsSnoc(init: seq<UrlEntry>, e: UrlEntry)
    ensures !Present(e.loc) ==> Locs(init + [e]) == Locs(init)
    ensures Present(e.loc) ==> Locs(init + [e]) == Locs(init) + [Strip(e.loc.value)]
    ensures Present(e.loc) ==> SetOf(Locs(init + [e])) == SetOf(Locs(init)) + {Strip(e.loc.value)}
    ensures Present(e.loc) ==>
      |SetOf(Locs(init + [e]))| == |SetOf(Locs(init))| + B2N(Strip(e.loc.value) !in Locs(init))
  {
    assert (init + [e])[..|init + [e]| - 1] == init;
    if Present(e.loc) {
      SetOfSnoc(Locs(init), Strip(e.loc.value));
    } else {
      assert Locs(init + [e]) == Locs(init) + [];
    }
  }

  /** Adding one element to a list grows its set of members by one exactly
      when the element is new. */
  lemma {:induction false} SetOfSnoc(s: seq<string>, x: string)
    ensures SetOf(s + [x]) == SetOf(s) + {x}
    ensures |SetOf(s + [x])| == |SetOf(s)| + B2N(x !in s)
  {
    assert SetOf(s + [x]) == SetOf(s) + {x};
    if x in s {
      assert SetOf(s) + {x} == SetOf(s);
    }
  }

  lemma {:induction false} CardAtMostLength(s: seq<string>)
    ensures |SetOf(s)| <= |s|
  {
    if |s| > 0 {
      var init := s[..|s| - 1];
      assert s == init + [s[|s| - 1]];
      CardAtMostLength(init);
      SetOfSnoc(init, s[|s| - 1]);
    }
  }

  /** Only repeats count as duplicates: a sitemap with at least one URL has
      fewer duplicates than URLs. */
  lemma DuplicatesBelowTotal(entries: seq<UrlEntry>, base: string, checkUrls: bool, env: Env)
    requires |entries| > 0
    ensures ScanUrls(entries, base, checkUrls, env).duplicates <= |entries| - 1
  {
    var locs := Locs(entries);
    if |locs| > 0 {
      assert locs[0] in SetOf(locs);
    }
  }

  predicate Anything(u: string) {
    true
  }

  /** A list without repeated locations has no duplicates. */
  lemma NoRepeatsNoDuplicates(entries: seq<UrlEntry>, base: string, checkUrls: bool, env: Env)
    requires Distinct(Locs(entries))
    ensures ScanUrls(entries, base, checkUrls, env).duplicates == 0
  {
    CountDistinctIsCard(Locs(entries), Anything);
    assert Members(Locs(entries), Anything) == SetOf(Locs(entries));
    CountAll(Locs(entries));
  }

  lemma {:induction false} CountAll(s: seq<string>)
    ensures Count(s, Anything) == |s|
  {
    if |s| > 0 {
      CountAll(s[1..]);
    }
  }

  // ------------------------------------------------------ the analysis

  datatype SitemapKind = Unknown | SitemapIndex | UrlSitemap

  datatype UrlStats = UrlStats(
    totalUrls: nat,
    withLastmod: nat,
    withChangefreq: nat,
    withPriority: nat,
    duplicateUrls: nat,
    invalidUrls: nat,
    statusCodes: seq<CodeCount>,
    lastmodTenths: nat,
    changefreqTenths: nat,
    priorityTenths: nat)

  /** `stats`: empty, an index's child count, or the URL-set counters. */
  datatype Stats = NoStats | IndexStats(childSitemaps: nat) | Urls(u: UrlStats)

  datatype AnalysisStatus = Completed | Errored

  datatype Analysis = Analysis(
    url: string,
    status: AnalysisStatus,
    kind: SitemapKind,
    urlsCount: nat,
    findings: Findings,
    stats: Stats,
    recommendations: seq<string>)

  /** `_analyze_sitemap_index`. */
  function AnalyzeIndex(tree: Result<Tree>, env: Env): (r: (nat, Findings, Stats))
    ensures tree.Failure? ==> r == (0, Findings(["XML parsing error: " + tree.error], [], []), NoStats)
    ensures tree.Success? ==> r.0 == |tree.value.sitemaps| && r.2 == IndexStats(|tree.value.sitemaps|)
    ensures tree.Success? && tree.value.sitemaps == [] ==> r.1 == Findings(["No sitemaps found in index"], [], [])
    ensures tree.Success? && tree.value.sitemaps != [] ==> r.1 == IndexFindings(tree.value.sitemaps, env)
  {
    match tree
    case Failure(e) => (0, Findings(["XML parsing error: " + e], [], []), NoStats)
    case Success(t) =>
      var n := |t.sitemaps|;
      if n == 0 then (0, Findings(["No sitemaps found in index"], [], []), IndexStats(0))
      else (n, IndexFindings(t.sitemaps, env), IndexStats(n))
  }

  /** The errors the protocol limits add before the loop. */
  function LimitErrors(count: nat, content: string): (errs: seq<string>)
    ensures |errs| == B2N(count > MaxUrls) + B2N(Utf8Length(content) > MaxSize)
  {
    (if count > MaxUrls then ["Sitemap exceeds 50,000 URL limit (" + NatToString(count) + " URLs)"] else [])
    + (if Utf8Length(content) > MaxSize then ["Sitemap exceeds 50MB size limit"] else [])
  }

  /** The counters and findings of a URL set with at least one entry. */
  function UrlSetReport(content: string, urls: seq<UrlEntry>, base: string, checkUrls: bool, env: Env): (r: (Findings, UrlStats))
    requires |urls| > 0
    ensures r.1.totalUrls == |urls|
    ensures r.1.withLastmod <= |urls| && r.1.withChangefreq <= |urls| && r.1.withPriority <= |urls|
    ensures r.1.duplicateUrls <= |urls| - 1
    ensures r.1.lastmodTenths <= 1000 && r.1.priorityTenths <= 1000
    ensures LimitErrors(|urls|, content) <= r.0.errors
  {
    var n := |urls|;
    var s := ScanUrls(urls, base, checkUrls, env);
    DuplicatesBelowTotal(urls, base, checkUrls, env);
    var stats := UrlStats(n, s.withLastmod, s.withChangefreq, s.withPriority, s.duplicates, s.invalid, s.codes,
                          Tenths(s.withLastmod, n), Tenths(s.withChangefreq, n), Tenths(s.withPriority, n));
    (Findings(LimitErrors(n, content) + s.found.errors, s.found.warnings, s.found.info), stats)
  }

  /** `_analyze_url_sitemap`. */
  function AnalyzeUrls(content: string, tree: Result<Tree>, sitemapUrl: string, checkUrls: bool, env: Env): (r: (nat, Findings, Stats))
    ensures tree.Failure? ==> r == (0, Findings(["XML parsing error: " + tree.error], [], []), NoStats)
    ensures tree.Success? ==> r.0 == |tree.value.urls|
    ensures tree.Success? && tree.value.urls == [] ==> r.1 == Findings(["No URLs found in sitemap"], [], []) && r.2 == NoStats
    ensures tree.Success? && tree.value.urls != [] ==>
      && r.2.Urls?
      && r.2.u.totalUrls == |tree.value.urls|
      && r.2.u.withLastmod <= r.2.u.totalUrls
      && r.2.u.withChangefreq <= r.2.u.totalUrls
      && r.2.u.withPriority <= r.2.u.totalUrls
      && r.2.u.duplicateUrls <= r.2.u.totalUrls - 1
      && r.2.u.lastmodTenths <= 1000 && r.2.u.priorityTenths <= 1000
      && LimitErrors(|tree.value.urls|, content) <= r.1.errors
  {
    match tree
    case Failure(e) => (0, Findings(["XML parsing error: " + e], [], []), NoStats)
    case Success(t) =>
      if |t.urls| == 0 then (0, Findings(["No URLs found in sitemap"], [], []), NoStats)
      else
        var (found, stats) := UrlSetReport(content, t.urls, env.netloc(sitemapUrl), checkUrls, env);
        (|t.urls|, found, Urls(stats))
  }


  /** `analyze`; `fetch` carries the request error when the download fails. */
  function Analyze(sitemapUrl: string, fetch: Fetch<SitemapDoc>, checkUrls: bool, env: Env): (r: Analysis)
    ensures r.url == sitemapUrl
    ensures fetch.FetchFailed? ==>
      r.status == Errored && r.findings.errors == ["Failed to fetch sitemap: " + fetch.reason] && r.recommendations == []
    ensures fetch.Fetched? ==>
      var c := fetch.doc.content;
      && (r.kind == SitemapIndex <==> Contains(c, "<sitemapindex"))
      && (r.kind == UrlSitemap <==> !Contains(c, "<sitemapindex") && Contains(c, "<urlset"))
      && (r.status == Errored <==> r.kind == Unknown)
      && (r.kind == Unknown ==> r.findings.errors == ["Invalid sitemap format"])
      && r.recommendations == Recommendations(r.status, r.kind, r.urlsCount, r.stats)
    ensures fetch.Fetched? && r.kind == SitemapIndex ==>
      (r.urlsCount, r.findings, r.stats) == AnalyzeIndex(fetch.doc.tree, env)
    ensures fetch.Fetched? && r.kind == UrlSitemap ==>
      (r.urlsCount, r.findings, r.stats) == AnalyzeUrls(fetch.doc.content, fetch.doc.tree, sitemapUrl, checkUrls, env)
  {
    match fetch
    case FetchFailed(reason) =>
      Analysis(sitemapUrl, Errored, Unknown, 0, Findings(["Failed to fetch sitemap: " + reason], [], []), NoStats, [])
    case Fetched(doc) =>
      if Contains(doc.content, "<sitemapindex") then
        var (n, f, st) := AnalyzeIndex(doc.tree, env);
        Analysis(sitemapUrl, Completed, SitemapIndex, n, f, st, Recommendations(Completed, SitemapIndex, n, st))
      else if Contains(doc.content, "<urlset") then
        var (n, f, st) := AnalyzeUrls(doc.content, doc.tree, sitemapUrl, checkUrls, env);
        Analysis(sitemapUrl, Completed, UrlSitemap, n, f, st, Recommendations(Completed, UrlSitemap, n, st))
      else
        Analysis(sitemapUrl, Errored, Unknown, 0, Findings(["Invalid sitemap format"], [], []), NoStats,
                 Recommendations(Errored, Unknown, 0, NoStats))
  }

  // -------------------------------------------------- recommendations

  // Advice texts. The "vary" line is written in two parts so that the
  // verifier can read its first letter.
  const EmptySitemapAdvice := "Add URLs to your sitemap"
  const SplitSitemapAdvice := "Consider splitting sitemap (approaching 50,000 URL limit)"
  const NoLastmodAdvice := "Add lastmod dates to more URLs (currently 0%)"
  const LastmodAdvicePrefix := "Add lastmod dates to more URLs (currently "
  const DuplicateAdviceSuffix := " duplicate URLs from sitemap"
  const InvalidAdviceSuffix := " invalid URLs in sitemap"
  const VaryPriorityAdvice := "Vary priority values to indicate " + "relative importance of pages"
  const AddPriorityAdvice := "Consider adding priority values to indicate page importance"
  const UseIndexAdvice := "Consider using a sitemap index for better organization"
  const FixErrorsAdvice := "Fix sitemap errors before proceeding with optimization"
  const StatusCodesSuffix := " status codes"

  function LastmodLine(t: nat): string {
    LastmodAdvicePrefix + PercentText(t) + "%)"
  }

  function DuplicateAdvice(n: nat): string {
    "Remove " + NatToString(n) + DuplicateAdviceSuffix
  }

  function InvalidAdvice(n: nat): string {
    "Fix " + NatToString(n) + InvalidAdviceSuffix
  }

  function CodeLine(c: CodeCount): string {
    "Fix " + NatToString(c.count) + " URLs returning " + IntToString(c.code) + StatusCodesSuffix
  }

  /** The status-code lines, in the order the codes were first seen. */
  function CodeRecommendations(codes: seq<CodeCount>): (r: seq<string>)
    ensures |r| == Count(codes, ClientOrServerError)
    ensures forall c :: c in codes && ClientOrServerError(c) ==> CodeLine(c) in r
    ensures forall m :: m in r ==> exists c :: c in codes && ClientOrServerError(c) && m == CodeLine(c)
  {
    if |codes| == 0 then []
    else
      (if codes[0].code >= 400 then [CodeLine(codes[0])] else [])
      + CodeRecommendations(codes[1..])
  }

  predicate ClientOrServerError(c: CodeCount) {
    c.code >= 400
  }

  /** `stats.get(...)` with the defaults the recommendations use. */
  function LastmodShare(st: Stats): Option<nat> {
    if st.Urls? then Some(st.u.lastmodTenths) else None
  }

  function PriorityTenths(st: Stats): nat {
    if st.Urls? then st.u.priorityTenths else 0
  }

  /** The advice on the number of URLs. */
  function CountAdvice(urlsCount: nat): (r: seq<string>)
    ensures |r| == B2N(urlsCount == 0 || urlsCount > 45000)
    ensures urlsCount == 0 ==> r == [EmptySitemapAdvice]
    ensures urlsCount > 45000 ==> r == [SplitSitemapAdvice]
  {
    if urlsCount == 0 then [EmptySitemapAdvice]
    else if urlsCount > 45000 then [SplitSitemapAdvice]
    else []
  }

  /** The advice on `lastmod` coverage; a sitemap without URL counters
      reads as 0%. */
  function LastmodAdvice(st: Stats): (r: seq<string>)
    ensures |r| == B2N(LastmodShare(st).GetOr(0) < 500)
    ensures LastmodShare(st).None? ==> r == [NoLastmodAdvice]
    ensures st.Urls? && st.u.lastmodTenths < 500 ==> r == [LastmodLine(st.u.lastmodTenths)]
  {
    match LastmodShare(st)
    case None => [NoLastmodAdvice]
    case Some(t) => if t < 500 then [LastmodLine(t)] else []
  }

  /** The advice on duplicate and invalid URLs and on error status codes. */
  function CleanupAdvice(st: Stats): (r: seq<string>)
    ensures !st.Urls? ==> r == []
    ensures st.Urls? ==>
      |r| == B2N(st.u.duplicateUrls > 0) + B2N(st.u.invalidUrls > 0) + Count(st.u.statusCodes, ClientOrServerError)
    ensures st.Urls? && st.u.duplicateUrls > 0 ==> DuplicateAdvice(st.u.duplicateUrls) in r
    ensures st.Urls? && st.u.invalidUrls > 0 ==> InvalidAdvice(st.u.invalidUrls) in r
    ensures st.Urls? ==> forall c :: c in st.u.statusCodes && ClientOrServerError(c) ==> CodeLine(c) in r
  {
    if !st.Urls? then []
    else
      (if st.u.duplicateUrls > 0 then [DuplicateAdvice(st.u.duplicateUrls)] else [])
      + (if st.u.invalidUrls > 0 then [InvalidAdvice(st.u.invalidUrls)] else [])
      + CodeRecommendations(st.u.statusCodes)
  }

  /** The advice on priorities: every URL has one, or none has. */
  function PriorityAdvice(st: Stats): (r: seq<string>)
    ensures |r| == B2N(PriorityTenths(st) == 1000 || PriorityTenths(st) == 0)
    ensures PriorityTenths(st) == 1000 ==> r == [VaryPriorityAdvice]
    ensures PriorityTenths(st) == 0 ==> r == [AddPriorityAdvice]
  {
    if PriorityTenths(st) == 1000 then [VaryPriorityAdvice]
    else if PriorityTenths(st) == 0 then [AddPriorityAdvice]
    else []
  }

  /** The advice to move a large URL set into an index. */
  function IndexAdvice(kind: SitemapKind, urlsCount: nat): (r: seq<string>)
    ensures |r| == B2N(kind == UrlSitemap && urlsCount > 10000)
    ensures kind == UrlSitemap && urlsCount > 10000 ==> r == [UseIndexAdvice]
  {
    if kind == UrlSitemap && urlsCount > 10000 then [UseIndexAdvice] else []
  }

  /** No line but the priority advice is the "vary" suggestion. */
  lemma OnlyPriorityAdviceVaries(kind: SitemapKind, urlsCount: nat, st: Stats)
    ensures VaryPriorityAdvice !in CountAdvice(urlsCount) + LastmodAdvice(st) + CleanupAdvice(st)
    ensures VaryPriorityAdvice !in IndexAdvice(kind, urlsCount)
    ensures PriorityTenths(st) != 1000 ==> VaryPriorityAdvice !in PriorityAdvice(st)
  {
    var v := VaryPriorityAdvice;
    assert |v| == 61 && v[0] == 'V';
    assert |EmptySitemapAdvice| == 24 && |SplitSitemapAdvice| == 57 && |NoLastmodAdvice| == 45;
    assert |UseIndexAdvice| == 54 && |AddPriorityAdvice| == 59;
    if st.Urls? {
      assert LastmodAdvicePrefix[0] == 'A';
      assert LastmodLine(st.u.lastmodTenths)[0] == 'A';
      assert DuplicateAdvice(st.u.duplicateUrls)[0] == 'R';
      assert InvalidAdvice(st.u.invalidUrls)[0] == 'F';
      forall c | c in st.u.statusCodes
        ensures CodeLine(c) != v
      {
        assert CodeLine(c)[0] == 'F';
      }
    }
  }

  /** `_generate_recommendations`. */
  function Recommendations(status: AnalysisStatus, kind: SitemapKind, urlsCount: nat, st: Stats): (r: seq<string>)
    ensures status == Errored ==> r == [FixErrorsAdvice]
    ensures status == Completed ==>
      |r| == B2N(urlsCount == 0 || urlsCount > 45000)
             + B2N(LastmodShare(st).GetOr(0) < 500)
             + B2N(st.Urls? && st.u.duplicateUrls > 0)
             + B2N(st.Urls? && st.u.invalidUrls > 0)
             + (if st.Urls? then Count(st.u.statusCodes, ClientOrServerError) else 0)
             + B2N(PriorityTenths(st) == 1000 || PriorityTenths(st) == 0)
             + B2N(kind == UrlSitemap && urlsCount > 10000)
    ensures status == Completed && urlsCount == 0 ==> EmptySitemapAdvice in r
    ensures status == Completed && urlsCount > 45000 ==> SplitSitemapAdvice in r
    ensures status == Completed && st.Urls? && st.u.lastmodTenths < 500 ==> LastmodLine(st.u.lastmodTenths) in r
    ensures status == Completed && st.Urls? && st.u.duplicateUrls > 0 ==> DuplicateAdvice(st.u.duplicateUrls) in r
    ensures status == Completed && st.Urls? && st.u.invalidUrls > 0 ==> InvalidAdvice(st.u.invalidUrls) in r
    ensures status == Completed && st.Urls? ==>
      forall c :: c in st.u.statusCodes && ClientOrServerError(c) ==> CodeLine(c) in r
    ensures status == Completed ==> (VaryPriorityAdvice in r <==> PriorityTenths(st) == 1000)
    ensures status == Completed && PriorityTenths(st) == 0 ==> AddPriorityAdvice in r
    ensures status == Completed && kind == UrlSitemap && urlsCount > 10000 ==> UseIndexAdvice in r
  {
    if status == Errored then [FixErrorsAdvice]
    else
      var head := CountAdvice(urlsCount) + LastmodAdvice(st) + CleanupAdvice(st);
      var prio := PriorityAdvice(st);
      var tail := IndexAdvice(kind, urlsCount);
      OnlyPriorityAdviceVaries(kind, urlsCount, st);
      assert |head| == |CountAdvice(urlsCount)| + |LastmodAdvice(st)| + |CleanupAdvice(st)|;
      var r := head + prio + tail;
      assert |r| == |head| + |prio| + |tail|;
      r
  }

  /** A URL set in which every entry has a valid location and a priority
      gets the "vary priority" advice and not the "add priority" one. */
  lemma AllPrioritiesVary(content: string, t: Tree, sitemapUrl: string, checkUrls: bool, env: Env)
    requires t.urls != []
    requires forall i :: 0 <= i < |t.urls| ==> Checked(t.urls[i], env) && Present(t.urls[i].priority)
    ensures var (n, f, st) := AnalyzeUrls(content, Success(t), sitemapUrl, checkUrls, env);
      VaryPriorityAdvice in Recommendations(Completed, UrlSitemap, n, st)
  {
    AllPrioritiesCounted(t.urls, env.netloc(sitemapUrl), checkUrls, env);
  }

  lemma {:induction false} AllPrioritiesCounted(entries: seq<UrlEntry>, base: string, checkUrls: bool, env: Env)
    requires forall i :: 0 <= i < |entries| ==> Checked(entries[i], env) && Present(entries[i].priority)
    ensures ScanUrls(entries, base, checkUrls, env).withPriority == |entries|
  {
    if |entries| > 0 {
      var init := entries[..|entries| - 1];
      assert forall i :: 0 <= i < |init| ==> init[i] == entries[i];
      AllPrioritiesCounted(init, base, checkUrls, env);
    }
  }

  // ---------------------------------------------------- find_sitemaps

  const CommonPaths: seq<string> := [
    "/sitemap.xml", "/sitemap_index.xml", "/sitemap-index.xml", "/sitemaps/sitemap.xml",
    "/sitemap/", "/sitemap.xml.gz", "/sitemap_index.xml.gz", "/wp-sitemap.xml",
    "/news-sitemap.xml", "/video-sitemap.xml", "/image-sitemap.xml", "/mobile-sitemap.xml"]

  /** The domain as a URL: `https://` is put in front when no scheme is given. */
  function SiteRoot(domain: string): (r: string)
    ensures IsAbsolute(r)
    ensures IsAbsolute(domain) ==> r == domain
  {
    if IsAbsolute(domain) then domain
    else
      assert ("https://" + domain)[..8] == "https://";
      "https://" + domain
  }

  predicate IsSitemapLine(line: string) {
    StartsWith(Lower(line), "sitemap:")
  }

  /** In a `Sitemap:` line the first colon is the eighth character, so
      `line.split(':', 1)[1]` is everything after it. */
  lemma SitemapLineColon(line: string)
    requires IsSitemapLine(line)
    ensures ':' in line && IndexOf(line, ':') == 7
  {
    assert Lower(line)[..8] == "sitemap:";
    forall k | 0 <= k < 8 ensures LowerChar(line[k]) == "sitemap:"[k] {
      assert Lower(line)[k] == LowerChar(line[k]);
    }
    assert line[7] == ':';
    assert ':' !in line[..7];
  }

  /** `line.split(':', 1)[1].strip()` of a `Sitemap:` line. */
  function SitemapLineUrl(line: string): string
    requires IsSitemapLine(line)
  {
    SitemapLineColon(line);
    Strip(line[IndexOf(line, ':') + 1..])
  }

  /** The URLs the `Sitemap:` lines of robots.txt name, in order. */
  function RobotsSitemaps(lines: seq<string>): (r: seq<string>)
    ensures |r| == Count(lines, IsSitemapLine)
  {
    if |lines| == 0 then []
    else (if IsSitemapLine(lines[0]) then [SitemapLineUrl(lines[0])] else []) + RobotsSitemaps(lines[1..])
  }

  /** The sitemap URLs robots.txt names; none when it was not served. */
  function RobotsUrls(robots: Option<string>): seq<string> {
    if robots.Some? then RobotsSitemaps(Lines(robots.value)) else []
  }

  /** `for x in xs: if x not in acc: acc.append(x)` */
  function AppendNew(acc: seq<string>, xs: seq<string>): (r: seq<string>)
    ensures acc <= r
    ensures forall x :: x in r <==> x in acc || x in xs
    ensures Distinct(acc) ==> Distinct(r)
    decreases |xs|
  {
    if |xs| == 0 then acc
    else
      var next := if xs[0] in acc then acc else acc + [xs[0]];
      assert Distinct(acc) && xs[0] !in acc ==> Distinct(acc + [xs[0]]);
      var r := AppendNew(next, xs[1..]);
      assert r[..|acc|] == r[..|next|][..|acc|];
      assert forall x :: x in xs <==> x == xs[0] || x in xs[1..];
      r
  }

  /** The well-known path URLs that answered 200 to a HEAD request. */
  function ProbedSitemaps(root: string, join: (string, string) -> string, headOk: string -> bool, paths: seq<string>): (r: seq<string>)
    ensures forall x :: x in r <==> headOk(x) && exists i :: 0 <= i < |paths| && x == join(root, paths[i])
  {
    if |paths| == 0 then []
    else
      var u := join(root, paths[0]);
      (if headOk(u) then [u] else []) + ProbedSitemaps(root, join, headOk, paths[1..])
  }

  /** `find_sitemaps`. `robots` is the body of robots.txt when it was served
      with status 200; `join` is `urljoin` and `headOk` whether a HEAD request
      answered 200. */
  function FindSitemaps(domain: string, robots: Option<string>, join: (string, string) -> string,
                        headOk: string -> bool): (r: seq<string>)
    ensures Distinct(r)
    ensures AppendNew([], RobotsUrls(robots)) <= r
    ensures forall x :: x in r <==> x in RobotsUrls(robots) || x in ProbedSitemaps(SiteRoot(domain), join, headOk, CommonPaths)
  {
    var root := SiteRoot(domain);
    var fromRobots := RobotsUrls(robots);
    var first := AppendNew([], fromRobots);
    var r := AppendNew(first, ProbedSitemaps(root, join, headOk, CommonPaths));
    r
  }

  /** Every robots.txt entry comes before every probed path that is not
      also named in robots.txt. */
  lemma RobotsEntriesFirst(domain: string, robots: string, join: (string, string) -> string,
                           headOk: string -> bool)
    ensures var r := FindSitemaps(domain, Some(robots), join, headOk);
      forall i, j :: (0 <= i < |r| && 0 <= j < |r| && r[i] in RobotsSitemaps(Lines(robots))
                      && r[j] !in RobotsSitemaps(Lines(robots))) ==> i < j
  {
    var fromRobots := RobotsSitemaps(Lines(robots));
    var first := AppendNew([], fromRobots);
    var r := FindSitemaps(domain, Some(robots), join, headOk);
    forall i, j | 0 <= i < |r| && 0 <= j < |r| && r[i] in fromRobots && r[j] !in fromRobots
      ensures i < j
    {
      PrefixComesFirst(first, r, i, j);
    }
  }

  /** In a list without repeats that starts with `first`, a member of
      `first` sits before anything outside it. */
  lemma PrefixComesFirst(first: seq<string>, r: seq<string>, i: nat, j: nat)
    requires Distinct(r) && first <= r
    requires i < |r| && j < |r| && r[i] in first && r[j] !in first
    ensures i < j
  {
    var k :| 0 <= k < |first| && first[k] == r[i];
    assert r[k] == r[i];
    assert j >= |first|;
  }
}

=== FILE: technical_audit.dfy ===
/** The technical-audit rule engine: eight independent checks over a parsed
    page, each returning ok / warning / error, and the tally that turns their
    statuses into critical / warnings / passed counts and a percentage. */
module TechnicalAudit {
  import opened Common
  import opened Text
  import opened PyJson

  // Recommendation texts, as the auditor words them.
  const AddTitleAdvice := "Add a unique, descriptive title tag to the page"
  const ShortTitlePrefix := "Title is too short ("
  const ShortTitleSuffix := " chars). Aim for 30-60 characters."
  const LongTitlePrefix := "Title is too long ("
  const LongTitleSuffix := " chars). Keep it under 60 characters."
  const GenericTitleAdvice := "Title appears to be generic. Make it unique and descriptive."
  const AddDescriptionAdvice := "Add a compelling meta description that summarizes the page content"
  const ShortDescriptionPrefix := "Description is too short ("
  const ShortDescriptionSuffix := " chars). Aim for 120-160 characters."
  const LongDescriptionPrefix := "Description is too long ("
  const LongDescriptionSuffix := " chars). Keep it under 160 characters."
  const DuplicateDescriptionAdvice := "Meta description is identical to title. Make it unique."
  const NoH1Advice := "No H1 tag found. Add exactly one H1 tag."
  const MultipleH1Prefix := "Multiple H1 tags found ("
  const MultipleH1Suffix := "). Use only one H1 per page."
  const MissingAltAdvice := " images missing alt attributes. Add descriptive alt text."
  const EmptyAltAdvice := " images have empty alt attributes. Add meaningful descriptions."
  const DimensionsAdvice := " images missing width/height. Add dimensions to prevent CLS."
  const HierarchyAdvice := "H3 tags found without H2. Maintain proper heading hierarchy."
  const NoCanonicalAdvice := "No canonical URL found. Add canonical tag to prevent duplicate content issues."
  const EmptyCanonicalAdvice := "Canonical tag found but href is empty."
  const RelativeCanonicalAdvice := "Canonical URL should be absolute, not relative."
  const RobotsDefault := "Not specified (defaults to index, follow)"
  const NoindexAdvice := "Page is set to noindex. Ensure this is intentional."
  const NofollowAdvice := "Page is set to nofollow. This prevents link equity flow."
  const InvalidJsonLdAdvice := "Invalid JSON-LD structured data found."
  const NoSchemaAdvice := "No structured data found. Add schema markup to enhance search appearance."
  const UnguardedLinkAdvice := "Some external links missing rel=\"nofollow\" or rel=\"noopener\"."

  datatype Status = Ok | Warning | Error

  /** A `<meta>` element; `content` is its `content` attribute if present. */
  datatype MetaTag = MetaTag(content: Option<string>)

  /** An `<img>` element's `alt`, `width` and `height` attributes. */
  datatype Image = Image(alt: Option<string>, width: Option<string>, height: Option<string>)

  /** The first `<link rel="canonical">` element. */
  datatype LinkTag = LinkTag(href: Option<string>)

  /** An `<a>` element that carries an `href` attribute, with its `rel` tokens. */
  datatype Anchor = Anchor(href: string, rel: seq<string>)

  /** The text of every `<h1>` ... `<h6>` element, per level, in document order. */
  datatype Headings = Headings(h1: seq<string>, h2: seq<string>, h3: seq<string>,
                               h4: seq<string>, h5: seq<string>, h6: seq<string>)
  {
    function Levels(): seq<seq<string>> {
      [h1, h2, h3, h4, h5, h6]
    }
  }

  /** What the checks read from the parsed document. `title` is the text of
      the first `<title>`; `description` and `robots` are the first
      `<meta name="description">` and `<meta name="robots">`. */
  datatype Page = Page(
    title: Option<string>,
    description: Option<MetaTag>,
    headings: Headings,
    images: seq<Image>,
    canonical: Option<LinkTag>,
    robots: Option<MetaTag>,
    ldScripts: seq<LdScript>,
    anchors: seq<Anchor>)

  /** The parts of the response and of the libraries the checks call:
      `finalHost` is the network location of the URL after redirects,
      `hostOf(h)` the network location of `h` resolved against that URL, and
      `decode` is the JSON decoder. */
  datatype Env = Env(finalHost: string, hostOf: string -> string, decode: Decoder)

  /** Count and first five (stripped) texts of one heading level. */
  datatype HeadingLevel = HeadingLevel(count: nat, content: seq<string>)

  /** The check-specific fields of a result. */
  datatype Detail =
    | TitleMissing
    | TitleDetail(content: string, length: nat)
    | DescriptionMissing
    | DescriptionDetail(content: string, length: nat)
    | HeadingDetail(structure: seq<HeadingLevel>)
    | ImageDetail(totalImages: nat, missingAlt: nat, emptyAlt: nat, missingDimensions: nat)
    | CanonicalDetail(canonicalUrl: Option<string>)
    | RobotsDetail(content: string)
    | SchemaDetail(typesFound: seq<Json>)
    | LinkDetail(totalLinks: nat, internalLinks: nat, externalLinks: nat)

  /** One check's result. */
  datatype Report = Report(status: Status, recommendations: seq<string>, detail: Detail)

  // ---------------------------------------------------------------- title

  const GenericTitles: seq<string> := ["untitled", "home", "index"]

  function CheckTitle(title: Option<string>): (r: Report)
    ensures title.None? ==> r.status == Error && r.detail == TitleMissing
    ensures title.Some? ==>
      var t := Strip(title.value);
      && r.detail == TitleDetail(t, |t|)
      && (r.status == Ok <==> 30 <= |t| <= 60 && Lower(t) !in GenericTitles)
      && (r.status == Error <==> Lower(t) in GenericTitles)
      && |r.recommendations| == B2N(|t| < 30 || 60 < |t|) + B2N(Lower(t) in GenericTitles)
  {
    match title
    case None => Report(Error, [AddTitleAdvice], TitleMissing)
    case Some(raw) =>
      var t := Strip(raw);
      var n := |t|;
      var lengthRecs :=
        if n < 30 then [ShortTitlePrefix + NatToString(n) + ShortTitleSuffix]
        else if n > 60 then [LongTitlePrefix + NatToString(n) + LongTitleSuffix]
        else [];
      var status := if lengthRecs != [] then Warning else Ok;
      if Lower(t) in GenericTitles then
        Report(Error, lengthRecs + [GenericTitleAdvice], TitleDetail(t, n))
      else
        Report(status, lengthRecs, TitleDetail(t, n))
  }

  /** The generic titles are all shorter than 30 characters, so the generic
      rule always overrides a length warning rather than an ok. */
  lemma GenericTitleOverridesWarning(raw: string)
    requires Lower(Strip(raw)) in GenericTitles
    ensures CheckTitle(Some(raw)).status == Error
    ensures |Strip(raw)| < 30
    ensures |CheckTitle(Some(raw)).recommendations| == 2
  {
    var l := Lower(Strip(raw));
    assert |l| <= 8 by {
      assert l == GenericTitles[0] || l == GenericTitles[1] || l == GenericTitles[2];
    }
    assert |l| == |Strip(raw)|;
  }

  // --------------------------------------------------------- description

  function CheckMetaDescription(description: Option<MetaTag>, title: Option<string>): (r: Report)
    ensures (description.None? || !Present(description.value.content)) ==>
      r.status == Error && r.detail == DescriptionMissing
    ensures description.Some? && Present(description.value.content) ==>
      var d := Strip(description.value.content.value);
      var same := title.Some? && d == Strip(title.value);
      && r.detail == DescriptionDetail(d, |d|)
      && (r.status == Error <==> same)
      && (r.status == Ok <==> 120 <= |d| <= 160 && !same)
      && |r.recommendations| == B2N(|d| < 120 || 160 < |d|) + B2N(same)
  {
    if description.None? || !Present(description.value.content) then
      Report(Error, [AddDescriptionAdvice], DescriptionMissing)
    else
      var d := Strip(description.value.content.value);
      var n := |d|;
      var lengthRecs :=
        if n < 120 then [ShortDescriptionPrefix + NatToString(n) + ShortDescriptionSuffix]
        else if n > 160 then [LongDescriptionPrefix + NatToString(n) + LongDescriptionSuffix]
        else [];
      var status := if lengthRecs != [] then Warning else Ok;
      if title.Some? && d == Strip(title.value) then
        Report(Error, lengthRecs + [DuplicateDescriptionAdvice], DescriptionDetail(d, n))
      else
        Report(status, lengthRecs, DescriptionDetail(d, n))
  }

  /** Only the presence of the attribute is tested before stripping: a
      content of blanks is not "missing" but a too-short description. */
  lemma BlankDescriptionIsShort(content: string)
    requires content != "" && Strip(content) == ""
    ensures CheckMetaDescription(Some(MetaTag(Some(content))), None).status == Warning
    ensures CheckMetaDescription(Some(MetaTag(Some(content))), None).detail == DescriptionDetail("", 0)
  {
  }

  // ------------------------------------------------------------- headings

  function Summarize(texts: seq<string>): (h: HeadingLevel)
    ensures h.count == |texts|
    ensures |h.content| == if |texts| < 5 then |texts| else 5
    ensures forall i :: 0 <= i < |h.content| ==> h.content[i] == Strip(texts[i])
  {
    var k := if |texts| < 5 then |texts| else 5;
    HeadingLevel(|texts|, seq(k, i requires 0 <= i < k => Strip(texts[i])))
  }

  function CheckHeadings(h: Headings): (r: Report)
    ensures r.detail.HeadingDetail? && |r.detail.structure| == 6
    ensures forall k :: 0 <= k < 6 ==> r.detail.structure[k].count == |h.Levels()[k]|
    ensures var skipped := |h.h3| > 0 && |h.h2| == 0;
      && (r.status == Error <==> |h.h1| == 0 && !skipped)
      && (r.status == Ok <==> |h.h1| == 1 && !skipped)
      && (skipped ==> r.status == Warning)
  {
    var structure := seq(6, k requires 0 <= k < 6 => Summarize(h.Levels()[k]));
    var n1 := |h.h1|;
    var (status, recs) :=
      if n1 == 0 then (Error, [NoH1Advice])
      else if n1 > 1 then (Warning, [MultipleH1Prefix + NatToString(n1) + MultipleH1Suffix])
      else (Ok, []);
    if |h.h3| > 0 && |h.h2| == 0 then
      Report(Warning, recs + [HierarchyAdvice], HeadingDetail(structure))
    else
      Report(status, recs, HeadingDetail(structure))
  }

  // --------------------------------------------------------------- images

  predicate MissingAlt(img: Image) {
    img.alt.None?
  }

  predicate EmptyAlt(img: Image) {
    img.alt.Some? && Strip(img.alt.value) == ""
  }

  /** `not (img.get('width') and img.get('height'))` */
  predicate MissingDimensions(img: Image) {
    !(Present(img.width) && Present(img.height))
  }

  datatype ImageTally = ImageTally(missingAlt: nat, emptyAlt: nat, missingDimensions: nat)

  /** The counters of the image loop after the images of `imgs`. */
  function TallyImages(imgs: seq<Image>): (t: ImageTally)
    ensures t.missingAlt + t.emptyAlt <= |imgs|
    ensures t.missingDimensions <= |imgs|
  {
    if |imgs| == 0 then ImageTally(0, 0, 0)
    else
      var t := TallyImages(imgs[..|imgs| - 1]);
      var img := imgs[|imgs| - 1];
      ImageTally(t.missingAlt + B2N(MissingAlt(img)),
                 t.emptyAlt + B2N(EmptyAlt(img)),
                 t.missingDimensions + B2N(MissingDimensions(img)))
  }

  lemma {:induction false} MissingAltCounted(imgs: seq<Image>)
    ensures TallyImages(imgs).missingAlt == Count(imgs, MissingAlt)
  {
    if |imgs| > 0 {
      var init := imgs[..|imgs| - 1];
      MissingAltCounted(init);
      assert imgs == init + [imgs[|imgs| - 1]];
      CountSnoc(init, imgs[|imgs| - 1], MissingAlt);
    }
  }

  lemma {:induction false} EmptyAltCounted(imgs: seq<Image>)
    ensures TallyImages(imgs).emptyAlt == Count(imgs, EmptyAlt)
  {
    if |imgs| > 0 {
      var init := imgs[..|imgs| - 1];
      EmptyAltCounted(init);
      assert imgs == init + [imgs[|imgs| - 1]];
      CountSnoc(init, imgs[|imgs| - 1], EmptyAlt);
    }
  }

  lemma {:induction false} MissingDimensionsCounted(imgs: seq<Image>)
    ensures TallyImages(imgs).missingDimensions == Count(imgs, MissingDimensions)
  {
    if |imgs| > 0 {
      var init := imgs[..|imgs| - 1];
      MissingDimensionsCounted(init);
      assert imgs == init + [imgs[|imgs| - 1]];
      CountSnoc(init, imgs[|imgs| - 1], MissingDimensions);
    }
  }

  /** The loop's counters are the numbers of images with each defect. */
  lemma {:induction false} TallyImagesCounts(imgs: seq<Image>)
    ensures TallyImages(imgs).missingAlt == Count(imgs, MissingAlt)
    ensures TallyImages(imgs).emptyAlt == Count(imgs, EmptyAlt)
    ensures TallyImages(imgs).missingDimensions == Count(imgs, MissingDimensions)
  {
    MissingAltCounted(imgs);
    EmptyAltCounted(imgs);
    MissingDimensionsCounted(imgs);
  }

  function CheckImages(imgs: seq<Image>): (r: Report)
    ensures r.detail.ImageDetail? && r.detail.totalImages == |imgs|
    ensures r.detail.missingAlt + r.detail.emptyAlt <= r.detail.totalImages
    ensures r.status == Error <==> exists i :: 0 <= i < |imgs| && MissingAlt(imgs[i])
    ensures r.status == Ok <==>
      forall i :: 0 <= i < |imgs| ==> !MissingAlt(imgs[i]) && !EmptyAlt(imgs[i]) && !MissingDimensions(imgs[i])
  {
    var t := TallyImages(imgs);
    TallyImagesCounts(imgs);
    CountPositive(imgs, MissingAlt);
    CountPositive(imgs, EmptyAlt);
    CountPositive(imgs, MissingDimensions);
    var altRecs :=
      if t.missingAlt > 0 then [NatToString(t.missingAlt) + MissingAltAdvice] else [];
    var emptyRecs :=
      if t.emptyAlt > 0 then [NatToString(t.emptyAlt) + EmptyAltAdvice] else [];
    var dimRecs :=
      if t.missingDimensions > 0 then [NatToString(t.missingDimensions) + DimensionsAdvice] else [];
    var status :=
      if t.missingAlt > 0 then Error
      else if t.emptyAlt > 0 || t.missingDimensions > 0 then Warning
      else Ok;
    Report(status, altRecs + emptyRecs + dimRecs,
           ImageDetail(|imgs|, t.missingAlt, t.emptyAlt, t.missingDimensions))
  }

  // ------------------------------------------------------------ canonical

  predicate IsAbsolute(u: string) {
    StartsWith(u, "http://") || StartsWith(u, "https://")
  }

  function CheckCanonical(canonical: Option<LinkTag>): (r: Report)
    ensures r.detail.CanonicalDetail?
    ensures canonical.None? ==> r.status == Warning && r.detail.canonicalUrl.None?
    ensures canonical.Some? ==>
      var href := canonical.value.href.GetOr("");
      && r.detail.canonicalUrl == Some(href)
      && (r.status == Error <==> href == "")
      && (r.status == Ok <==> IsAbsolute(href))
  {
    match canonical
    case None =>
      Report(Warning, [NoCanonicalAdvice], CanonicalDetail(None))
    case Some(tag) =>
      var href := tag.href.GetOr("");
      if href == "" then
        Report(Error, [EmptyCanonicalAdvice], CanonicalDetail(Some(href)))
      else if !IsAbsolute(href) then
        Report(Warning, [RelativeCanonicalAdvice], CanonicalDetail(Some(href)))
      else
        Report(Ok, [], CanonicalDetail(Some(href)))
  }

  // --------------------------------------------------------------- robots

  function CheckRobotsMeta(robots: Option<MetaTag>): (r: Report)
    ensures r.status != Error
    ensures robots.None? ==> r.status == Ok && r.recommendations == []
    ensures robots.Some? ==>
      var c := Lower(robots.value.content.GetOr(""));
      && r.detail == RobotsDetail(c)
      && (r.status == Warning <==> Contains(c, "noindex") || Contains(c, "nofollow"))
      && |r.recommendations| == B2N(Contains(c, "noindex")) + B2N(Contains(c, "nofollow"))
  {
    match robots
    case None => Report(Ok, [], RobotsDetail(RobotsDefault))
    case Some(tag) =>
      var c := Lower(tag.content.GetOr(""));
      var noindex := if Contains(c, "noindex") then [NoindexAdvice] else [];
      var nofollow := if Contains(c, "nofollow") then [NofollowAdvice] else [];
      Report(if noindex + nofollow != [] then Warning else Ok, noindex + nofollow, RobotsDetail(c))
  }

  // --------------------------------------------------------------- schema

  /** Whether handling one JSON-LD block raises `TypeError`: `json.loads` of
      a missing string, `'@type' in` a scalar, or subscripting a list or a
      string that `'@type' in` accepted. */
  predicate BlockRaises(s: LdScript, decode: Decoder) {
    s.text.None? ||
    (var d := decode(s.text.value);
     d.Success? && (In("@type", d.value).None? || (In("@type", d.value) == Some(true) && !d.value.JObj?)))
  }

  predicate BlockMalformed(s: LdScript, decode: Decoder) {
    s.text.Some? && decode(s.text.value).Failure?
  }

  /** The `@type` a well-formed block contributes, if any. */
  function BlockType(s: LdScript, decode: Decoder): seq<Json> {
    if s.text.Some? && decode(s.text.value).Success? && decode(s.text.value).value.JObj?
       && "@type" in decode(s.text.value).value.fields
    then [decode(s.text.value).value.fields["@type"]]
    else []
  }

  /** Whether a block contributes its `@type`. */
  function TypedIn(decode: Decoder): LdScript -> bool {
    s => BlockType(s, decode) != []
  }

  function MalformedIn(decode: Decoder): LdScript -> bool {
    s => BlockMalformed(s, decode)
  }

  datatype SchemaScan = SchemaScan(malformed: bool, recs: seq<string>, types: seq<Json>)

  /** The loop over the blocks; `None` once one of them raises. */
  function ScanBlocks(scripts: seq<LdScript>, decode: Decoder): (r: Option<SchemaScan>)
    ensures r.None? <==> exists i :: 0 <= i < |scripts| && BlockRaises(scripts[i], decode)
    ensures r.Some? ==> (r.value.malformed <==> exists i :: 0 <= i < |scripts| && BlockMalformed(scripts[i], decode))
  {
    if |scripts| == 0 then Some(SchemaScan(false, [], []))
    else
      var prev := ScanBlocks(scripts[..|scripts| - 1], decode);
      var s := scripts[|scripts| - 1];
      assert forall i :: 0 <= i < |scripts| - 1 ==> scripts[..|scripts| - 1][i] == scripts[i];
      if prev.None? || BlockRaises(s, decode) then None
      else if BlockMalformed(s, decode) then
        Some(SchemaScan(true, prev.value.recs + [InvalidJsonLdAdvice], prev.value.types))
      else
        Some(SchemaScan(prev.value.malformed, prev.value.recs, prev.value.types + BlockType(s, decode)))
  }

  /** A completed scan holds one type per block that has one, and one
      invalid-JSON recommendation per malformed block. */
  lemma {:induction false} ScanBlocksCounts(scripts: seq<LdScript>, decode: Decoder)
    requires ScanBlocks(scripts, decode).Some?
    ensures |ScanBlocks(scripts, decode).value.types| == Count(scripts, TypedIn(decode))
    ensures |ScanBlocks(scripts, decode).value.recs| == Count(scripts, MalformedIn(decode))
    ensures forall j :: 0 <= j < |ScanBlocks(scripts, decode).value.recs| ==>
      ScanBlocks(scripts, decode).value.recs[j] == InvalidJsonLdAdvice
  {
    if |scripts| > 0 {
      var init := scripts[..|scripts| - 1];
      var s := scripts[|scripts| - 1];
      assert scripts == init + [s];
      ScanBlocksCounts(init, decode);
      CountSnoc(init, s, TypedIn(decode));
      CountSnoc(init, s, MalformedIn(decode));
    }
  }

  /** `None` stands for the `TypeError` that escapes the check. */
  function CheckSchema(scripts: seq<LdScript>, decode: Decoder): (r: Option<Report>)
    ensures r.None? <==> exists i :: 0 <= i < |scripts| && BlockRaises(scripts[i], decode)
    ensures r.Some? ==> r.value.status != Warning || scripts == []
    ensures r.Some? ==> (r.value.status == Error <==> exists i :: 0 <= i < |scripts| && BlockMalformed(scripts[i], decode))
    ensures r.Some? && scripts == [] ==> r.value.status == Warning
    ensures r.Some? && scripts != [] ==>
      && r.value.detail.SchemaDetail?
      && |r.value.detail.typesFound| == Count(scripts, TypedIn(decode))
      && |r.value.recommendations| == Count(scripts, MalformedIn(decode))
  {
    if |scripts| == 0 then
      Some(Report(Warning, [NoSchemaAdvice], SchemaDetail([])))
    else
      match ScanBlocks(scripts, decode)
      case None => None
      case Some(scan) =>
        ScanBlocksCounts(scripts, decode);
        Some(Report(if scan.malformed then Error else Ok, scan.recs, SchemaDetail(scan.types)))
  }

  // ---------------------------------------------------------------- links

  /** Empty hrefs and in-page fragments are skipped. */
  predicate Skipped(a: Anchor) {
    a.href == "" || StartsWith(a.href, "#")
  }

  predicate External(a: Anchor, env: Env) {
    !Skipped(a) && env.hostOf(a.href) != env.finalHost && env.hostOf(a.href) != ""
  }

  predicate Internal(a: Anchor, env: Env) {
    !Skipped(a) && (env.hostOf(a.href) == env.finalHost || env.hostOf(a.href) == "")
  }

  /** An external link that carries neither `nofollow` nor `noopener`. */
  predicate Unguarded(a: Anchor, env: Env) {
    External(a, env) && "nofollow" !in a.rel && "noopener" !in a.rel
  }

  function UnguardedIn(env: Env): Anchor -> bool {
    a => Unguarded(a, env)
  }

  datatype LinkTally = LinkTally(internal: nat, external: nat, unguarded: nat)

  function TallyLinks(anchors: seq<Anchor>, env: Env): (t: LinkTally)
    ensures t.internal + t.external <= |anchors|
    ensures t.unguarded <= t.external
  {
    if |anchors| == 0 then LinkTally(0, 0, 0)
    else
      var t := TallyLinks(anchors[..|anchors| - 1], env);
      var a := anchors[|anchors| - 1];
      LinkTally(t.internal + B2N(Internal(a, env)), t.external + B2N(External(a, env)),
                t.unguarded + B2N(Unguarded(a, env)))
  }

  lemma {:induction false} TallyLinksCounts(anchors: seq<Anchor>, env: Env)
    ensures TallyLinks(anchors, env).unguarded == Count(anchors, UnguardedIn(env))
    ensures TallyLinks(anchors, env).internal + TallyLinks(anchors, env).external
            == |anchors| - Count(anchors, Skipped)
  {
    if |anchors| > 0 {
      var init := anchors[..|anchors| - 1];
      var a := anchors[|anchors| - 1];
      TallyLinksCounts(init, env);
      assert anchors == init + [a];
      CountSnoc(init, a, UnguardedIn(env));
      CountSnoc(init, a, Skipped);
    }
  }

  function CheckLinks(anchors: seq<Anchor>, env: Env): (r: Report)
    ensures r.status != Error
    ensures r.detail.LinkDetail? && r.detail.totalLinks == |anchors|
    ensures r.detail.internalLinks + r.detail.externalLinks == |anchors| - Count(anchors, Skipped)
    ensures r.status == Warning <==> exists i :: 0 <= i < |anchors| && Unguarded(anchors[i], env)
    ensures |r.recommendations| == Count(anchors, UnguardedIn(env))
  {
    var t := TallyLinks(anchors, env);
    TallyLinksCounts(anchors, env);
    CountPositive(anchors, UnguardedIn(env));
    var recs := seq(t.unguarded, _ => UnguardedLinkAdvice);
    Report(if t.unguarded > 0 then Warning else Ok, recs, LinkDetail(|anchors|, t.internal, t.external))
  }

  // ---------------------------------------------------------------- audit

  datatype CheckKind = TitleCheck | DescriptionCheck | HeadingsCheck | ImagesCheck
                     | CanonicalCheck | RobotsCheck | SchemaCheck | LinksCheck

  const DefaultChecks: seq<string> :=
    ["title", "meta_description", "headings", "images", "canonical", "robots", "schema", "links"]

  /** The table from check name to check; other names have no handler. */
  function KindOf(name: string): Option<CheckKind> {
    match name
    case "title" => Some(TitleCheck)
    case "meta_description" => Some(DescriptionCheck)
    case "headings" => Some(HeadingsCheck)
    case "images" => Some(ImagesCheck)
    case "canonical" => Some(CanonicalCheck)
    case "robots" => Some(RobotsCheck)
    case "schema" => Some(SchemaCheck)
    case "links" => Some(LinksCheck)
    case _ => None
  }

  predicate Known(name: string) {
    KindOf(name).Some?
  }

  /** The table maps exactly the eight default names, each to its own check. */
  lemma KindOfTable(name: string)
    ensures KindOf(name).None? <==> name !in DefaultChecks
    ensures name == "title" ==> KindOf(name) == Some(TitleCheck)
    ensures name == "meta_description" ==> KindOf(name) == Some(DescriptionCheck)
    ensures name == "headings" ==> KindOf(name) == Some(HeadingsCheck)
    ensures name == "images" ==> KindOf(name) == Some(ImagesCheck)
    ensures name == "canonical" ==> KindOf(name) == Some(CanonicalCheck)
    ensures name == "robots" ==> KindOf(name) == Some(RobotsCheck)
    ensures name == "schema" ==> KindOf(name) == Some(SchemaCheck)
    ensures name == "links" ==> KindOf(name) == Some(LinksCheck)
  {
  }

  /** Every default check name has a handler. */
  lemma DefaultChecksKnown()
    ensures forall i :: 0 <= i < |DefaultChecks| ==> Known(DefaultChecks[i])
  {
  }

  /** Runs one check; `None` when it raises. */
  function RunCheck(kind: CheckKind, page: Page, env: Env): (r: Option<Report>)
    ensures kind == TitleCheck ==> r == Some(CheckTitle(page.title))
    ensures kind == DescriptionCheck ==> r == Some(CheckMetaDescription(page.description, page.title))
    ensures kind == HeadingsCheck ==> r == Some(CheckHeadings(page.headings))
    ensures kind == ImagesCheck ==> r == Some(CheckImages(page.images))
    ensures kind == CanonicalCheck ==> r == Some(CheckCanonical(page.canonical))
    ensures kind == RobotsCheck ==> r == Some(CheckRobotsMeta(page.robots))
    ensures kind == SchemaCheck ==> r == CheckSchema(page.ldScripts, env.decode)
    ensures kind == LinksCheck ==> r == Some(CheckLinks(page.anchors, env))
  {
    match kind
    case TitleCheck => Some(CheckTitle(page.title))
    case DescriptionCheck => Some(CheckMetaDescription(page.description, page.title))
    case HeadingsCheck => Some(CheckHeadings(page.headings))
    case ImagesCheck => Some(CheckImages(page.images))
    case CanonicalCheck => Some(CheckCanonical(page.canonical))
    case RobotsCheck => Some(CheckRobotsMeta(page.robots))
    case SchemaCheck => CheckSchema(page.ldScripts, env.decode)
    case LinksCheck => Some(CheckLinks(page.anchors, env))
  }

  /** What asking for one check name leads to. */
  datatype Outcome = NoHandler | Raised | Ran(report: Report)

  /** The check a name selects: the eight default names each run their own
      check, and any other name has no handler. */
  function Dispatch(name: string, page: Page, env: Env): (o: Outcome)
    ensures o.NoHandler? <==> name !in DefaultChecks
    ensures name == "title" ==> o == Ran(CheckTitle(page.title))
    ensures name == "meta_description" ==> o == Ran(CheckMetaDescription(page.description, page.title))
    ensures name == "headings" ==> o == Ran(CheckHeadings(page.headings))
    ensures name == "images" ==> o == Ran(CheckImages(page.images))
    ensures name == "canonical" ==> o == Ran(CheckCanonical(page.canonical))
    ensures name == "robots" ==> o == Ran(CheckRobotsMeta(page.robots))
    ensures name == "schema" ==> (o.Raised? <==> CheckSchema(page.ldScripts, env.decode).None?)
    ensures name == "schema" && o.Ran? ==> o.report == CheckSchema(page.ldScripts, env.decode).value
    ensures name == "links" ==> o == Ran(CheckLinks(page.anchors, env))
  {
    KindOfTable(name);
    match KindOf(name)
    case None => NoHandler
    case Some(kind) =>
      match RunCheck(kind, page, env)
      case None => Raised
      case Some(report) => Ran(report)
  }

  function DispatchOn(page: Page, env: Env): string -> Outcome {
    name => Dispatch(name, page, env)
  }

  datatype Issues = Issues(critical: nat, warnings: nat, passed: nat) {
    function Total(): nat {
      critical + warnings + passed
    }
  }

  /** The issue counter that a status increments. */
  function Bump(i: Issues, s: Status): Issues {
    match s
    case Error => i.(critical := i.critical + 1)
    case Warning => i.(warnings := i.warnings + 1)
    case Ok => i.(passed := i.passed + 1)
  }

  datatype Tally = Tally(checks: map<string, Report>, issues: Issues)

  /** Whether a name's check ran and reported status `s`. */
  function StatusIs(run: string -> Outcome, s: Status): string -> bool {
    n => run(n).Ran? && run(n).report.status == s
  }

  function HasHandler(run: string -> Outcome): string -> bool {
    n => !run(n).NoHandler?
  }

  /** The loop over the requested names; `None` once a check raises. */
  function RunChecks(names: seq<string>, run: string -> Outcome): (r: Option<Tally>)
    ensures r.None? <==> exists i :: 0 <= i < |names| && run(names[i]).Raised?
    ensures r.Some? ==> forall n :: n in r.value.checks <==> n in names && !run(n).NoHandler?
    ensures r.Some? ==> forall n :: n in r.value.checks ==> run(n).Ran? && r.value.checks[n] == run(n).report
  {
    if |names| == 0 then Some(Tally(map[], Issues(0, 0, 0)))
    else
      var init := names[..|names| - 1];
      var name := names[|names| - 1];
      var prev := RunChecks(init, run);
      assert forall i :: 0 <= i < |init| ==> init[i] == names[i];
      assert names == init + [name];
      if prev.None? then None
      else match run(name)
        case NoHandler => prev
        case Raised => None
        case Ran(report) => Some(Tally(prev.value.checks[name := report], Bump(prev.value.issues, report.status)))
  }

  /** Each requested name that has a handler increments exactly one counter,
      the one its status selects; other names increment none. */
  lemma {:induction false} TallyCounts(names: seq<string>, run: string -> Outcome)
    requires RunChecks(names, run).Some?
    ensures var i := RunChecks(names, run).value.issues;
      && i.critical == Count(names, StatusIs(run, Error))
      && i.warnings == Count(names, StatusIs(run, Warning))
      && i.passed == Count(names, StatusIs(run, Ok))
      && i.Total() == Count(names, HasHandler(run))
  {
    if |names| > 0 {
      var init := names[..|names| - 1];
      var name := names[|names| - 1];
      assert names == init + [name];
      TallyCounts(init, run);
      CountSnoc(init, name, StatusIs(run, Error));
      CountSnoc(init, name, StatusIs(run, Warning));
      CountSnoc(init, name, StatusIs(run, Ok));
      CountSnoc(init, name, HasHandler(run));
    }
  }

  /** Percentage of passed checks, truncated; 0 when no check ran. */
  function Score(i: Issues): (score: nat)
    ensures score <= 100
    ensures i.Total() == 0 ==> score == 0
    ensures i.Total() > 0 ==> score * i.Total() <= 100 * i.passed < (score + 1) * i.Total()
    ensures score == 100 <==> i.Total() > 0 && i.critical == 0 && i.warnings == 0
  {
    if i.Total() > 0 then
      var q := 100 * i.passed / i.Total();
      FloorPercent(i.passed, i.Total(), q);
      q
    else 0
  }

  /** The truncated percentage `q` of `p` out of `t` brackets `100 p / t`,
      never exceeds 100, and reaches it only when `p == t`. */
  lemma FloorPercent(p: nat, t: nat, q: int)
    requires 0 < t && p <= t && q == 100 * p / t
    ensures 0 <= q <= 100
    ensures q * t <= 100 * p < (q + 1) * t
    ensures q == 100 <==> p == t
  {
    var a := 100 * p;
    var m := a % t;
    assert a == q * t + m && 0 <= m < t;
    assert (q + 1) * t == q * t + t;
    assert a <= 100 * t;
    if q >= 101 {
      MulMono(101, q, t);
      assert false;
    }
    if q < 0 {
      MulMono(q, -1, t);
      assert false;
    }
    if q <= 99 {
      MulMono(q, 99, t);
      assert a < 100 * t;
    }
  }

  datatype AuditStatus = Completed | Failed

  datatype AuditResult = AuditResult(
    url: string,
    status: AuditStatus,
    checks: map<string, Report>,
    score: nat,
    issues: Issues,
    error: Option<string>)

  /** `audit_website`. `checks` absent selects all eight checks. A `Failure`
      is the `TypeError` the JSON-LD check lets escape. */
  function AuditWebsite(url: string, checks: Option<seq<string>>, fetch: Fetch<Page>, env: Env): (r: Result<AuditResult>)
    ensures fetch.FetchFailed? ==>
      r == Success(AuditResult(url, Failed, map[], 0, Issues(0, 0, 0), Some(fetch.reason)))
    ensures fetch.Fetched? ==>
      var names := checks.GetOr(DefaultChecks);
      var run := DispatchOn(fetch.doc, env);
      && (r.Failure? <==> exists i :: 0 <= i < |names| && Dispatch(names[i], fetch.doc, env).Raised?)
      && (r.Success? ==>
          && r.value.status == Completed
          && r.value.error.None?
          && r.value.issues.critical == Count(names, StatusIs(run, Error))
          && r.value.issues.warnings == Count(names, StatusIs(run, Warning))
          && r.value.issues.passed == Count(names, StatusIs(run, Ok))
          && r.value.issues.Total() == Count(names, Known)
          && r.value.score == Score(r.value.issues)
          && (forall n :: n in r.value.checks <==> n in names && Known(n))
          && (forall n :: n in r.value.checks ==>
                Dispatch(n, fetch.doc, env).Ran? && r.value.checks[n] == Dispatch(n, fetch.doc, env).report))
  {
    match fetch
    case FetchFailed(reason) => Success(AuditResult(url, Failed, map[], 0, Issues(0, 0, 0), Some(reason)))
    case Fetched(page) =>
      var names := checks.GetOr(DefaultChecks);
      var run := DispatchOn(page, env);
      match RunChecks(names, run)
      case None => Failure("TypeError")
      case Some(t) =>
        TallyCounts(names, run);
        CountSame(names, HasHandler(run), Known);
        Success(AuditResult(url, Completed, t.checks, Score(t.issues), t.issues, None))
  }

  /** Names without a handler are skipped: dropping them changes nothing. */
  lemma {:induction false} UnknownNamesSkipped(names: seq<string>, run: string -> Outcome)
    ensures RunChecks(names, run) == RunChecks(Filter(names, HasHandler(run)), run)
  {
    if |names| > 0 {
      var init := names[..|names| - 1];
      var name := names[|names| - 1];
      var p := HasHandler(run);
      assert names == init + [name];
      UnknownNamesSkipped(init, run);
      FilterSnoc(init, name, p);
      var f := Filter(init, p);
      if p(name) {
        assert Filter(names, p) == f + [name];
        assert (f + [name])[..|f + [name]| - 1] == f;
      } else {
        assert Filter(names, p) == f;
      }
    }
  }

  /** The default run, when it returns, counts all eight checks. */
  lemma DefaultAuditCountsEight(url: string, page: Page, env: Env)
    ensures AuditWebsite(url, None, Fetched(page), env).Success? ==>
      AuditWebsite(url, None, Fetched(page), env).value.issues.Total() == 8
  {
    DefaultChecksKnown();
    CountAllKnown(DefaultChecks);
  }

  lemma {:induction false} CountAllKnown(names: seq<string>)
    requires forall i :: 0 <= i < |names| ==> Known(names[i])
    ensures Count(names, Known) == |names|
  {
    if |names| > 0 {
      CountAllKnown(names[1..]);
    }
  }

  // --------------------------------------------------------------- report

  datatype ReportFormat = Json | PlainText | Html

  /** The format guard of `generate_report`. */
  function ParseReportFormat(format: string): (r: Result<ReportFormat>)
    ensures r.Success? <==> format in {"json", "text", "html"}
    ensures r.Failure? ==> r.error == "Unsupported format: " + format
  {
    match format
    case "json" => Success(Json)
    case "text" => Success(PlainText)
    case "html" => Success(Html)
    case _ => Failure("Unsupported format: " + format)
  }
}

=== FILE: text.dfy ===
/** Models of the Python `str` operations the checkers rely on. Strings are
    sequences of Unicode scalar values, like Python's `str`. */
module Text {

  /** Python's `str.isspace()`, which is also what the regex class `\s` and
      the argument-less `str.strip()` use. */
  predicate IsSpace(c: char) {
    || c == ' ' || c == '\t' || c == '\n' || c == '\r'
    || c == '\U{000B}' || c == '\U{000C}'
    || ('\U{001C}' <= c <= '\U{001F}')
    || c == '\U{0085}' || c == '\U{00A0}' || c == '\U{1680}'
    || ('\U{2000}' <= c <= '\U{200A}')
    || c == '\U{2028}' || c == '\U{2029}' || c == '\U{202F}'
    || c == '\U{205F}' || c == '\U{3000}'
  }

  predicate IsDigit(c: char) {
    '0' <= c <= '9'
  }

  /** `s.lstrip()` */
  function StripLeft(s: string): (r: string)
    ensures |r| <= |s| && r == s[|s| - |r|..]
    ensures forall i :: 0 <= i < |s| - |r| ==> IsSpace(s[i])
    ensures r == [] || !IsSpace(r[0])
  {
    if |s| > 0 && IsSpace(s[0]) then StripLeft(s[1..]) else s
  }

  /** `s.rstrip()` */
  function StripRight(s: string): (r: string)
    ensures |r| <= |s| && r == s[..|r|]
    ensures forall i :: |r| <= i < |s| ==> IsSpace(s[i])
    ensures r == [] || !IsSpace(r[|r| - 1])
  {
    if |s| > 0 && IsSpace(s[|s| - 1]) then StripRight(s[..|s| - 1]) else s
  }

  /** `s.strip()`: the slice left after removing surrounding whitespace. */
  function Strip(s: string): (r: string)
    ensures |r| <= |s|
    ensures r == [] || (!IsSpace(r[0]) && !IsSpace(r[|r| - 1]))
  {
    StripRight(StripLeft(s))
  }

  /** Stripping only removes whitespace, so every other character stays. */
  lemma StripKeeps(s: string, c: char)
    requires c in s && !IsSpace(c)
    ensures c in Strip(s)
  {
    var l := StripLeft(s);
    var i :| 0 <= i < |s| && s[i] == c;
    assert l[i - (|s| - |l|)] == c;
    var r := StripRight(l);
    assert r[i - (|s| - |l|)] == c;
  }

  /** Lower-casing of one character (ASCII letters only). */
  function LowerChar(c: char): (d: char)
    ensures !('A' <= d <= 'Z')
  {
    if 'A' <= c <= 'Z' then (c as int + 32) as char else c
  }

  /** `s.lower()`, restricted to ASCII letters. */
  function Lower(s: string): (r: string)
    ensures |r| == |s|
    ensures forall i :: 0 <= i < |s| ==> r[i] == LowerChar(s[i])
  {
    seq(|s|, i requires 0 <= i < |s| => LowerChar(s[i]))
  }

  /** A lower-cased string holds no upper-case ASCII letter, so it can never
      equal a literal that does. */
  lemma LowerDiffersFromMixedCase(s: string, lit: string, k: nat)
    requires k < |lit| && 'A' <= lit[k] <= 'Z'
    ensures Lower(s) != lit
  {
    if |s| == |lit| {
      assert Lower(s)[k] != lit[k];
    }
  }

  /** `s.startswith(p)` */
  predicate StartsWith(s: string, p: string) {
    |p| <= |s| && s[..|p|] == p
  }

  /** `s.endswith(p)` */
  predicate EndsWith(s: string, p: string) {
    |p| <= |s| && s[|s| - |p|..] == p
  }

  /** `sub in s` */
  predicate Contains(s: string, sub: string)
    decreases |s|
  {
    StartsWith(s, sub) || (|s| > 0 && Contains(s[1..], sub))
  }

  /** `sub in s` holds exactly when `sub` occurs at some position of `s`. */
  lemma {:induction false} ContainsIffOccurs(s: string, sub: string)
    ensures Contains(s, sub) <==> exists i :: 0 <= i <= |s| && StartsWith(s[i..], sub)
    decreases |s|
  {
    assert s[0..] == s;
    if |s| > 0 {
      ContainsIffOccurs(s[1..], sub);
      if exists i :: 0 <= i <= |s| && StartsWith(s[i..], sub) {
        var i :| 0 <= i <= |s| && StartsWith(s[i..], sub);
        if i > 0 {
          assert s[1..][i - 1..] == s[i..];
        }
      }
      if Contains(s[1..], sub) {
        var i :| 0 <= i <= |s[1..]| && StartsWith(s[1..][i..], sub);
        assert s[1..][i..] == s[i + 1..];
      }
    }
  }

  /** Index of the first occurrence of `c`. */
  function IndexOf(s: string, c: char): (i: nat)
    requires c in s
    ensures i < |s| && s[i] == c && c !in s[..i]
  {
    if s[0] == c then 0 else 1 + IndexOf(s[1..], c)
  }

  /** `s.split(c, 1)` for a string holding `c`: the text before the first
      `c` and the text after it. */
  function SplitFirst(s: string, c: char): (p: (string, string))
    requires c in s
    ensures s == p.0 + [c] + p.1 && c !in p.0
  {
    var i := IndexOf(s, c);
    assert s == s[..i] + [c] + s[i + 1..];
    (s[..i], s[i + 1..])
  }

  /** `s.split(sep)` for a one-character separator: always one more piece
      than there are separators. */
  function Split(s: string, sep: char): (parts: seq<string>)
    ensures |parts| >= 1
    ensures forall k :: 0 <= k < |parts| ==> sep !in parts[k]
  {
    if |s| == 0 then [""]
    else if s[0] == sep then [""] + Split(s[1..], sep)
    else
      var rest := Split(s[1..], sep);
      [[s[0]] + rest[0]] + rest[1..]
  }

  /** `sep.join(parts)` */
  function Join(parts: seq<string>, sep: string): string {
    if |parts| == 0 then ""
    else if |parts| == 1 then parts[0]
    else parts[0] + sep + Join(parts[1..], sep)
  }

  /** Splitting and joining with the same separator gives back the text. */
  lemma {:induction false} JoinSplit(s: string, sep: char)
    ensures Join(Split(s, sep), [sep]) == s
  {
    if |s| == 0 {
    } else if s[0] == sep {
      JoinSplit(s[1..], sep);
      var rest := Split(s[1..], sep);
      assert Split(s, sep) == [""] + rest;
      assert ([""] + rest)[1..] == rest;
      assert s == "" + [sep] + s[1..];
    } else {
      JoinSplit(s[1..], sep);
      var rest := Split(s[1..], sep);
      var parts := Split(s, sep);
      assert parts == [[s[0]] + rest[0]] + rest[1..];
      if |rest| == 1 {
        assert parts == [[s[0]] + rest[0]];
        assert s == [s[0]] + s[1..];
      } else {
        assert parts[1..] == rest[1..];
        assert Join(rest, [sep]) == rest[0] + [sep] + Join(rest[1..], [sep]);
        assert s == [s[0]] + s[1..];
      }
    }
  }

  /** Text without the separator splits into itself alone. */
  lemma {:induction false} SplitWithoutSeparator(a: string, sep: char)
    requires sep !in a
    ensures Split(a, sep) == [a]
  {
    if |a| > 0 {
      SplitWithoutSeparator(a[1..], sep);
      assert [a[0]] + a[1..] == a;
    }
  }

  /** The text before the first separator becomes the first piece. */
  lemma {:induction false} SplitAfterPiece(a: string, sep: char, rest: string)
    requires sep !in a
    ensures Split(a + [sep] + rest, sep) == [a] + Split(rest, sep)
  {
    var s := a + [sep] + rest;
    if |a| == 0 {
      assert s == [sep] + rest;
      assert s[1..] == rest;
    } else {
      assert s[1..] == a[1..] + [sep] + rest;
      SplitAfterPiece(a[1..], sep, rest);
      assert [a[0]] + a[1..] == a;
    }
  }

  /** Joining pieces that hold no separator and splitting again gives the
      pieces back. */
  lemma {:induction false} SplitJoin(parts: seq<string>, sep: char)
    requires |parts| >= 1
    requires forall k :: 0 <= k < |parts| ==> sep !in parts[k]
    ensures Split(Join(parts, [sep]), sep) == parts
  {
    if |parts| == 1 {
      SplitWithoutSeparator(parts[0], sep);
    } else {
      SplitJoin(parts[1..], sep);
      SplitAfterPiece(parts[0], sep, Join(parts[1..], [sep]));
      assert [parts[0]] + parts[1..] == parts;
    }
  }

  /** A suffix of the text after position `i` is a suffix of the whole
      text, preceded either by position `i` or by the same character. */
  lemma EndsWithDrop(s: string, i: nat, r: string)
    requires i < |s| && EndsWith(s[i + 1..], r)
    ensures EndsWith(s, r) && |r| < |s|
    ensures r == s[i + 1..] ==> s[|s| - |r| - 1] == s[i]
    ensures r != s[i + 1..] ==> |r| < |s[i + 1..]| && s[|s| - |r| - 1] == s[i + 1..][|s[i + 1..]| - |r| - 1]
  {
    assert s[i + 1..][|s[i + 1..]| - |r|..] == s[|s| - |r|..];
  }

  /** `s.split(sep)[-1]`: the text after the last separator, or all of `s`. */
  function LastSegment(s: string, sep: char): (r: string)
    ensures sep !in r
    ensures EndsWith(s, r)
    ensures r == s || s[|s| - |r| - 1] == sep
  {
    if sep !in s then s
    else
      var i := IndexOf(s, sep);
      var r := LastSegment(s[i + 1..], sep);
      EndsWithDrop(s, i, r);
      r
  }

  /** `s.replace(c, rep)` for a one-character pattern. */
  function ReplaceChar(s: string, c: char, rep: string): (r: string)
    ensures c !in rep ==> c !in r
    ensures c !in s ==> r == s
  {
    if |s| == 0 then ""
    else (if s[0] == c then rep else [s[0]]) + ReplaceChar(s[1..], c, rep)
  }

  /** The characters `str.splitlines()` breaks at (`\r\n` counts as two
      breaks here, which only adds an empty line). */
  predicate IsLineBreak(c: char) {
    || c == '\n' || c == '\r' || c == '\U{000B}' || c == '\U{000C}'
    || ('\U{001C}' <= c <= '\U{001E}')
    || c == '\U{0085}' || c == '\U{2028}' || c == '\U{2029}'
  }

  /** The text cut at every line break. */
  function Lines(s: string): (lines: seq<string>)
    ensures |lines| >= 1
    ensures forall k, j :: 0 <= k < |lines| && 0 <= j < |lines[k]| ==> !IsLineBreak(lines[k][j])
  {
    if |s| == 0 then [""]
    else if IsLineBreak(s[0]) then [""] + Lines(s[1..])
    else
      var rest := Lines(s[1..]);
      [[s[0]] + rest[0]] + rest[1..]
  }

  function DigitChar(d: nat): (c: char)
    requires d < 10
    ensures IsDigit(c)
  {
    ('0' as int + d) as char
  }

  function DigitValue(c: char): (d: nat)
    requires IsDigit(c)
    ensures d < 10
  {
    c as int - '0' as int
  }

  /** `str(n)` for a natural number. */
  function NatToString(n: nat): (r: string)
    ensures |r| >= 1
    ensures forall i :: 0 <= i < |r| ==> IsDigit(r[i])
    ensures r[0] == '0' ==> r == "0"
  {
    if n < 10 then [DigitChar(n)] else NatToString(n / 10) + [DigitChar(n % 10)]
  }

  /** `int(s)` for a non-empty run of ASCII digits. */
  function DigitsValue(s: string): nat
    requires forall i :: 0 <= i < |s| ==> IsDigit(s[i])
  {
    if |s| == 0 then 0 else DigitsValue(s[..|s| - 1]) * 10 + DigitValue(s[|s| - 1])
  }

  /** `s` is a run of ASCII digits whose value is `n`. */
  predicate ReadsAs(s: string, n: nat) {
    (forall i :: 0 <= i < |s| ==> IsDigit(s[i])) && DigitsValue(s) == n
  }

  /** Reading back the decimal text of `n` gives `n`. */
  lemma {:induction false} DecimalRoundTrip(n: nat)
    ensures DigitsValue(NatToString(n)) == n
  {
    if n >= 10 {
      DecimalRoundTrip(n / 10);
      var r := NatToString(n);
      assert r[..|r| - 1] == NatToString(n / 10);
    }
  }
}
